=== FILE: README.md ===
# formatted_string in Dafny

A model of `formatted_string`, the rich-text value of Dungeon Crawl Stone
Soup (`crawl-ref/source/format.cc`), with proofs about it. A formatted
string is a sequence of ops. Each op is either a run of text or a colour
change, and a colour change may record the colour whose scope it closes.
The model covers six parts:

- **Colours** (`colours.dfy`): the sixteen terminal colours and their names,
  and `get_colour` with its aliases `h` and `w`.
- **Formatted** (`formatted.dfy`): the op datatype and the plain-text
  projection. It also holds the `+=` overloads, `textcolour`,
  `push_colour`/`pop_colour`, `find_last_colour` and `operator[]`. The
  "exploded" form cuts every text run into one-byte runs; two strings with
  the same exploded form differ only in how their text is split into runs.
- **Projections** (`projections.dfy`): `cap` and `tostring`, plain-text
  `<` and structural `==`, `count_linebreaks` and `string_height`, and
  `to_colour_string` (markup output). It also has `_replace_all_in_string`
  and `html_dump`.
- **Markup** (`markup.dfy`): the markup parser `parse_string1` and its two
  callers, `parse_string` and `parse_string_to_multiple`.
  - `Scan` is a reference definition. It takes the input one step at a time
    (a literal byte, a `<<` escape, a stray `<`, or a whole tag).
  - The imperative scanner, with its 999-byte buffer, is proved to produce
    the same ops as `Scan` up to how the text is split into runs.
  - Output written by `to_colour_string` for a well-nested string parses
    back to the ops it came from, up to how the text is split into runs.
- **Slicing** (`slicing.dfy`): `chop`, `substr_bytes`/`chop_bytes`,
  `del_char` and `add_glyph`.
- **Reflow** (`reflow.dfy`): `linebreak_formatted_string` and its helpers
  `_find_newline` and `_find_index_before_width`.
  - The loop is modelled as written: a byte buffer `base` mirrored by the
    result `ret`.
  - Each pass either turns a space into a newline or cuts the text and
    appends `..`.
  - `Reflowing` is a reference definition, one pass at a time: the buffer
    is left as it is, cut two bytes before the line's end with `..`, or
    broken at the newline or the last space within the width. The loop is
    proved to compute exactly it.

Bytes are `char`s and every glyph is one byte of width one. A colour is an
`int`, `-1` is "unknown colour", and the `closing_colour == -1` sentinel is
`Option.None`.

## Model

| member | source | states |
|---|---|---|
| Colours.GetColour | crawl-ref/source/format.cc:35-44 | "h" is YELLOW, "w" is WHITE, any other tag goes through the colour table; the result is a colour or -1 |
| Colours.StrToColourUnknown | crawl-ref/source/format.cc:43 | the colour lookup answers -1 exactly when the name is not in the table |
| Colours.NameRoundTrip | crawl-ref/source/format.cc:394-398 | the name written for a colour reads back as that colour and is safe inside a tag (non-empty, no `<`, `>` or leading `/`) |
| Formatted.PlainAppend | crawl-ref/source/format.cc:242-250 | the plain text of a concatenation is the concatenation of the plain texts |
| Formatted.AppendFormatted | crawl-ref/source/format.cc:302-307 | `+=` keeps the old ops as a prefix and appends the other's ops verbatim after them, so the exploded form is the concatenation of the two; it appends the other's text, and the last colour is the other's last colour if it has one |
| Formatted.AppendString | crawl-ref/source/format.cc:309-314 | `+=` with a string adds exactly one op, appends its text, and leaves the current colour alone |
| Formatted.LastColourOrIsLast | crawl-ref/source/format.cc:419-428 | the last-colour search yields the colour of the last colour op, or the default when there is none |
| Formatted.FindLastColour | crawl-ref/source/format.cc:419-428 | LIGHTGREY when the string holds no colour op; otherwise `LastColourOrIsLast` names the op |
| Formatted.TextColourEffect | crawl-ref/source/format.cc:526-529 | `textcolour` keeps the ops so far and the text, and makes `c` the current colour |
| Formatted.PushColourEffect | crawl-ref/source/format.cc:531-535 | `push_colour` keeps the old ops and adds exactly one, keeps the text, puts `c` on top of the stack and makes it current |
| Formatted.PopColourEffect | crawl-ref/source/format.cc:537-544 | `pop_colour` keeps the old ops and adds exactly one, drops the stack top, makes the colour under it current, and the new op records the colour it closed |
| Formatted.ByteAt | crawl-ref/source/format.cc:336-352 | reading byte `idx` succeeds exactly when `idx` is inside the plain text, and gives that byte |
| Formatted.SetByte | crawl-ref/source/format.cc:336-352 | writing byte `idx` succeeds exactly when it is inside the plain text, changes only that byte of the plain text and keeps every op and run length |
| Formatted.ExplodeKeeps | crawl-ref/source/format.cc:242-250 | splitting text into one-byte runs keeps the plain text and the colour ops |
| Projections.Cap | crawl-ref/source/format.cc:326-334 | a negative index counts back from `max`; the result is a valid index clamped into `[0, max)`, or 0 when `max <= 0` |
| Projections.ToString | crawl-ref/source/format.cc:354-368 | `tostring(s, e)` is the plain text of ops `cap(s)` to `cap(e)` |
| Projections.ToStringDefault | crawl-ref/source/format.cc:354-368 | with arguments (0, -1) `tostring` is the whole plain text |
| Projections.LessIsColourBlindOrder | crawl-ref/source/format.cc:291-294 | `<` is a strict total order on plain texts that ignores colour |
| Projections.Equal | crawl-ref/source/format.cc:296-300 | equal strings have equal plain text and colour ops |
| Projections.EqualIsStructural | crawl-ref/source/format.cc:296-300 | two strings showing the same text can still compare unequal when their runs are split differently |
| Projections.FindChar | crawl-ref/source/format.cc:180 | the first index at or after `from` holding `c`, or -1 exactly when there is none |
| Projections.CountFound | crawl-ref/source/format.cc:619-630 | the repeated find loop counts every newline of the string |
| Projections.CountLinebreaks | crawl-ref/source/format.cc:614-631 | the count is the number of newlines in the plain text |
| Projections.StringHeight | crawl-ref/source/format.cc:777-781 | the height is one more than the number of newlines |
| Projections.DoubleAngles | crawl-ref/source/format.cc:378-390 | the in-place loop doubles every `<` from the start offset on and leaves the rest alone |
| Projections.AppendOpMarkup | crawl-ref/source/format.cc:376-400 | one op adds its markup: escaped text, `<name>` for an opening op, `</name>` for a closing op |
| Projections.ToColourString | crawl-ref/source/format.cc:370-404 | the markup is each op's markup in order |
| Projections.Find | crawl-ref/source/format.cc:256 | first match of the pattern at or after `from`, or -1 exactly when there is none |
| Projections.ReplaceAllInString | crawl-ref/source/format.cc:252-261 | the loop replaces every match left to right and never rescans inserted text |
| Projections.ReplaceCharAppend | crawl-ref/source/format.cc:252-261 | replacing a single character distributes over concatenation |
| Projections.HtmlDump | crawl-ref/source/format.cc:263-289 | the dump is each op's HTML in order: escaped text, or an unclosed font tag for a colour |
| Projections.HtmlTextPerChar | crawl-ref/source/format.cc:271-279 | the five replacement passes do not interfere: each character is escaped on its own (`&`, space, `<`, `>`, newline) |
| Markup.TagActionOf | crawl-ref/source/format.cc:195-233 | a closing tag pops exactly when it names a known colour on top of the stack with something under it; an opening tag pushes exactly when it names a known colour, and pushes that colour; every other tag is echoed back as `<` + its text + `>` |
| Markup.TagOps | crawl-ref/source/format.cc:208-233 | a tag's ops never touch the bottom of the stack and end by switching to the new stack top |
| Markup.Echo | crawl-ref/source/format.cc:215-219 | an echoed tag is three ops: a LIGHTRED push, its text, and a pop that closes LIGHTRED, the same ops as `push_colour`, `cprintf` and `pop_colour` in turn; the stack is unchanged |
| Markup.TagOpsShape | crawl-ref/source/format.cc:208-233 | a tag adds no text except its own echo, and pops one colour, pushes one (opening tags only), or keeps the stack |
| Markup.ScanKeepsBase | crawl-ref/source/format.cc:212-213 | however malformed the input, the bottom of the colour stack is never popped |
| Markup.ScanColourTop | crawl-ref/source/format.cc:208-233 | after parsing, the current colour is the stack top, and input without colour ops leaves the stack as it was |
| Markup.ScanNoAngle | crawl-ref/source/format.cc:166-170 | input without `<` becomes one text op per byte and leaves the stack alone |
| Markup.ScanNoAnglePlain | crawl-ref/source/format.cc:166-170 | the plain text of input without `<` is the input, with no colour ops |
| Markup.ScanAtEscape | crawl-ref/source/format.cc:172-178 | `<<` reads as one literal `<` and skips two bytes |
| Markup.ScanAtLoneAngle | crawl-ref/source/format.cc:180-193 | a `<` with no `>` after it, or an empty or `/` tag, is literal text |
| Markup.ScanAtTag | crawl-ref/source/format.cc:195-235 | a usable tag produces its tag ops, and parsing resumes after its `>` |
| Markup.FlushBound | crawl-ref/source/format.cc:147-156 | the early flush cuts just after the last newline at or before index 999, or at 999 when there is none |
| Markup.InvFlush | crawl-ref/source/format.cc:157-163 | writing out a prefix of the buffer neither drops nor reorders a byte |
| Markup.ParseString1 | crawl-ref/source/format.cc:131-239 | the scanner keeps what was already there, produces the ops of `Scan` (up to how the text is split into runs), ends on `Scan`'s stack, and writes text runs of at most 999 bytes apart from echoed tags |
| Markup.CloseAll | crawl-ref/source/format.cc:84-85 | the pop loop appends one closing op per open colour and leaves only the bottom colour |
| Markup.ParseString | crawl-ref/source/format.cc:74-88 | the ops are the scan of the input followed by closers for every colour left open; the stack ends as `[main]`, and the string ends in `main` when it has any colour op |
| Markup.ClosedEndsInMain | crawl-ref/source/format.cc:84-85 | a scan closed down to its bottom colour ends in that colour |
| Markup.StackAt | crawl-ref/source/format.cc:110-120 | the stack carried from line to line always has LIGHTGREY at the bottom |
| Markup.ParseLine | crawl-ref/source/format.cc:114-126 | a line is re-openers for the carried stack, the line's scan, and closers down to LIGHTGREY, ending in LIGHTGREY |
| Markup.ParseStringToMultiple | crawl-ref/source/format.cc:110-127 | one formatted string per line, each parsed on the stack the previous lines left, bracketed by openers and closers |
| Markup.ScanEscaped | crawl-ref/source/format.cc:172-178 | escaped text reads back as its own bytes, and parsing continues unchanged after it |
| Markup.TagOpsOpen | crawl-ref/source/format.cc:221-232 | `<name>` of a colour pushes that colour |
| Markup.ScanEchoTag | crawl-ref/source/format.cc:208-233 | an unknown colour tag, or a closing tag that does not name the colour on top, reads as its LIGHTRED echo, then the rest on the same stack |
| Markup.ScanOpenTag | crawl-ref/source/format.cc:221-235 | `<name>` in front of more input reads as the opening op, then the rest on the grown stack |
| Markup.TagOpsClose | crawl-ref/source/format.cc:208-213 | `</name>` of the stack top, with something below it, pops it |
| Markup.ScanCloseTag | crawl-ref/source/format.cc:195-235 | `</name>` in front of more input reads as the closing op, then the rest on the shrunk stack |
| Markup.MarkupRoundTrip | crawl-ref/source/format.cc:370-404 | parsing the markup of any well-nested string gives back its ops, up to how the text is split into runs |
| Markup.MarkupRoundTripPlain | crawl-ref/source/format.cc:370-404 | the round trip keeps the plain text and the colour ops |
| Markup.OpeningOnlyNested | crawl-ref/source/format.cc:392-400 | any string of text and opening colour ops is well nested |
| Markup.Reparse | crawl-ref/source/format.cc:74-88 | `parse_string(to_colour_string(x))` gives back the plain text of `x` and its ops up to text splitting, followed by closers |
| Slicing.ChopKeepsShape | crawl-ref/source/format.cc:430-451 | `chop` keeps a prefix of the ops unchanged, except that the last kept text run may be shortened |
| Slicing.ChopPlain | crawl-ref/source/format.cc:430-451 | the plain text of `chop(n)` is the first `n` bytes of the plain text |
| Slicing.ChopStopsAtLength | crawl-ref/source/format.cc:433-447 | `chop` stops at the first text run that reaches `length`: ops are dropped only once the kept text has reached it, and no text run before the last kept op had |
| Slicing.ChopWidth | crawl-ref/source/format.cc:439-441 | chopping to a non-negative width never leaves more than that width |
| Slicing.Substr | crawl-ref/source/format.cc:474 | `substr(pos, count)` is the bytes of `t` from `pos` on, `count` of them or up to the end, with a negative count read as "to the end" |
| Slicing.SubstrBytesPlain | crawl-ref/source/format.cc:458-487 | the plain text of `substr_bytes(pos, len)` is bytes `[pos, pos+len)` of the plain text, clipped to its end |
| Slicing.SubstrBytesColour | crawl-ref/source/format.cc:461-484 | a non-empty result starts with a colour op, and its text starts in the colour in effect at `pos` |
| Slicing.SubstrLoopColours | crawl-ref/source/format.cc:461-484 | the loop colours each byte it takes as that byte was coloured in the input: colour ops met while skipping set the opening colour, and those met while taking are copied |
| Slicing.SubstrBytesColours | crawl-ref/source/format.cc:458-487 | every byte `p` of `substr_bytes(pos, len)` is in the colour byte `pos + p` of the input was in (LIGHTGREY before any colour op) |
| Slicing.ChopBytesPlain | crawl-ref/source/format.cc:453-456 | the plain text of `chop_bytes(n)` is the first `n` bytes |
| Slicing.DelChar | crawl-ref/source/format.cc:494-511 | `del_char` removes at most one op and keeps the colour ops |
| Slicing.DelCharPlain | crawl-ref/source/format.cc:494-511 | `del_char` drops exactly the first byte of the plain text, and changes nothing when there is no text |
| Slicing.GlyphOpsFacts | crawl-ref/source/format.cc:515-523 | the glyph ops carry the glyph's text in the glyph's colour and switch back to the previous colour |
| Slicing.AddGlyphPlain | crawl-ref/source/format.cc:513-524 | `add_glyph` appends the glyph's text |
| Slicing.AddGlyphRestores | crawl-ref/source/format.cc:513-524 | after `add_glyph` the current colour is what it was before |
| Slicing.AddGlyphColour | crawl-ref/source/format.cc:513-524 | the glyph itself is drawn in its own colour |
| Reflow.FindNewline | crawl-ref/source/format.cc:655-659 | index of the first newline of the C string, or INT_MAX exactly when there is none |
| Reflow.IndexBeforeWidth | crawl-ref/source/format.cc:633-653 | the index where the width first exceeds the limit, when the C string reaches it with no newline up to and including it, else INT_MAX |
| Reflow.LineSearch | crawl-ref/source/format.cc:685-688 | both searches fail only when the rest of the text holds no newline; otherwise the earlier hit is in range with no newline before it |
| Reflow.BreakPoint | crawl-ref/source/format.cc:690-706 | the break is at the newline, or at the last space before the width cut, or -1; it is never past the cut or the newline, which makes the branch at 712-713 dead |
| Reflow.EllipsisAt | crawl-ref/source/format.cc:710-722 | the `..` goes two glyphs back from the line's end (or first newline), never before the line's start; the break-point branch is never taken |
| Reflow.CutWithEllipsis | crawl-ref/source/format.cc:708-727 | the text is cut two bytes before the line's end or newline and `..` appended: the result is the buffer up to the cut plus `..`, a reflowed prefix of the input, with no newline added and no line wider than the width (or 2); every byte before the `..` keeps the colour it had in the input |
| Reflow.CutResult | crawl-ref/source/format.cc:724-726 | `chop_bytes` then `..` gives the buffer prefix plus `..`, keeps the line count within `max_lines`, every line within the width (or 2), and the colour of every byte before the `..` |
| Reflow.CutColours | crawl-ref/source/format.cc:724-725 | `chop_bytes(cut)` then `..` on a copy with the input's shape leaves every byte before the cut in the colour it had in the input |
| Reflow.Truncated | crawl-ref/source/format.cc:724-726 | the first `off + e` bytes followed by `..` keep the newline count |
| Reflow.InvBreakAtSpace | crawl-ref/source/format.cc:728-732 | turning a space into a newline keeps `plain(ret) == base` and the byte index in range |
| Reflow.BreakLine | crawl-ref/source/format.cc:728-734 | a line break keeps the loop invariant and moves forward |
| Reflow.FitsPass | crawl-ref/source/format.cc:685-708 | on text whose lines all fit the width and that has at most `max_lines` lines, a pass finds no width cut and stops at a newline before the last allowed line |
| Reflow.Finished | crawl-ref/source/format.cc:687-688 | when no newline is left, the line count is final and the last line fits the width |
| Reflow.LastSpace | crawl-ref/source/format.cc:695-705 | the backward search from the width cut finds a space at an offset of at least 1 with no space after it up to the cut, or -1 when bytes `1..cut` hold no space |
| Reflow.LastSpaceUnique | crawl-ref/source/format.cc:695-705 | the result of that search is the only offset with those properties |
| Reflow.PassStepMeaning | crawl-ref/source/format.cc:685-734 | one pass in terms of its line's bytes: it ends the loop exactly when the C string has no newline and fits the width; it breaks at the first newline when that lies within the width, and on a line that runs past the width at the last space among bytes `1..width`; it cuts exactly on the last allowed line or on an overflowing line with no such space, two bytes before the width or the newline |
| Reflow.ReflowingDone | crawl-ref/source/format.cc:685-688 | when both searches fail, the reflow from that line leaves the buffer as it is, uncut |
| Reflow.ReflowingCut | crawl-ref/source/format.cc:708-726 | on the last allowed line or with no break point, the reflow is the buffer up to two bytes before the line's end or newline, followed by `..` |
| Reflow.ReflowingBreak | crawl-ref/source/format.cc:728-734 | otherwise the reflow is the reflow, from the next line on, of the buffer with the break point set to a newline |
| Reflow.ReflowingWrapsExample | crawl-ref/source/format.cc:669-738 | `aaaa bbbb cccc` nine bytes wide and two lines high becomes `aaaa bbbb` and `cccc` on two lines, uncut |
| Reflow.CutPass | crawl-ref/source/format.cc:708-726 | the cutting pass returns the input's prefix plus `..` within the height and width, keeps the colours before the cut, happens only on text that does not fit, and gives the reference reflow |
| Reflow.BreakPass | crawl-ref/source/format.cc:728-734 | the breaking pass keeps the loop invariant, moves forward, and the reflow of what is left is still the reference |
| Reflow.Linebreak | crawl-ref/source/format.cc:669-738 | empty for fewer than one line; otherwise either spaces turned into newlines with the ops' shape kept, or a reflowed prefix followed by `..`; the height is at most `max_lines` and no line is longer than `max_str_width` bytes (or 2, the `..`); text that already fits that width and height comes back unchanged; a cut result keeps the input's colour on every byte before the `..`. A second result, which the source does not return, is -1 when nothing was cut and otherwise the number of bytes kept; the text and that result are exactly the pass-by-pass reflow `Reflowing` of the plain text |

## Left out

- Terminal output (`display_tagged_block`, `display`, `fs_op::display`): it only draws on the screen.
- `filter_lang`, `all_caps` and `capitalise`: they call language and case functions that are not part of this model.
- `trim`: `trimmed_string` is not part of this model.
- Formatting in `cprintf`: only `cprintf(string)` is modelled, as `AppendString`; `"<%s>"` is plain concatenation.
- UTF-8 and display width (`strwidth`, `wcwidth`, `next_glyph`, `prev_glyph`, `chop_string`, `stringize_glyph`): every glyph is one byte of width one, so `width()` and `string_width` equal the byte count and are not modelled separately.
- The colour table: only the sixteen basic colour names are known. Other names read as -1, and colours outside the table print as "lightgrey".
- `split_string` and `wordwrap_line` in `parse_string_to_multiple`: the input is given as the list of lines, and `wrap_col` is not modelled.
- Markup.ParseStringToMultiple: it returns a fresh list of lines, where the source appends them to the caller's vector `out`. A caller's result is its old vector followed by this list.
- The constructors, `swap`, `clear` and `empty`: they only build or reset the op sequence.
- `substr_bytes` with a negative `pos`: `std::string::substr` throws for it, and `pos` is a `nat`.
- `operator[]` on an index past the text: the source dies, and the model returns `None`.
- `tostring()` with no arguments is taken to mean `tostring(0, -1)`, the whole text. The header that declares its default arguments, `format.h`, is not part of this model.
- The flush in `parse_string1` steps `tag` back by one and lets the loop's increment restore it. The model keeps `tag` where it is.
- Markup.ParseString1: its result is stated up to how text is split into runs (the exploded form). The run boundaries themselves are stated only through the 999-byte bound, not byte by byte.
- Reflow.Linebreak: it requires the plain text to be shorter than INT_MAX. The height and width bounds are stated for truncated results and for text without a NUL byte, because the C-string searches stop at the first NUL. A line of a cut result may be 2 bytes wide when the width is below 2, because the `..` is always appended.

=== FILE: colours.dfy ===
/** The colour vocabulary the markup language speaks: the sixteen terminal
    colours, the name table used by tags, and the tag-name lookup that knows
    the two short aliases "h" and "w". */
module Colours {

  const BLACK := 0
  const LIGHTGREY := 7
  const LIGHTRED := 12
  const YELLOW := 14
  const WHITE := 15

  /** Colour value used for "no such colour". */
  const UNKNOWN := -1

  /** Names of colours 0..15, in colour order. */
  const Names: seq<string> := [
    "black", "blue", "green", "cyan", "red", "magenta", "brown", "lightgrey",
    "darkgrey", "lightblue", "lightgreen", "lightcyan", "lightred",
    "lightmagenta", "yellow", "white"]

  predicate IsColour(c: int) {
    0 <= c < |Names|
  }

  /** Position of `name` in the table at or after `i`, or UNKNOWN. */
  function IndexOf(name: string, i: nat): (r: int)
    requires i <= |Names|
    ensures r == UNKNOWN || (i <= r < |Names| && Names[r] == name)
    decreases |Names| - i
  {
    if i == |Names| then UNKNOWN
    else if Names[i] == name then i
    else IndexOf(name, i + 1)
  }

  /** The search comes back empty-handed exactly when no entry from `i` on
      is `name`. */
  lemma {:induction false} IndexOfMisses(name: string, i: nat)
    requires i <= |Names|
    ensures IndexOf(name, i) == UNKNOWN <==> (forall k :: i <= k < |Names| ==> Names[k] != name)
    decreases |Names| - i
  {
    if i < |Names| && Names[i] != name {
      IndexOfMisses(name, i + 1);
    }
  }

  /** Name-to-colour lookup of the colour table: UNKNOWN for a name it does not know. */
  function StrToColour(name: string): (r: int)
    ensures r == UNKNOWN || (IsColour(r) && Names[r] == name)
  {
    IndexOf(name, 0)
  }

  /** The lookup fails exactly for names outside the table. */
  lemma StrToColourUnknown(name: string)
    ensures StrToColour(name) == UNKNOWN <==> (forall k :: 0 <= k < |Names| ==> Names[k] != name)
  {
    IndexOfMisses(name, 0);
  }

  /** Colour-to-name lookup; colours outside the table print as "lightgrey". */
  function ColourToStr(c: int): (r: string)
    ensures IsColour(c) ==> r == Names[c]
    ensures !IsColour(c) ==> r == Names[LIGHTGREY]
  {
    if IsColour(c) then Names[c] else Names[LIGHTGREY]
  }

  /** Tag-name lookup: "h" is the highlight colour, "w" is white, everything
      else goes through the colour table. */
  function GetColour(tag: string): (r: int)
    ensures tag == "h" ==> r == YELLOW
    ensures tag == "w" ==> r == WHITE
    ensures tag != "h" && tag != "w" ==> r == StrToColour(tag)
    ensures r == UNKNOWN || IsColour(r)
  {
    if tag == "h" then YELLOW
    else if tag == "w" then WHITE
    else StrToColour(tag)
  }

  /** A colour name can be written inside a tag: it is non-empty and holds no
      angle bracket and no slash. */
  predicate TagSafe(name: string) {
    |name| > 0 && name[0] != '/' && forall k :: 0 <= k < |name| ==> name[k] != '>' && name[k] != '<'
  }

  /** Length, first and last letter tell the sixteen names apart. */
  lemma NamesDistinct(i: int, j: int)
    requires IsColour(i) && IsColour(j) && i != j
    ensures Names[i] != Names[j]
  {
    var a, b := Names[i], Names[j];
    assert (|a|, a[0], a[|a| - 1]) != (|b|, b[0], b[|b| - 1]);
  }

  /** A name of lower-case letters only. */
  predicate AllLower(name: string) {
    forall k :: 0 <= k < |name| ==> 'a' <= name[k] <= 'z'
  }

  /** Every colour name is a non-empty word of lower-case letters. */
  lemma NamesLower(c: int)
    requires IsColour(c)
    ensures |Names[c]| > 0 && AllLower(Names[c])
  {
    var n := Names[c];
    forall k | 0 <= k < |n|
      ensures 'a' <= n[k] <= 'z'
    {
      if c == 0 { assert n == "black"; }
      else if c == 1 { assert n == "blue"; }
      else if c == 2 { assert n == "green"; }
      else if c == 3 { assert n == "cyan"; }
      else if c == 4 { assert n == "red"; }
      else if c == 5 { assert n == "magenta"; }
      else if c == 6 { assert n == "brown"; }
      else if c == 7 { assert n == "lightgrey"; }
      else if c == 8 { assert n == "darkgrey"; }
      else if c == 9 { assert n == "lightblue"; }
      else if c == 10 { assert n == "lightgreen"; }
      else if c == 11 { assert n == "lightcyan"; }
      else if c == 12 { assert n == "lightred"; }
      else if c == 13 { assert n == "lightmagenta"; }
      else if c == 14 { assert n == "yellow"; }
      else { assert n == "white"; }
    }
  }

  /** Printing a colour and reading the name back gives the colour again, and
      the printed name is safe inside a tag. */
  lemma NameRoundTrip(c: int)
    requires IsColour(c)
    ensures GetColour(ColourToStr(c)) == c
    ensures TagSafe(ColourToStr(c))
  {
    var r := StrToColour(Names[c]);
    StrToColourUnknown(Names[c]);
    if r != c {
      NamesDistinct(r, c);
    }
    assert Names[c] != "h" && Names[c] != "w";
    NamesLower(c);
  }
}

=== FILE: formatted.dfy ===
/** The rich-text value: a sequence of ops, each a run of text or a colour
    change, plus the edits and projections defined directly on it. A byte is a
    `char`; every glyph is one byte wide and one column wide. */
module Formatted {
  import opened Colours

  datatype Option<T> = None | Some(value: T)

  /** One op: a text run, or a colour change. `closing` is `Some(d)` when the
      change ends a scope that was opened with colour `d`, and `None` for an
      opening change (the source's `closing_colour == -1`). */
  datatype Op = Text(text: string) | Colour(colour: int, closing: Option<int>)

  type FormattedString = seq<Op>

  /** Text carried by one op. */
  function OpText(op: Op): string {
    if op.Text? then op.text else ""
  }

  /** Plain-text projection: the text runs concatenated, colour ops dropped. */
  function Plain(fs: FormattedString): string {
    if fs == [] then "" else OpText(fs[0]) + Plain(fs[1..])
  }

  /** The plain text of a concatenation is the concatenation of plain texts. */
  lemma {:induction false} PlainAppend(a: FormattedString, b: FormattedString)
    ensures Plain(a + b) == Plain(a) + Plain(b)
  {
    if a == [] {
      assert a + b == b;
    } else {
      assert (a + b)[1..] == a[1..] + b;
      PlainAppend(a[1..], b);
    }
  }

  lemma PlainCons(op: Op, x: FormattedString)
    ensures Plain([op] + x) == OpText(op) + Plain(x)
  {
    assert ([op] + x)[1..] == x;
  }

  lemma Assoc<T>(a: seq<T>, b: seq<T>, c: seq<T>)
    ensures (a + b) + c == a + (b + c)
  {
  }

  /** True when no op of `fs` is a colour change. */
  predicate NoColourOps(fs: FormattedString) {
    forall i :: 0 <= i < |fs| ==> fs[i].Text?
  }

  /** Colour of the last colour op of `fs`, or `dflt` when there is none. */
  function LastColourOr(fs: FormattedString, dflt: int): (r: int)
    ensures NoColourOps(fs) ==> r == dflt
  {
    if fs == [] then dflt
    else if fs[|fs| - 1].Colour? then fs[|fs| - 1].colour
    else LastColourOr(fs[..|fs| - 1], dflt)
  }

  /** When `fs` holds a colour op, the result is the colour of its last
      one: some colour op with nothing but text after it. */
  lemma {:induction false} LastColourOrIsLast(fs: FormattedString, dflt: int)
    requires !NoColourOps(fs)
    ensures exists k :: 0 <= k < |fs| && fs[k].Colour? && LastColourOr(fs, dflt) == fs[k].colour &&
                        forall j :: k < j < |fs| ==> fs[j].Text?
    decreases |fs|
  {
    var n := |fs| - 1;
    if fs[n].Colour? {
      assert fs[n].Colour? && LastColourOr(fs, dflt) == fs[n].colour;
    } else {
      var p := fs[..n];
      var i :| 0 <= i < |fs| && !fs[i].Text?;
      assert p[i] == fs[i];
      LastColourOrIsLast(p, dflt);
      var k :| 0 <= k < |p| && p[k].Colour? && LastColourOr(p, dflt) == p[k].colour &&
               forall j :: k < j < |p| ==> p[j].Text?;
      assert forall j :: k < j < |fs| ==> fs[j].Text? by {
        forall j | k < j < |fs| ensures fs[j].Text? {
          if j < n { assert fs[j] == p[j]; }
        }
      }
      assert fs[k] == p[k];
    }
  }

  /** Folding from the front: a leading colour op only matters when nothing
      later changes the colour again. */
  lemma {:induction false} LastColourOrCons(op: Op, tail: FormattedString, dflt: int)
    ensures LastColourOr([op] + tail, dflt) == LastColourOr(tail, if op.Colour? then op.colour else dflt)
    decreases |tail|
  {
    var fs := [op] + tail;
    if tail == [] {
      assert fs[..0] == [];
    } else if tail[|tail| - 1].Colour? {
    } else {
      assert fs[..|fs| - 1] == [op] + tail[..|tail| - 1];
      LastColourOrCons(op, tail[..|tail| - 1], dflt);
    }
  }

  lemma {:induction false} LastColourOrAppend(a: FormattedString, b: FormattedString, dflt: int)
    ensures LastColourOr(a + b, dflt) == LastColourOr(b, LastColourOr(a, dflt))
    decreases |b|
  {
    if b == [] {
      assert a + b == a;
    } else {
      assert (a + b)[..|a + b| - 1] == a + b[..|b| - 1];
      LastColourOrAppend(a, b[..|b| - 1], dflt);
    }
  }

  /** The colour that text written at the end of `fs` would get: the colour of
      the last colour op, or LIGHTGREY when there is none. */
  function FindLastColour(fs: FormattedString): (r: int)
    ensures NoColourOps(fs) ==> r == LIGHTGREY
  {
    LastColourOr(fs, LIGHTGREY)
  }

  /** The colour in effect at byte `pos` of the plain text, given that `cur`
      is in effect before `fs`: colour ops standing at or before that byte
      count, later ones do not. */
  function ColourAt(fs: FormattedString, pos: int, cur: int): int
    decreases |fs|
  {
    if fs == [] then cur
    else match fs[0]
      case Text(t) => if pos < |t| then cur else ColourAt(fs[1..], pos - |t|, cur)
      case Colour(c, _) => ColourAt(fs[1..], pos, c)
  }

  /** Past the plain text of `a`, the colour in effect is decided by `a`'s last
      colour op and what follows. */
  lemma {:induction false} ColourAtAppend(a: FormattedString, b: FormattedString, p: int, cur: int)
    requires p >= 0
    ensures ColourAt(a + b, |Plain(a)| + p, cur) == ColourAt(b, p, LastColourOr(a, cur))
    decreases |a|
  {
    if a == [] {
      assert a + b == b;
    } else {
      assert (a + b)[1..] == a[1..] + b;
      assert [a[0]] + a[1..] == a;
      LastColourOrCons(a[0], a[1..], cur);
      match a[0]
      case Text(t) =>
        assert |Plain(a)| == |t| + |Plain(a[1..])|;
        ColourAtAppend(a[1..], b, p, cur);
      case Colour(c, _) =>
        ColourAtAppend(a[1..], b, p, c);
    }
  }

  /** `n` copies of colour `c`. */
  function Repeat(c: int, n: nat): (r: seq<int>)
    ensures |r| == n && forall i :: 0 <= i < n ==> r[i] == c
  {
    seq(n, _ => c)
  }

  /** The colour of every byte of the plain text, `cur` being in effect
      before `fs`. */
  function ByteColours(fs: FormattedString, cur: int): (r: seq<int>)
    ensures |r| == |Plain(fs)|
    decreases |fs|
  {
    if fs == [] then []
    else match fs[0]
      case Text(t) => Repeat(cur, |t|) + ByteColours(fs[1..], cur)
      case Colour(c, _) => ByteColours(fs[1..], c)
  }

  /** Byte `p` of the per-byte colours is the colour in effect at byte `p`. */
  lemma {:induction false} ByteColoursAt(fs: FormattedString, cur: int, p: int)
    requires 0 <= p < |Plain(fs)|
    ensures ByteColours(fs, cur)[p] == ColourAt(fs, p, cur)
    decreases |fs|
  {
    match fs[0]
    case Text(t) =>
      if p >= |t| {
        ByteColoursAt(fs[1..], cur, p - |t|);
      }
    case Colour(c, _) =>
      ByteColoursAt(fs[1..], c, p);
  }

  /** The bytes of `b` take their colours from where `a` leaves off. */
  lemma {:induction false} ByteColoursAppend(a: FormattedString, b: FormattedString, cur: int)
    ensures ByteColours(a + b, cur) == ByteColours(a, cur) + ByteColours(b, LastColourOr(a, cur))
    decreases |a|
  {
    if a == [] {
      assert a + b == b;
    } else {
      assert (a + b)[1..] == a[1..] + b;
      assert [a[0]] + a[1..] == a;
      LastColourOrCons(a[0], a[1..], cur);
      match a[0]
      case Text(t) =>
        ByteColoursAppend(a[1..], b, cur);
      case Colour(c, _) =>
        ByteColoursAppend(a[1..], b, c);
    }
  }

  /** The colour ops of `fs`, in order, text runs dropped. */
  function ColourOps(fs: FormattedString): FormattedString {
    if fs == [] then []
    else (if fs[0].Colour? then [fs[0]] else []) + ColourOps(fs[1..])
  }

  lemma {:induction false} ColourOpsAppend(a: FormattedString, b: FormattedString)
    ensures ColourOps(a + b) == ColourOps(a) + ColourOps(b)
  {
    if a == [] {
      assert a + b == b;
    } else {
      assert (a + b)[1..] == a[1..] + b;
      ColourOpsAppend(a[1..], b);
      Assoc(if a[0].Colour? then [a[0]] else [], ColourOps(a[1..]), ColourOps(b));
    }
  }

  /** Text as one op per byte. */
  function Chars(t: string): FormattedString {
    if t == [] then [] else [Text([t[0]])] + Chars(t[1..])
  }

  /** `fs` with every text run cut into one op per byte (empty runs
      vanish). Two strings with the same `Explode` show the same bytes with
      the same colour changes between the same bytes; they differ at most in
      how their text is cut into runs. */
  function Explode(fs: FormattedString): FormattedString {
    if fs == [] then []
    else (if fs[0].Text? then Chars(fs[0].text) else [fs[0]]) + Explode(fs[1..])
  }

  lemma {:induction false} CharsAppend(a: string, b: string)
    ensures Chars(a + b) == Chars(a) + Chars(b)
  {
    if a == [] {
      assert a + b == b;
    } else {
      assert (a + b)[1..] == a[1..] + b;
      CharsAppend(a[1..], b);
      Assoc([Text([a[0]])], Chars(a[1..]), Chars(b));
    }
  }

  lemma {:induction false} ExplodeAppend(a: FormattedString, b: FormattedString)
    ensures Explode(a + b) == Explode(a) + Explode(b)
  {
    if a == [] {
      assert a + b == b;
    } else {
      assert (a + b)[1..] == a[1..] + b;
      ExplodeAppend(a[1..], b);
      Assoc(if a[0].Text? then Chars(a[0].text) else [a[0]], Explode(a[1..]), Explode(b));
    }
  }

  /** A single text op explodes into its bytes. */
  lemma ExplodeText(t: string)
    ensures Explode([Text(t)]) == Chars(t)
  {
    assert [Text(t)][1..] == [];
    assert Chars(t) + [] == Chars(t);
  }

  /** Byte ops are already exploded, and carry exactly their bytes. */
  lemma {:induction false} CharsFacts(t: string)
    ensures Explode(Chars(t)) == Chars(t)
    ensures Plain(Chars(t)) == t
    ensures ColourOps(Chars(t)) == []
  {
    if t != [] {
      CharsFacts(t[1..]);
      var c := Text([t[0]]);
      assert ([c] + Chars(t[1..]))[1..] == Chars(t[1..]);
      assert [t[0]] + t[1..] == t;
      ExplodeAppend([c], Chars(t[1..]));
      ExplodeText([t[0]]);
      assert Chars([t[0]]) == [c] + Chars([]);
    }
  }

  /** A string of colour ops only is its own explosion. */
  lemma {:induction false} ExplodeColourOnly(fs: FormattedString)
    requires forall i :: 0 <= i < |fs| ==> fs[i].Colour?
    ensures Explode(fs) == fs
  {
    if fs != [] {
      ExplodeColourOnly(fs[1..]);
      assert [fs[0]] + fs[1..] == fs;
    }
  }

  /** Exploding keeps the plain text and the colour changes. */
  lemma {:induction false} ExplodeKeeps(fs: FormattedString)
    ensures Plain(Explode(fs)) == Plain(fs)
    ensures ColourOps(Explode(fs)) == ColourOps(fs)
  {
    if fs != [] {
      ExplodeKeeps(fs[1..]);
      var head := if fs[0].Text? then Chars(fs[0].text) else [fs[0]];
      PlainAppend(head, Explode(fs[1..]));
      ColourOpsAppend(head, Explode(fs[1..]));
      if fs[0].Text? {
        CharsFacts(fs[0].text);
      } else {
        assert head[1..] == [];
      }
    }
  }

  // ---------------------------------------------------------------- edits

  /** `+=` with a formatted string: its ops are appended verbatim. */
  function AppendFormatted(fs: FormattedString, other: FormattedString): (r: FormattedString)
    ensures |r| == |fs| + |other| && r[..|fs|] == fs && r[|fs|..] == other
    ensures FindLastColour(r) == LastColourOr(other, FindLastColour(fs))
    ensures Plain(r) == Plain(fs) + Plain(other)
    ensures Explode(r) == Explode(fs) + Explode(other)
  {
    PlainAppend(fs, other);
    LastColourOrAppend(fs, other, LIGHTGREY);
    ExplodeAppend(fs, other);
    fs + other
  }

  /** `+=` with a string, and `cprintf(string)`: one text op is appended,
      even when the string is empty. */
  function AppendString(fs: FormattedString, s: string): (r: FormattedString)
    ensures Plain(r) == Plain(fs) + s
    ensures FindLastColour(r) == FindLastColour(fs)
    ensures |r| == |fs| + 1 && r[..|fs|] == fs
  {
    PlainAppend(fs, [Text(s)]);
    fs + [Text(s)]
  }

  /** `textcolour`: later text is drawn in colour `c`. */
  function TextColour(fs: FormattedString, c: int): FormattedString {
    fs + [Colour(c, None)]
  }

  /** `push_colour`: switch to `c` and remember it on the colour stack. */
  function PushColour(fs: FormattedString, stack: seq<int>, c: int): (FormattedString, seq<int>) {
    (TextColour(fs, c), stack + [c])
  }

  /** `pop_colour`: drop the top of the stack and switch back to the colour
      now on top, marking the op as closing the dropped colour. The source
      reads the new top after popping, so the stack must hold two entries. */
  function PopColour(fs: FormattedString, stack: seq<int>): (FormattedString, seq<int>)
    requires |stack| >= 2
  {
    var rest := stack[..|stack| - 1];
    (fs + [Colour(rest[|rest| - 1], Some(stack[|stack| - 1]))], rest)
  }

  /** A colour op adds no text and sets the colour of what follows. */
  lemma ColourOpEffect(fs: FormattedString, op: Op)
    requires op.Colour?
    ensures Plain(fs + [op]) == Plain(fs)
    ensures FindLastColour(fs + [op]) == op.colour
    ensures !NoColourOps(fs + [op])
  {
    PlainAppend(fs, [op]);
    LastColourOrAppend(fs, [op], LIGHTGREY);
    assert (fs + [op])[|fs|] == op;
  }

  /** `textcolour` keeps the text and the ops so far and makes `c` the
      current colour. */
  lemma TextColourEffect(fs: FormattedString, c: int)
    ensures var r := TextColour(fs, c);
            Plain(r) == Plain(fs) && FindLastColour(r) == c &&
            |r| == |fs| + 1 && r[..|fs|] == fs
  {
    ColourOpEffect(fs, Colour(c, None));
  }

  /** `push_colour` puts `c` on top of the stack and makes it current. */
  lemma PushColourEffect(fs: FormattedString, stack: seq<int>, c: int)
    ensures var r := PushColour(fs, stack, c);
            |r.0| == |fs| + 1 && r.0[..|fs|] == fs &&
            Plain(r.0) == Plain(fs) && r.1[..|stack|] == stack &&
            |r.1| == |stack| + 1 && FindLastColour(r.0) == c == r.1[|r.1| - 1]
  {
    TextColourEffect(fs, c);
  }

  /** `pop_colour` drops the top of the stack and makes the colour under
      it current again; the new op remembers the colour it closed. */
  lemma PopColourEffect(fs: FormattedString, stack: seq<int>)
    requires |stack| >= 2
    ensures var r := PopColour(fs, stack);
            |r.0| == |fs| + 1 && r.0[..|fs|] == fs &&
            Plain(r.0) == Plain(fs) && r.1 == stack[..|stack| - 1] &&
            FindLastColour(r.0) == stack[|stack| - 2] &&
            r.0[|fs|].closing == Some(stack[|stack| - 1])
  {
    ColourOpEffect(fs, Colour(stack[|stack| - 2], Some(stack[|stack| - 1])));
  }

  // --------------------------------------------------------- byte access

  /** `operator[]` read: byte `idx` of the plain text, or None where the
      source dies with "Invalid index". */
  function ByteAt(fs: FormattedString, idx: nat): (r: Option<char>)
    ensures r.Some? <==> idx < |Plain(fs)|
    ensures r.Some? ==> r.value == Plain(fs)[idx]
    decreases |fs|
  {
    if fs == [] then None
    else match fs[0]
      case Text(t) => if idx < |t| then Some(t[idx]) else ByteAt(fs[1..], idx - |t|)
      case Colour(_, _) => ByteAt(fs[1..], idx)
  }

  /** Same shape: the two strings have the same ops except for the text
      inside text runs, which have the same lengths. */
  predicate SameShape(a: FormattedString, b: FormattedString) {
    |a| == |b| &&
    forall i :: 0 <= i < |a| ==>
      (a[i].Colour? ==> b[i] == a[i]) &&
      (a[i].Text? ==> b[i].Text? && |b[i].text| == |a[i].text|)
  }

  function Prepend(op: Op, r: Option<FormattedString>): Option<FormattedString> {
    if r.Some? then Some([op] + r.value) else None
  }

  /** Strings of the same shape colour every byte alike. */
  lemma {:induction false} SameShapeColours(a: FormattedString, b: FormattedString, cur: int)
    requires SameShape(a, b)
    ensures ByteColours(a, cur) == ByteColours(b, cur)
    decreases |a|
  {
    if a != [] {
      assert SameShape(a[1..], b[1..]) by {
        forall i | 0 <= i < |a[1..]|
          ensures a[1..][i] == a[i + 1] && b[1..][i] == b[i + 1]
        {
        }
      }
      match a[0]
      case Text(t) =>
        SameShapeColours(a[1..], b[1..], cur);
      case Colour(c, _) =>
        SameShapeColours(a[1..], b[1..], c);
    }
  }

  /** `operator[]` write, as the reflow uses it: overwrite byte `idx` of the
      plain text in place. None where the source dies. */
  function SetByte(fs: FormattedString, idx: nat, ch: char): (r: Option<FormattedString>)
    ensures r.Some? <==> idx < |Plain(fs)|
    ensures r.Some? ==> Plain(r.value) == Plain(fs)[idx := ch] && SameShape(fs, r.value)
    decreases |fs|
  {
    if fs == [] then None
    else match fs[0]
      case Text(t) =>
        if idx < |t| then Some([Text(t[idx := ch])] + fs[1..])
        else Prepend(fs[0], SetByte(fs[1..], idx - |t|, ch))
      case Colour(_, _) => Prepend(fs[0], SetByte(fs[1..], idx, ch))
  }
}

=== FILE: markup.dfy ===
/** The markup parser: `<colour>` opens a colour scope, `</colour>` closes
    it, `<<` is a literal `<`, and anything malformed is kept as literal
    text. `Scan` states, one input step at a time, what the parser produces;
    `ParseString1` is the scanner itself. */
module Markup {
  import opened Colours
  import opened Formatted
  import opened Projections

  /** Longest run of literal text the scanner buffers before writing it out. */
  const MaxChunk := 999

  /** Ops produced so far, and the colour stack after them. */
  datatype Parsed = Parsed(ops: FormattedString, stack: seq<int>)

  /** Text re-emitted for a tag the parser could not use: `<...>`. */
  predicate IsTagEcho(t: string) {
    |t| >= 2 && t[0] == '<' && t[|t| - 1] == '>'
  }

  predicate TextOpsEcho(ops: FormattedString) {
    forall i :: 0 <= i < |ops| && ops[i].Text? ==> IsTagEcho(ops[i].text)
  }

  /** What a well-formed tag `<tagtext>` does: pop the colour on top of
      the stack, push a colour, or be written back as literal text. */
  datatype TagAction = PopTop | PushNamed(colour: int) | EchoBack(text: string)

  /** The decision for `<tagtext>` on `stack`. A closing tag that names the
      colour on top of the stack (with something under it) pops it; any
      other closing tag, and an opening tag naming no colour, is written
      back literally; an opening tag naming a colour pushes it. */
  function TagActionOf(tagtext: string, stack: seq<int>): (a: TagAction)
    requires tagtext != ""
    ensures a.PopTop? <==> tagtext[0] == '/' && |stack| >= 2 &&
                           GetColour(tagtext[1..]) == stack[|stack| - 1] != UNKNOWN
    ensures a.PushNamed? <==> tagtext[0] != '/' && GetColour(tagtext) != UNKNOWN
    ensures a.PushNamed? ==> a.colour == GetColour(tagtext)
    ensures a.EchoBack? ==> a.text == "<" + tagtext + ">" && IsTagEcho(a.text)
  {
    if tagtext[0] == '/' then
      var name := tagtext[1..];
      var endcolour := GetColour(name);
      if |stack| > 1 && endcolour == stack[|stack| - 1] && endcolour != UNKNOWN then PopTop
      else EchoBack("</" + name + ">")
    else
      var colour := GetColour(tagtext);
      if colour == UNKNOWN then EchoBack("<" + tagtext + ">")
      else PushNamed(colour)
  }

  /** The ops of one tag action; an echoed tag sits between a LIGHTRED push
      and its pop. */
  function ActionOps(a: TagAction, stack: seq<int>): (r: Parsed)
    requires |stack| >= 1
    requires a.PopTop? ==> |stack| >= 2
    requires a.EchoBack? ==> IsTagEcho(a.text)
    ensures |r.stack| >= 1 && r.stack[0] == stack[0]
    ensures r.ops != [] && r.ops[|r.ops| - 1].Colour? && r.ops[|r.ops| - 1].colour == r.stack[|r.stack| - 1]
  {
    match a
    case PopTop =>
      var p := PopColour([], stack);
      Parsed(p.0, p.1)
    case PushNamed(colour) =>
      var p := PushColour([], stack, colour);
      Parsed(p.0, p.1)
    case EchoBack(text) => Echo(text, stack)
  }

  /** The ops for one well-formed tag `<tagtext>` and the stack after it. */
  function TagOps(tagtext: string, stack: seq<int>): (r: Parsed)
    requires |stack| >= 1 && tagtext != ""
    ensures |r.stack| >= 1 && r.stack[0] == stack[0]
    ensures r.ops != [] && r.ops[|r.ops| - 1].Colour? && r.ops[|r.ops| - 1].colour == r.stack[|r.stack| - 1]
  {
    ActionOps(TagActionOf(tagtext, stack), stack)
  }

  /** Literal re-emission of a tag: push LIGHTRED, write the text, pop. */
  function Echo(text: string, stack: seq<int>): (r: Parsed)
    requires |stack| >= 1 && IsTagEcho(text)
    ensures r.stack == stack
    ensures |r.ops| == 3 && r.ops[0] == Colour(LIGHTRED, None) &&
            r.ops[2].Colour? && r.ops[2].closing == Some(LIGHTRED)
    ensures r.ops == PopColour(AppendString(PushColour([], stack, LIGHTRED).0, text), stack + [LIGHTRED]).0
    ensures Plain(r.ops) == text
    ensures r.ops != [] && r.ops[|r.ops| - 1].Colour? && r.ops[|r.ops| - 1].colour == stack[|stack| - 1]
    ensures TextOpsEcho(r.ops)
  {
    // push_colour(LIGHTRED), the text, pop_colour
    var close := Colour(stack[|stack| - 1], Some(LIGHTRED));
    var ops := [Colour(LIGHTRED, None), Text(text), close];
    PlainCons(Colour(LIGHTRED, None), [Text(text), close]);
    PlainCons(Text(text), [close]);
    PlainCons(close, []);
    Parsed(ops, stack)
  }

  /** A tag's only text is the tag itself written back; it pops one colour,
      pushes one (only an opening tag does), or leaves the stack alone. */
  lemma TagOpsShape(tagtext: string, stack: seq<int>)
    requires |stack| >= 1 && tagtext != ""
    ensures var r := TagOps(tagtext, stack);
            TextOpsEcho(r.ops) &&
            (r.stack == stack || r.stack == stack[..|stack| - 1] ||
             (r.stack == stack + [r.stack[|r.stack| - 1]] && tagtext[0] != '/'))
  {
  }

  /** One literal byte in front of what the rest of the input produces. */
  function Lit(c: char, rest: Parsed): Parsed {
    Parsed([Text([c])] + rest.ops, rest.stack)
  }

  /** What the parser makes of `s` with colour stack `stack`: every literal
      byte as its own text op, every usable tag as its `TagOps`. */
  function Scan(s: string, stack: seq<int>): Parsed
    requires |stack| >= 1
    decreases |s|
  {
    if s == [] then Parsed([], stack)
    else if s[0] != '<' || |s| == 1 then Lit(s[0], Scan(s[1..], stack))
    else if s[1] == '<' then Lit('<', Scan(s[2..], stack))
    else
      var e := FindChar(s, '>', 1);
      if e == -1 || s[1..e] == "" || s[1..e] == "/" then Lit('<', Scan(s[1..], stack))
      else
        var t := TagOps(s[1..e], stack);
        var rest := Scan(s[e + 1..], t.stack);
        Parsed(t.ops + rest.ops, rest.stack)
  }

  /** The bottom of the colour stack is never popped: however malformed the
      input, the stack keeps at least its first entry, unchanged. */
  lemma {:induction false} ScanKeepsBase(s: string, stack: seq<int>)
    requires |stack| >= 1
    ensures |Scan(s, stack).stack| >= 1 && Scan(s, stack).stack[0] == stack[0]
    decreases |s|
  {
    if s == [] {
    } else if s[0] != '<' || |s| == 1 {
      ScanKeepsBase(s[1..], stack);
    } else if s[1] == '<' {
      ScanKeepsBase(s[2..], stack);
    } else {
      var e := FindChar(s, '>', 1);
      if e == -1 || s[1..e] == "" || s[1..e] == "/" {
        ScanKeepsBase(s[1..], stack);
      } else {
        ScanKeepsBase(s[e + 1..], TagOps(s[1..e], stack).stack);
      }
    }
  }

  /** The colour in effect after `p`'s ops is the top of `p`'s stack, and
      ops without any colour change leave `stack` as it was. */
  ghost predicate TopAgrees(p: Parsed, stack: seq<int>) {
    |p.stack| >= 1 &&
    (NoColourOps(p.ops) ==> p.stack == stack) &&
    (!NoColourOps(p.ops) ==> forall d :: LastColourOr(p.ops, d) == p.stack[|p.stack| - 1])
  }

  lemma LitTopAgrees(c: char, rest: Parsed, stack: seq<int>)
    requires TopAgrees(rest, stack)
    ensures TopAgrees(Lit(c, rest), stack)
  {
    var r := Lit(c, rest);
    assert r.ops == [Text([c])] + rest.ops;
    forall d
      ensures LastColourOr(r.ops, d) == LastColourOr(rest.ops, d)
    {
      LastColourOrAppend([Text([c])], rest.ops, d);
    }
    if !NoColourOps(rest.ops) {
      var i :| 0 <= i < |rest.ops| && !rest.ops[i].Text?;
      assert r.ops[i + 1] == rest.ops[i];
    }
  }

  /** Ops that end in a colour change to the top of their stack, followed by
      ops for which `TopAgrees` holds. */
  lemma TagTopAgrees(t: Parsed, stack: seq<int>, rest: Parsed)
    requires |t.stack| >= 1 && t.ops != []
    requires t.ops[|t.ops| - 1].Colour? && t.ops[|t.ops| - 1].colour == t.stack[|t.stack| - 1]
    requires TopAgrees(rest, t.stack)
    ensures TopAgrees(Parsed(t.ops + rest.ops, rest.stack), stack)
  {
    var ops := t.ops + rest.ops;
    var k := |t.ops| - 1;
    var top := t.stack[|t.stack| - 1];
    assert ops[k] == t.ops[k];
    forall d
      ensures LastColourOr(ops, d) == rest.stack[|rest.stack| - 1]
    {
      LastColourOrAppend(t.ops, rest.ops, d);
      assert LastColourOr(t.ops, d) == top;
    }
  }

  /** The colour in effect after the parsed ops is the top of the colour
      stack; ops without any colour change leave the stack as it was. */
  lemma {:induction false} ScanColourTop(s: string, stack: seq<int>)
    requires |stack| >= 1
    ensures TopAgrees(Scan(s, stack), stack)
    decreases |s|
  {
    if s == [] {
    } else if s[0] != '<' || |s| == 1 {
      assert Scan(s, stack) == Lit(s[0], Scan(s[1..], stack));
      ScanColourTop(s[1..], stack);
      LitTopAgrees(s[0], Scan(s[1..], stack), stack);
    } else if s[1] == '<' {
      assert Scan(s, stack) == Lit('<', Scan(s[2..], stack));
      ScanColourTop(s[2..], stack);
      LitTopAgrees('<', Scan(s[2..], stack), stack);
    } else {
      var e := FindChar(s, '>', 1);
      if e == -1 || s[1..e] == "" || s[1..e] == "/" {
        assert Scan(s, stack) == Lit('<', Scan(s[1..], stack));
        ScanColourTop(s[1..], stack);
        LitTopAgrees('<', Scan(s[1..], stack), stack);
      } else {
        ScanTagCase(s, stack, e);
        ScanColourTopTag(TagOps(s[1..e], stack), s[e + 1..], stack);
      }
    }
  }

  lemma {:induction false} ScanColourTopTag(t: Parsed, u: string, stack: seq<int>)
    requires |t.stack| >= 1 && t.ops != []
    requires t.ops[|t.ops| - 1].Colour? && t.ops[|t.ops| - 1].colour == t.stack[|t.stack| - 1]
    ensures var rest := Scan(u, t.stack);
            TopAgrees(Parsed(t.ops + rest.ops, rest.stack), stack)
    decreases |u| + 1
  {
    ScanColourTop(u, t.stack);
    TagTopAgrees(t, stack, Scan(u, t.stack));
  }

  // ------------------------------------------------------ scanner steps

  lemma FindCharShift(s: string, c: char, k: nat, j: nat)
    requires k <= |s|
    ensures var r := FindChar(s, c, k + j);
            FindChar(s[k..], c, j) == if r == -1 then -1 else r - k
  {
    var r := FindChar(s, c, k + j);
    if r != -1 {
      assert s[k..][r - k] == c;
      forall i | j <= i < r - k
        ensures s[k..][i] != c
      {
        assert s[k..][i] == s[k + i];
      }
    } else {
      forall i | j <= i < |s| - k
        ensures s[k..][i] != c
      {
        assert s[k..][i] == s[k + i];
      }
    }
  }

  /** The tag case of `Scan`, unfolded. */
  lemma ScanTagCase(u: string, stack: seq<int>, e: nat)
    requires 1 < |u| && |stack| >= 1 && u[0] == '<' && u[1] != '<'
    requires e == FindChar(u, '>', 1) && u[1..e] != "" && u[1..e] != "/"
    ensures var t := TagOps(u[1..e], stack);
            var rest := Scan(u[e + 1..], t.stack);
            Scan(u, stack) == Parsed(t.ops + rest.ops, rest.stack)
  {
  }

  /** How `Scan` reads the input from byte `tag` on, case by case, in the
      scanner's own terms. */
  lemma ScanAtLiteral(s: string, tag: nat, stack: seq<int>)
    requires tag < |s| && |stack| >= 1
    requires s[tag] != '<' || tag == |s| - 1
    ensures Scan(s[tag..], stack) == Lit(s[tag], Scan(s[tag + 1..], stack))
  {
    assert s[tag..][1..] == s[tag + 1..];
  }

  lemma ScanAtEscape(s: string, tag: nat, stack: seq<int>)
    requires tag + 1 < |s| && |stack| >= 1 && s[tag] == '<' && s[tag + 1] == '<'
    ensures Scan(s[tag..], stack) == Lit('<', Scan(s[tag + 2..], stack))
  {
    assert s[tag..][2..] == s[tag + 2..];
  }

  lemma ScanAtLoneAngle(s: string, tag: nat, stack: seq<int>)
    requires tag + 1 < |s| && |stack| >= 1 && s[tag] == '<' && s[tag + 1] != '<'
    requires var e := FindChar(s, '>', tag + 1);
             e == -1 || s[tag + 1..e] == "" || s[tag + 1..e] == "/"
    ensures Scan(s[tag..], stack) == Lit('<', Scan(s[tag + 1..], stack))
  {
    FindCharShift(s, '>', tag, 1);
    var e := FindChar(s, '>', tag + 1);
    if e != -1 {
      assert s[tag..][1..e - tag] == s[tag + 1..e];
    }
    assert s[tag..][1..] == s[tag + 1..];
  }

  lemma TagSlices(s: string, tag: nat, e: nat)
    requires tag + 1 < |s| && e == FindChar(s, '>', tag + 1)
    ensures var u := s[tag..];
            FindChar(u, '>', 1) == e - tag && (e > tag ==> u[1..e - tag] == s[tag + 1..e] && u[e - tag + 1..] == s[e + 1..])
  {
    FindCharShift(s, '>', tag, 1);
  }

  lemma ScanAtTag(s: string, tag: nat, stack: seq<int>, e: nat)
    requires tag + 1 < |s| && |stack| >= 1 && s[tag] == '<' && s[tag + 1] != '<'
    requires e == FindChar(s, '>', tag + 1) && s[tag + 1..e] != "" && s[tag + 1..e] != "/"
    ensures var t := TagOps(s[tag + 1..e], stack);
            var rest := Scan(s[e + 1..], t.stack);
            Scan(s[tag..], stack) == Parsed(t.ops + rest.ops, rest.stack)
  {
    var u := s[tag..];
    TagSlices(s, tag, e);
    assert u[0] == '<' && u[1] != '<';
    ScanTagCase(u, stack, e - tag);
    var t := TagOps(s[tag + 1..e], stack);
    assert Scan(u, stack) == Parsed(t.ops + Scan(s[e + 1..], t.stack).ops, Scan(s[e + 1..], t.stack).stack);
  }

  /** Appending one byte to the buffer consumes one literal op of the scan. */
  lemma LitStep(done: FormattedString, currs: string, c: char, rest: Parsed)
    ensures done + Chars(currs + [c]) + Explode(rest.ops) == done + Chars(currs) + Explode(Lit(c, rest).ops)
  {
    var b := Text([c]);
    CharsAppend(currs, [c]);
    assert Chars([c]) == [b] + Chars([]);
    ExplodeAppend([b], rest.ops);
    ExplodeText([c]);
    Assoc(done, Chars(currs), [b]);
    Assoc(done + Chars(currs), [b], Explode(rest.ops));
  }

  /** Writing out a prefix of the buffer moves text from the buffer to the
      string and neither drops nor reorders a byte. */
  lemma FlushStep(fs: FormattedString, currs: string, b: nat, x: FormattedString)
    requires b <= |currs|
    ensures Explode(AppendString(fs, currs[..b])) + Chars(currs[b..]) + x == Explode(fs) + Chars(currs) + x
  {
    ExplodeAppend(fs, [Text(currs[..b])]);
    ExplodeText(currs[..b]);
    CharsAppend(currs[..b], currs[b..]);
    assert currs[..b] + currs[b..] == currs;
    Assoc(Explode(fs), Chars(currs[..b]), Chars(currs[b..]));
  }

  /** Writing out the whole buffer (giving `fs1`), then a tag's ops. */
  lemma TagStep(fs: FormattedString, currs: string, fs1: FormattedString, t: FormattedString, rest: FormattedString)
    requires Explode(fs1) == Explode(fs) + Chars(currs)
    ensures Explode(fs1 + t) + Chars("") + Explode(rest) == Explode(fs) + Chars(currs) + Explode(t + rest)
  {
    ExplodeAppend(fs1, t);
    ExplodeAppend(t, rest);
    assert Explode(fs1 + t) + Chars("") == Explode(fs1) + Explode(t);
    Assoc(Explode(fs) + Chars(currs), Explode(t), Explode(rest));
  }

  /** Where the buffer is cut when it is full: one past the last newline
      at or before index 999 (`rfind("\n", 999)`), or 999 when there is
      none. */
  function FlushBound(currs: string): (b: nat)
    requires |currs| >= MaxChunk
    ensures 1 <= b <= |currs| && b <= MaxChunk + 1
    ensures (exists k :: 0 <= k <= MaxChunk && k < |currs| && currs[k] == '\n') ==> currs[b - 1] == '\n'
    ensures forall k :: b <= k <= MaxChunk && k < |currs| ==> currs[k] != '\n'
    ensures (forall k :: 0 <= k <= MaxChunk && k < |currs| ==> currs[k] != '\n') ==> b == MaxChunk
  {
    var nl := LastNewline(currs, if |currs| > MaxChunk then MaxChunk + 1 else |currs|);
    if nl == -1 then MaxChunk else nl + 1
  }

  /** Index of the last newline before `i`, or -1. */
  function LastNewline(currs: string, i: nat): (r: int)
    requires i <= |currs|
    ensures -1 <= r < i
    ensures r >= 0 ==> currs[r] == '\n'
    ensures forall k :: r < k < i ==> currs[k] != '\n'
  {
    if i == 0 then -1
    else if currs[i - 1] == '\n' then i - 1
    else LastNewline(currs, i - 1)
  }

  // ------------------------------------------------------------ scanner

  /** Text ops the scanner writes from `from` on are buffer chunks of at
      most `MaxChunk` bytes or re-emitted tags. */
  predicate ChunksBounded(fs: FormattedString, from: nat) {
    forall i :: from <= i < |fs| && fs[i].Text? ==> |fs[i].text| <= MaxChunk || IsTagEcho(fs[i].text)
  }

  /** The scanner's loop invariant: what has been written (`fs`), what is
      buffered (`currs`) and what `Scan` makes of the unread input from
      `tag` on, together, are what `Scan` makes of the whole input, up to
      how text is cut into runs. */
  ghost predicate ScanInv(s: string, fs0: FormattedString, stack0: seq<int>,
                          fs: FormattedString, currs: string, tag: nat, stack: seq<int>)
  {
    tag <= |s| && |stack0| >= 1 && |stack| >= 1 && |currs| <= MaxChunk &&
    |fs| >= |fs0| && fs[..|fs0|] == fs0 && ChunksBounded(fs, |fs0|) &&
    Explode(fs) + Chars(currs) + Explode(Scan(s[tag..], stack).ops) == Explode(fs0) + Explode(Scan(s, stack0).ops) &&
    Scan(s[tag..], stack).stack == Scan(s, stack0).stack
  }

  lemma PrefixKept(fs0: FormattedString, fs: FormattedString, more: FormattedString)
    requires |fs| >= |fs0| && fs[..|fs0|] == fs0
    ensures |fs + more| >= |fs0| && (fs + more)[..|fs0|] == fs0
  {
    assert (fs + more)[..|fs0|] == fs[..|fs0|];
  }

  lemma ChunksAppend(fs: FormattedString, from: nat, more: FormattedString)
    requires ChunksBounded(fs, from)
    requires forall i :: 0 <= i < |more| && more[i].Text? ==> |more[i].text| <= MaxChunk || IsTagEcho(more[i].text)
    ensures ChunksBounded(fs + more, from)
  {
    forall i | from <= i < |fs + more| && (fs + more)[i].Text?
      ensures |(fs + more)[i].text| <= MaxChunk || IsTagEcho((fs + more)[i].text)
    {
      if i >= |fs| {
        assert (fs + more)[i] == more[i - |fs|];
      }
    }
  }

  lemma InvInit(s: string, fs0: FormattedString, stack0: seq<int>)
    requires |stack0| >= 1
    ensures ScanInv(s, fs0, stack0, fs0, "", 0, stack0)
  {
    assert s[0..] == s;
    assert fs0[..|fs0|] == fs0;
  }

  /** Writing out any first `b` bytes of the buffer, `b` at most
      `MaxChunk`, keeps the invariant. */
  lemma InvFlush(s: string, fs0: FormattedString, stack0: seq<int>,
                 fs: FormattedString, currs: string, tag: nat, stack: seq<int>, b: nat)
    requires ScanInv(s, fs0, stack0, fs, currs, tag, stack) && b <= |currs| && b <= MaxChunk
    ensures ScanInv(s, fs0, stack0, AppendString(fs, currs[..b]), currs[b..], tag, stack)
  {
    var chunk := [Text(currs[..b])];
    var fs' := AppendString(fs, currs[..b]);
    var here := Scan(s[tag..], stack);
    assert fs' == fs + chunk;
    FlushStep(fs, currs, b, Explode(here.ops));
    PrefixKept(fs0, fs, chunk);
    ChunksAppend(fs, |fs0|, chunk);
  }

  lemma InvLiteral(s: string, fs0: FormattedString, stack0: seq<int>,
                   fs: FormattedString, currs: string, tag: nat, stack: seq<int>, skip: nat)
    requires ScanInv(s, fs0, stack0, fs, currs, tag, stack) && |currs| < MaxChunk && tag < |s|
    requires skip == 1 || skip == 2
    requires skip == 1 ==> s[tag] != '<' || tag == |s| - 1 ||
                           (s[tag + 1] != '<' &&
                            var e := FindChar(s, '>', tag + 1);
                            e == -1 || s[tag + 1..e] == "" || s[tag + 1..e] == "/")
    requires skip == 2 ==> tag + 1 < |s| && s[tag] == '<' && s[tag + 1] == '<'
    ensures ScanInv(s, fs0, stack0, fs, currs + [s[tag]], tag + skip, stack)
  {
    var next := Scan(s[tag + skip..], stack);
    if skip == 2 {
      ScanAtEscape(s, tag, stack);
    } else if s[tag] != '<' || tag == |s| - 1 {
      ScanAtLiteral(s, tag, stack);
    } else {
      ScanAtLoneAngle(s, tag, stack);
    }
    assert Scan(s[tag..], stack) == Lit(s[tag], next);
    LitStep(Explode(fs), currs, s[tag], next);
  }

  lemma InvTag(s: string, fs0: FormattedString, stack0: seq<int>,
               fs: FormattedString, currs: string, tag: nat, stack: seq<int>, e: nat,
               fs': FormattedString, tag': nat, stack': seq<int>)
    requires ScanInv(s, fs0, stack0, fs, currs, tag, stack) && |currs| < MaxChunk
    requires tag + 1 < |s| && s[tag] == '<' && s[tag + 1] != '<'
    requires e == FindChar(s, '>', tag + 1) && s[tag + 1..e] != "" && s[tag + 1..e] != "/"
    requires fs' == (if currs != "" then AppendString(fs, currs) else fs) + TagOps(s[tag + 1..e], stack).ops
    requires stack' == TagOps(s[tag + 1..e], stack).stack && tag' == e + 1
    ensures ScanInv(s, fs0, stack0, fs', "", tag', stack')
  {
    var t := TagOps(s[tag + 1..e], stack);
    var fs1 := if currs != "" then AppendString(fs, currs) else fs;
    var rest := Scan(s[e + 1..], t.stack);
    ScanAtTag(s, tag, stack, e);
    assert Explode(fs1) == Explode(fs) + Chars(currs) by {
      if currs != "" {
        ExplodeAppend(fs, [Text(currs)]);
        ExplodeText(currs);
      } else {
        assert Explode(fs) + Chars(currs) == Explode(fs);
      }
    }
    TagStep(fs, currs, fs1, t.ops, rest.ops);
    if currs != "" {
      ChunksAppend(fs, |fs0|, [Text(currs)]);
      PrefixKept(fs0, fs, [Text(currs)]);
    }
    TagOpsShape(s[tag + 1..e], stack);
    ChunksAppend(fs1, |fs0|, t.ops);
    PrefixKept(fs0, fs1, t.ops);
  }

  lemma InvDone(s: string, fs0: FormattedString, stack0: seq<int>,
                fs: FormattedString, currs: string, stack: seq<int>)
    requires ScanInv(s, fs0, stack0, fs, currs, |s|, stack)
    ensures var fs' := if |currs| > 0 then AppendString(fs, currs) else fs;
            |fs'| >= |fs0| && fs'[..|fs0|] == fs0 && ChunksBounded(fs', |fs0|) &&
            Explode(fs') == Explode(fs0) + Explode(Scan(s, stack0).ops) &&
            stack == Scan(s, stack0).stack
  {
    assert s[|s|..] == [];
    var fs' := if |currs| > 0 then AppendString(fs, currs) else fs;
    assert Explode(Scan(s[|s|..], stack).ops) == [];
    if |currs| > 0 {
      ExplodeAppend(fs, [Text(currs)]);
      ExplodeText(currs);
      assert fs'[|fs|] == Text(currs);
      assert fs'[..|fs0|] == fs[..|fs0|];
    } else {
      assert Explode(fs) + Chars(currs) + [] == Explode(fs);
    }
  }

  /** One well-formed tag `<tagtext>` of `parse_string1`, `tag` at its
      `<` and `endpos` at its `>`: write out the buffer, then the tag's
      colour ops, and step past the tag. */
  method ApplyTag(s: string, ghost fs0: FormattedString, ghost stack0: seq<int>,
                  fs: FormattedString, currs: string, tag: nat, stack: seq<int>, endpos: nat)
    returns (fs': FormattedString, tag': nat, stack': seq<int>)
    requires ScanInv(s, fs0, stack0, fs, currs, tag, stack) && |currs| < MaxChunk
    requires tag + 1 < |s| && s[tag] == '<' && s[tag + 1] != '<'
    requires endpos == FindChar(s, '>', tag + 1) && s[tag + 1..endpos] != "" && s[tag + 1..endpos] != "/"
    ensures ScanInv(s, fs0, stack0, fs', "", tag', stack') && tag' > tag
  {
    var tagtext := s[tag + 1..endpos];
    var t := TagOps(tagtext, stack);
    tag' := tag;
    if tagtext[0] == '/' {
      tagtext := tagtext[1..];
      tag' := tag' + 1;
    }
    fs' := fs;
    if currs != "" {
      fs' := AppendString(fs', currs);
    }
    fs' := fs' + t.ops;
    stack' := t.stack;
    tag' := tag' + |tagtext| + 1;
    assert tag' == endpos;
    // the loop's own increment
    tag' := tag' + 1;
    InvTag(s, fs0, stack0, fs, currs, tag, stack, endpos, fs', tag', stack');
  }

  /** The buffer is full: write out its first `FlushBound` bytes. The
      source then steps `tag` back so that the loop's increment revisits
      the same byte; here `tag` simply stays. */
  method FlushBuffer(s: string, ghost fs0: FormattedString, ghost stack0: seq<int>,
                     fs: FormattedString, currs: string, tag: nat, stack: seq<int>)
    returns (fs': FormattedString, currs': string)
    requires ScanInv(s, fs0, stack0, fs, currs, tag, stack) && |currs| >= MaxChunk
    ensures ScanInv(s, fs0, stack0, fs', currs', tag, stack) && |currs'| < |currs|
  {
    var bound := FlushBound(currs);
    InvFlush(s, fs0, stack0, fs, currs, tag, stack, bound);
    fs' := AppendString(fs, currs[..bound]);
    currs' := currs[bound..];
  }

  /** Buffer the byte at `tag` as literal text and step past `skip` bytes
      (2 for a `<<` escape). */
  method TakeLiteral(s: string, ghost fs0: FormattedString, ghost stack0: seq<int>,
                     fs: FormattedString, currs: string, tag: nat, stack: seq<int>, skip: nat)
    returns (currs': string, tag': nat)
    requires ScanInv(s, fs0, stack0, fs, currs, tag, stack) && |currs| < MaxChunk && tag < |s|
    requires skip == 1 || skip == 2
    requires skip == 1 ==> s[tag] != '<' || tag == |s| - 1 ||
                           (s[tag + 1] != '<' &&
                            var e := FindChar(s, '>', tag + 1);
                            e == -1 || s[tag + 1..e] == "" || s[tag + 1..e] == "/")
    requires skip == 2 ==> tag + 1 < |s| && s[tag] == '<' && s[tag + 1] == '<'
    ensures ScanInv(s, fs0, stack0, fs, currs', tag', stack) && tag' > tag
  {
    InvLiteral(s, fs0, stack0, fs, currs, tag, stack, skip);
    currs' := currs + [s[tag]];
    tag' := tag + skip;
  }

  /** One pass of the loop of `parse_string1` at byte `tag`. */
  method ScanStep(s: string, ghost fs0: FormattedString, ghost stack0: seq<int>,
                  fs: FormattedString, currs: string, tag: nat, stack: seq<int>)
    returns (fs': FormattedString, currs': string, tag': nat, stack': seq<int>)
    requires ScanInv(s, fs0, stack0, fs, currs, tag, stack) && tag < |s|
    ensures ScanInv(s, fs0, stack0, fs', currs', tag', stack')
    ensures tag' > tag || (tag' == tag && |currs'| < |currs|)
  {
    fs', currs', tag', stack' := fs, currs, tag, stack;
    if |currs| >= MaxChunk {
      // Break the buffer early, at a line end when there is one.
      fs', currs' := FlushBuffer(s, fs0, stack0, fs, currs, tag, stack);
      return;
    }
    if s[tag] != '<' || tag >= |s| - 1 {
      currs', tag' := TakeLiteral(s, fs0, stack0, fs, currs, tag, stack, 1);
      return;
    }
    // Is this a << escape?
    if s[tag + 1] == '<' {
      currs', tag' := TakeLiteral(s, fs0, stack0, fs, currs, tag, stack, 2);
      return;
    }
    var endpos := FindChar(s, '>', tag + 1);
    // No closing >, or an empty tag: the < is literal.
    if endpos == -1 || s[tag + 1..endpos] == "" || s[tag + 1..endpos] == "/" {
      currs', tag' := TakeLiteral(s, fs0, stack0, fs, currs, tag, stack, 1);
      return;
    }
    fs', tag', stack' := ApplyTag(s, fs0, stack0, fs, currs, tag, stack, endpos);
    currs' := "";
  }

  /** `parse_string1`: scan `s` left to right, buffering literal bytes in
      `currs` and turning each usable tag into colour ops, on top of what
      `fs0` already holds. */
  method ParseString1(s: string, fs0: FormattedString, stack0: seq<int>) returns (fs: FormattedString, stack: seq<int>)
    requires |stack0| >= 1
    ensures |fs| >= |fs0| && fs[..|fs0|] == fs0
    ensures Explode(fs) == Explode(fs0) + Explode(Scan(s, stack0).ops)
    ensures stack == Scan(s, stack0).stack
    ensures ChunksBounded(fs, |fs0|)
  {
    fs := fs0;
    stack := stack0;
    var tag: nat := 0;
    var currs: string := "";
    InvInit(s, fs0, stack0);
    while tag < |s|
      invariant ScanInv(s, fs0, stack0, fs, currs, tag, stack)
      decreases |s| - tag, |currs|
    {
      fs, currs, tag, stack := ScanStep(s, fs0, stack0, fs, currs, tag, stack);
    }
    InvDone(s, fs0, stack0, fs, currs, stack);
    if |currs| > 0 {
      fs := AppendString(fs, currs);
    }
  }

  // ------------------------------------------------- whole-string parsers

  /** Ops that pop `stack` down to its first `k` entries, top first: each
      switches to the colour below and records the colour it closes. */
  function ClosersDown(stack: seq<int>, k: nat): (r: FormattedString)
    requires 1 <= k
    ensures |r| == if |stack| <= k then 0 else |stack| - k
    ensures forall i :: 0 <= i < |r| ==> r[i].Colour?
    decreases |stack|
  {
    if |stack| <= k then []
    else [Colour(stack[|stack| - 2], Some(stack[|stack| - 1]))] + ClosersDown(stack[..|stack| - 1], k)
  }

  /** Ops that pop `stack` down to its bottom entry. */
  function Closers(stack: seq<int>): FormattedString {
    ClosersDown(stack, 1)
  }

  /** Ops that re-open every colour of `stack` above its bottom entry,
      bottom first. */
  function Openers(stack: seq<int>): (r: FormattedString)
    ensures |r| == if |stack| <= 1 then 0 else |stack| - 1
    ensures forall i :: 0 <= i < |r| ==> r[i] == Colour(stack[i + 1], None)
  {
    if |stack| <= 1 then [] else Openers(stack[..|stack| - 1]) + [Colour(stack[|stack| - 1], None)]
  }

  /** One more pop extends the closers by one op at the end. */
  lemma {:induction false} ClosersDownStep(stack: seq<int>, k: nat)
    requires 2 <= k <= |stack|
    ensures ClosersDown(stack, k - 1) == ClosersDown(stack, k) + [Colour(stack[k - 2], Some(stack[k - 1]))]
    decreases |stack|
  {
    if |stack| > k {
      var st' := stack[..|stack| - 1];
      ClosersDownStep(st', k);
      assert st'[k - 2] == stack[k - 2] && st'[k - 1] == stack[k - 1];
      Assoc([Colour(stack[|stack| - 2], Some(stack[|stack| - 1]))], ClosersDown(st', k),
            [Colour(stack[k - 2], Some(stack[k - 1]))]);
    } else {
      assert stack[..|stack| - 1] == stack[..k - 1];
      assert |stack[..k - 1]| <= k - 1;
    }
  }

  /** Colour ops carry no text. */
  lemma {:induction false} PlainOfColourOnly(fs: FormattedString)
    requires forall i :: 0 <= i < |fs| ==> fs[i].Colour?
    ensures Plain(fs) == ""
  {
    if fs != [] {
      PlainOfColourOnly(fs[1..]);
    }
  }

  lemma {:induction false} ColourOpsOfColourOnly(fs: FormattedString)
    requires forall i :: 0 <= i < |fs| ==> fs[i].Colour?
    ensures ColourOps(fs) == fs
  {
    if fs != [] {
      ColourOpsOfColourOnly(fs[1..]);
      assert [fs[0]] + fs[1..] == fs;
    }
  }

  /** Only the colour ops decide the last colour. */
  lemma {:induction false} LastColourOfColourOps(fs: FormattedString, d: int)
    ensures LastColourOr(ColourOps(fs), d) == LastColourOr(fs, d)
    decreases |fs|
  {
    if fs != [] {
      assert [fs[0]] + fs[1..] == fs;
      LastColourOrCons(fs[0], fs[1..], d);
      var d' := if fs[0].Colour? then fs[0].colour else d;
      LastColourOfColourOps(fs[1..], d');
      if fs[0].Colour? {
        LastColourOrCons(fs[0], ColourOps(fs[1..]), d);
      } else {
        assert ColourOps(fs) == ColourOps(fs[1..]);
      }
    }
  }

  lemma {:induction false} NoColourOpsIff(fs: FormattedString)
    ensures NoColourOps(fs) <==> ColourOps(fs) == []
    decreases |fs|
  {
    if fs != [] {
      NoColourOpsIff(fs[1..]);
      if fs[0].Text? {
        assert NoColourOps(fs) <==> NoColourOps(fs[1..]) by {
          if NoColourOps(fs[1..]) {
            forall i | 0 <= i < |fs|
              ensures fs[i].Text?
            {
              if i > 0 {
                assert fs[i] == fs[1..][i - 1];
              }
            }
          }
        }
      } else {
        assert !NoColourOps(fs) by {
          assert !fs[0].Text?;
        }
      }
    }
  }

  /** The colour in effect after text scanned on stack `stack` and then
      closed down to the bottom is that bottom colour, or the default when
      nothing changed the colour at all. */
  lemma ClosedLastColour(pre: FormattedString, p: Parsed, stack: seq<int>, fs: FormattedString, d: int)
    requires TopAgrees(p, stack) && |stack| >= 1 && p.stack[0] == stack[0]
    requires ColourOps(fs) == pre + ColourOps(p.ops) + Closers(p.stack)
    requires pre == [] || (|stack| >= 2 && LastColourOr(pre, d) == stack[|stack| - 1])
    ensures LastColourOr(fs, d) == (if pre == [] && NoColourOps(p.ops) && |p.stack| == 1 then d else p.stack[0])
  {
    var cl := Closers(p.stack);
    LastColourOfColourOps(fs, d);
    LastColourOrAppend(pre + ColourOps(p.ops), cl, d);
    LastColourOrAppend(pre, ColourOps(p.ops), d);
    LastColourOfColourOps(p.ops, LastColourOr(pre, d));
    if |p.stack| > 1 {
      ClosersDownStep(p.stack, 2);
      assert ClosersDown(p.stack, 2) + [Colour(p.stack[0], Some(p.stack[1]))] == cl;
      assert cl[|cl| - 1] == Colour(p.stack[0], Some(p.stack[1]));
    } else {
      assert cl == [];
      assert pre + ColourOps(p.ops) + cl == pre + ColourOps(p.ops);
      if NoColourOps(p.ops) {
        NoColourOpsIff(p.ops);
        assert pre + ColourOps(p.ops) == pre;
      }
    }
  }

  /** The ops of a scan, followed by the pops that close what it left open,
      hold its text, then its colour changes followed by the closers. */
  lemma ClosedText(p: Parsed, fs1: FormattedString, fs: FormattedString)
    requires Explode(fs1) == Explode(p.ops)
    requires fs == fs1 + Closers(p.stack)
    ensures Explode(fs) == Explode(p.ops) + Closers(p.stack)
    ensures Plain(fs) == Plain(p.ops)
    ensures ColourOps(fs) == ColourOps(p.ops) + Closers(p.stack)
  {
    var cl := Closers(p.stack);
    ClosedExplode(fs1, cl);
    ExplodedTail(fs, p.ops, cl);
  }

  /** What an exploded string of the form the ops of `mid`, `post` shows,
      when `post` is colour changes only. */
  lemma ExplodedTail(fs: FormattedString, mid: FormattedString, post: FormattedString)
    requires forall i :: 0 <= i < |post| ==> post[i].Colour?
    requires Explode(fs) == Explode(mid) + post
    ensures Plain(fs) == Plain(mid)
    ensures ColourOps(fs) == ColourOps(mid) + post
  {
    ExplodeKeeps(fs);
    ExplodeKeeps(mid);
    PlainAppend(Explode(mid), post);
    PlainOfColourOnly(post);
    ColourOpsAppend(Explode(mid), post);
    ColourOpsOfColourOnly(post);
  }

  lemma ClosedExplode(fs1: FormattedString, cl: FormattedString)
    requires forall i :: 0 <= i < |cl| ==> cl[i].Colour?
    ensures Explode(fs1 + cl) == Explode(fs1) + cl
  {
    ExplodeAppend(fs1, cl);
    ExplodeColourOnly(cl);
  }

  /** What an exploded string of the form `pre`, the ops of `mid`, `post`
      shows, when `pre` and `post` are colour changes only. */
  lemma ExplodedParts(fs: FormattedString, pre: FormattedString, mid: FormattedString, post: FormattedString)
    requires forall i :: 0 <= i < |pre| ==> pre[i].Colour?
    requires forall i :: 0 <= i < |post| ==> post[i].Colour?
    requires Explode(fs) == pre + Explode(mid) + post
    ensures Plain(fs) == Plain(mid)
    ensures ColourOps(fs) == pre + ColourOps(mid) + post
  {
    ExplodeKeeps(fs);
    ExplodeKeeps(mid);
    PlainAppend(pre + Explode(mid), post);
    PlainAppend(pre, Explode(mid));
    PlainOfColourOnly(pre);
    PlainOfColourOnly(post);
    ColourOpsAppend(pre + Explode(mid), post);
    ColourOpsAppend(pre, Explode(mid));
    ColourOpsOfColourOnly(pre);
    ColourOpsOfColourOnly(post);
  }

  /** ... and end in `main`, the colour at the bottom of the stack. */
  lemma ClosedEndsInMain(s: string, main: int, fs: FormattedString)
    requires ColourOps(fs) == ColourOps(Scan(s, [main]).ops) + Closers(Scan(s, [main]).stack)
    ensures !NoColourOps(fs) ==> FindLastColour(fs) == main
  {
    var p := Scan(s, [main]);
    ScanKeepsBase(s, [main]);
    ScanColourTop(s, [main]);
    assert ColourOps(fs) == [] + ColourOps(p.ops) + Closers(p.stack);
    ClosedLastColour([], p, [main], fs, LIGHTGREY);
    NoColourOpsIff(fs);
    NoColourOpsIff(p.ops);
  }

  /** The loop at the end of `parse_string`: pop until only the bottom
      colour is left. */
  method CloseAll(fs1: FormattedString, st: seq<int>) returns (fs: FormattedString, stack: seq<int>)
    requires |st| >= 1
    ensures fs == fs1 + Closers(st) && stack == [st[0]]
  {
    fs, stack := fs1, st;
    while |stack| > 1
      invariant 1 <= |stack| <= |st| && stack == st[..|stack|]
      invariant fs == fs1 + ClosersDown(st, |stack|)
      decreases |stack|
    {
      ghost var k := |stack|;
      ghost var op := Colour(stack[k - 2], Some(stack[k - 1]));
      assert op == Colour(st[k - 2], Some(st[k - 1]));
      ClosersDownStep(st, k);
      Assoc(fs1, ClosersDown(st, k), [op]);
      var popped := PopColour(fs, stack);
      assert popped.0 == fs + [op];
      assert popped.1 == st[..k - 1];
      fs, stack := popped.0, popped.1;
    }
  }

  /** `parse_string`: scan `s` on the stack `[main]`, then pop whatever the
      markup left open. */
  method ParseString(s: string, main: int) returns (fs: FormattedString, stack: seq<int>)
    ensures stack == [main]
    ensures Explode(fs) == Explode(Scan(s, [main]).ops) + Closers(Scan(s, [main]).stack)
    ensures Plain(fs) == Plain(Scan(s, [main]).ops)
    ensures !NoColourOps(fs) ==> FindLastColour(fs) == main
    ensures ChunksBounded(fs, 0)
  {
    ghost var p := Scan(s, [main]);
    ScanKeepsBase(s, [main]);
    fs, stack := ParseString1(s, [], [main]);
    assert Explode(fs) == [] + Explode(p.ops);
    var fs1 := fs;
    fs, stack := CloseAll(fs1, stack);
    ClosedText(p, fs1, fs);
    ClosedEndsInMain(s, main, fs);
    ChunksAppend(fs1, 0, Closers(p.stack));
  }

  /** The colour stack in force at the start of line `k` when the lines are
      parsed one after another from `[LIGHTGREY]`. */
  function StackAt(lines: seq<string>, k: nat): (r: seq<int>)
    requires k <= |lines|
    ensures |r| >= 1 && r[0] == LIGHTGREY
  {
    if k == 0 then [LIGHTGREY]
    else
      var prev := StackAt(lines, k - 1);
      ScanKeepsBase(lines[k - 1], prev);
      Scan(lines[k - 1], prev).stack
  }

  /** Line `i` of the multi-line parse: it re-opens the colours left open by
      the lines before it, holds the line's text and colour changes, closes
      every colour still open down to LIGHTGREY, and so ends in LIGHTGREY. */
  ghost predicate LineParsed(lines: seq<string>, i: nat, fs: FormattedString)
    requires i < |lines|
  {
    var st := StackAt(lines, i);
    var p := Scan(lines[i], st);
    |fs| >= |Openers(st)| && fs[..|Openers(st)|] == Openers(st) &&
    Explode(fs) == Openers(st) + Explode(p.ops) + Closers(StackAt(lines, i + 1)) &&
    FindLastColour(fs) == LIGHTGREY &&
    ChunksBounded(fs, |Openers(st)|)
  }

  lemma LineParsedStep(lines: seq<string>, k: nat, fs1: FormattedString, stack': seq<int>)
    requires k < |lines|
    requires var st := StackAt(lines, k);
             var p := Scan(lines[k], st);
             |fs1| >= |Openers(st)| && fs1[..|Openers(st)|] == Openers(st) &&
             Explode(fs1) == Explode(Openers(st)) + Explode(p.ops) &&
             stack' == p.stack && ChunksBounded(fs1, |Openers(st)|)
    ensures stack' == StackAt(lines, k + 1)
    ensures LineParsed(lines, k, fs1 + Closers(stack'))
  {
    var st := StackAt(lines, k);
    var p := Scan(lines[k], st);
    var opn := Openers(st);
    var cl := Closers(stack');
    var fs := fs1 + cl;
    ScanKeepsBase(lines[k], st);
    ScanColourTop(lines[k], st);
    ExplodeColourOnly(opn);
    ExplodeAppend(fs1, cl);
    ExplodeColourOnly(cl);
    ExplodedParts(fs, opn, p.ops, cl);
    ChunksAppend(fs1, |opn|, cl);
    PrefixKept(opn, fs1, cl);
    if opn != [] {
      assert opn[|opn| - 1] == Colour(st[|st| - 1], None);
    }
    ClosedLastColour(opn, p, st, fs, LIGHTGREY);
  }

  /** One line of `parse_string_to_multiple`: re-open the colours left
      open, parse the line on that stack, then close what is open. */
  method ParseLine(lines: seq<string>, k: nat, stack: seq<int>) returns (line: FormattedString, stack': seq<int>)
    requires k < |lines| && stack == StackAt(lines, k)
    ensures stack' == StackAt(lines, k + 1)
    ensures LineParsed(lines, k, line)
  {
    var opn := Openers(stack);
    var fs;
    fs, stack' := ParseString1(lines[k], opn, stack);
    LineParsedStep(lines, k, fs, stack');
    line := fs + Closers(stack');
  }

  lemma AllParsedSnoc(lines: seq<string>, out: seq<FormattedString>, line: FormattedString)
    requires |out| < |lines|
    requires forall i :: 0 <= i < |out| ==> LineParsed(lines, i, out[i])
    requires LineParsed(lines, |out|, line)
    ensures forall i :: 0 <= i < |out| + 1 ==> LineParsed(lines, i, (out + [line])[i])
  {
    forall i | 0 <= i < |out| + 1
      ensures LineParsed(lines, i, (out + [line])[i])
    {
      if i < |out| {
        assert (out + [line])[i] == out[i];
      } else {
        assert (out + [line])[i] == line;
      }
    }
  }

  /** `parse_string_to_multiple`, given the input already split into lines:
      each line is parsed on the colour stack the previous lines left,
      bracketed by ops re-opening and closing the colours open across it. */
  method ParseStringToMultiple(lines: seq<string>) returns (out: seq<FormattedString>)
    ensures |out| == |lines|
    ensures forall i :: 0 <= i < |lines| ==> LineParsed(lines, i, out[i])
  {
    out := [];
    var stack := [LIGHTGREY];
    var k := 0;
    while k < |lines|
      invariant k <= |lines| && |out| == k && stack == StackAt(lines, k)
      invariant forall i :: 0 <= i < k ==> LineParsed(lines, i, out[i])
    {
      var line, stack' := ParseLine(lines, k, stack);
      AllParsedSnoc(lines, out, line);
      out := out + [line];
      stack := stack';
      k := k + 1;
    }
  }

  // ----------------------------------------------------------- round trips

  /** Input without `<` is all literal text: one text op per byte, no
      colour change, the stack untouched. */
  lemma {:induction false} ScanNoAngle(s: string, stack: seq<int>)
    requires |stack| >= 1
    requires forall k :: 0 <= k < |s| ==> s[k] != '<'
    ensures Scan(s, stack) == Parsed(Chars(s), stack)
    decreases |s|
  {
    if s != [] {
      ScanNoAngle(s[1..], stack);
      assert Scan(s, stack) == Lit(s[0], Scan(s[1..], stack));
    }
  }

  /** ... so its plain text is the input itself. */
  lemma {:induction false} ScanNoAnglePlain(s: string, stack: seq<int>)
    requires |stack| >= 1
    requires forall k :: 0 <= k < |s| ==> s[k] != '<'
    ensures Plain(Scan(s, stack).ops) == s && ColourOps(Scan(s, stack).ops) == []
  {
    ScanNoAngle(s, stack);
    CharsFacts(s);
  }

  lemma ScanEscapeHead(t: string, rest: string, stack: seq<int>)
    requires |stack| >= 1 && t != []
    ensures Scan(Escape(t) + rest, stack) == Lit(t[0], Scan(Escape(t[1..]) + rest, stack))
  {
    var s := Escape(t) + rest;
    var tail := Escape(t[1..]) + rest;
    if t[0] == '<' {
      Assoc("<<", Escape(t[1..]), rest);
      assert s == "<<" + tail;
      assert s[2..] == tail;
    } else {
      Assoc([t[0]], Escape(t[1..]), rest);
      assert s == [t[0]] + tail;
      assert s[1..] == tail;
    }
  }

  /** Escaped text (`<` doubled) reads back as the text itself, whatever
      follows it. */
  lemma {:induction false} ScanEscaped(t: string, rest: string, stack: seq<int>)
    requires |stack| >= 1
    ensures var r := Scan(rest, stack);
            Scan(Escape(t) + rest, stack) == Parsed(Chars(t) + r.ops, r.stack)
    decreases |t|
  {
    var r := Scan(rest, stack);
    if t == [] {
      assert Escape(t) + rest == rest;
      assert Chars(t) + r.ops == r.ops;
    } else {
      ScanEscaped(t[1..], rest, stack);
      ScanEscapeHead(t, rest, stack);
      Assoc([Text([t[0]])], Chars(t[1..]), r.ops);
    }
  }

  lemma TagTextSlices(tagtext: string, rest: string)
    requires |tagtext| > 0 && tagtext[0] != '<'
    requires forall k :: 0 <= k < |tagtext| ==> tagtext[k] != '>'
    ensures var s := "<" + tagtext + ">" + rest;
            |s| > 1 && s[0] == '<' && s[1] != '<' &&
            FindChar(s, '>', 1) == |tagtext| + 1 && s[1..|tagtext| + 1] == tagtext && s[|tagtext| + 2..] == rest
  {
    var s := "<" + tagtext + ">" + rest;
    var e := |tagtext| + 1;
    assert s[e] == '>';
    forall k | 1 <= k < e
      ensures s[k] != '>'
    {
      assert s[k] == tagtext[k - 1];
    }
    assert s[1..e] == tagtext;
    assert s[e + 1..] == rest;
  }

  /** A tag the parser cannot use (an unknown colour, or a closing tag
      that does not name the colour on top of the stack) is written back
      literally in LIGHTRED, and parsing goes on with the stack unchanged. */
  lemma ScanEchoTag(tagtext: string, rest: string, stack: seq<int>)
    requires |stack| >= 1 && tagtext != "" && tagtext != "/" && tagtext[0] != '<'
    requires forall k :: 0 <= k < |tagtext| ==> tagtext[k] != '>'
    requires tagtext[0] == '/' ==>
               !(|stack| >= 2 && GetColour(tagtext[1..]) == stack[|stack| - 1] != UNKNOWN)
    requires tagtext[0] != '/' ==> GetColour(tagtext) == UNKNOWN
    ensures var r := Scan(rest, stack);
            Scan("<" + tagtext + ">" + rest, stack) ==
            Parsed(Echo("<" + tagtext + ">", stack).ops + r.ops, r.stack)
  {
    var a := TagActionOf(tagtext, stack);
    assert a == EchoBack("<" + tagtext + ">");
    TagTextSlices(tagtext, rest);
    ScanTagCase("<" + tagtext + ">" + rest, stack, |tagtext| + 1);
  }

  lemma TagOpsOpen(c: int, stack: seq<int>)
    requires IsColour(c) && |stack| >= 1
    ensures TagSafe(ColourToStr(c))
    ensures TagOps(ColourToStr(c), stack) == Parsed([Colour(c, None)], stack + [c])
  {
    NameRoundTrip(c);
  }

  /** The markup `<name>` of an opening colour op reads back as that op,
      pushing its colour. */
  lemma ScanOpenTag(c: int, rest: string, stack: seq<int>)
    requires IsColour(c) && |stack| >= 1
    ensures var r := Scan(rest, stack + [c]);
            Scan("<" + ColourToStr(c) + ">" + rest, stack) == Parsed([Colour(c, None)] + r.ops, r.stack)
  {
    var name := ColourToStr(c);
    TagOpsOpen(c, stack);
    TagTextSlices(name, rest);
    ScanTagCase("<" + name + ">" + rest, stack, |name| + 1);
  }

  lemma TagOpsClose(d: int, stack: seq<int>)
    requires IsColour(d) && |stack| >= 2 && stack[|stack| - 1] == d
    ensures TagSafe(ColourToStr(d))
    ensures TagOps("/" + ColourToStr(d), stack) ==
            Parsed([Colour(stack[|stack| - 2], Some(d))], stack[..|stack| - 1])
  {
    NameRoundTrip(d);
    var name := ColourToStr(d);
    var tagtext := "/" + name;
    assert tagtext[0] == '/' && tagtext[1..] == name;
    assert GetColour(tagtext[1..]) == d;
    var p := PopColour([], stack);
    assert p.0 == [Colour(stack[|stack| - 2], Some(d))];
  }

  /** The markup `</name>` of a closing colour op, met with `name`'s colour
      on top of a stack of two or more, reads back as that op, popping the
      colour. */
  lemma ScanCloseTag(d: int, rest: string, stack: seq<int>)
    requires IsColour(d) && |stack| >= 2 && stack[|stack| - 1] == d
    ensures var r := Scan(rest, stack[..|stack| - 1]);
            Scan("</" + ColourToStr(d) + ">" + rest, stack) ==
            Parsed([Colour(stack[|stack| - 2], Some(d))] + r.ops, r.stack)
  {
    var name := ColourToStr(d);
    TagOpsClose(d, stack);
    var tagtext := "/" + name;
    assert "</" + name == "<" + tagtext;
    TagTextSlices(tagtext, rest);
    ScanTagCase("<" + tagtext + ">" + rest, stack, |tagtext| + 1);
  }

  /** Ops that could have come from the parser starting on `stack`: every
      colour named, every closing op switching back to the colour under the
      top and closing the top, never the bottom entry. */
  ghost predicate WellNested(x: FormattedString, stack: seq<int>)
    decreases |x|
  {
    x == [] ||
    match x[0]
    case Text(_) => WellNested(x[1..], stack)
    case Colour(c, None) => IsColour(c) && WellNested(x[1..], stack + [c])
    case Colour(c, Some(d)) =>
      |stack| >= 2 && IsColour(d) && d == stack[|stack| - 1] && c == stack[|stack| - 2] &&
      WellNested(x[1..], stack[..|stack| - 1])
  }

  /** `to_colour_string` followed by parsing gives back the same ops, up
      to how text is cut into runs, for any string the parser could
      produce. */
  lemma {:induction false} MarkupRoundTrip(x: FormattedString, stack: seq<int>)
    requires WellNested(x, stack) && |stack| >= 1
    ensures Explode(Scan(Markup(x), stack).ops) == Explode(x)
    decreases |x|
  {
    if x != [] {
      var rest := Markup(x[1..]);
      assert Markup(x) == OpMarkup(x[0]) + rest;
      assert [x[0]] + x[1..] == x;
      ExplodeAppend([x[0]], x[1..]);
      match x[0]
      case Text(t) =>
        MarkupRoundTrip(x[1..], stack);
        ScanEscaped(t, rest, stack);
        var r := Scan(rest, stack);
        ExplodeAppend(Chars(t), r.ops);
        CharsFacts(t);
        ExplodeText(t);
      case Colour(c, None) =>
        MarkupRoundTrip(x[1..], stack + [c]);
        ScanOpenTag(c, rest, stack);
        var r := Scan(rest, stack + [c]);
        ExplodeAppend([x[0]], r.ops);
        ExplodeColourOnly([x[0]]);
      case Colour(c, Some(d)) =>
        var st' := stack[..|stack| - 1];
        MarkupRoundTrip(x[1..], st');
        ScanCloseTag(d, rest, stack);
        var r := Scan(rest, st');
        ExplodeAppend([x[0]], r.ops);
        ExplodeColourOnly([x[0]]);
    }
  }

  /** In particular the round trip keeps the plain text and the colour
      changes. */
  lemma MarkupRoundTripPlain(x: FormattedString, stack: seq<int>)
    requires WellNested(x, stack) && |stack| >= 1
    ensures Plain(Scan(Markup(x), stack).ops) == Plain(x)
    ensures ColourOps(Scan(Markup(x), stack).ops) == ColourOps(x)
  {
    MarkupRoundTrip(x, stack);
    ExplodeKeeps(x);
    ExplodeKeeps(Scan(Markup(x), stack).ops);
  }

  /** A string of text runs and opening colour changes is well nested on
      any stack. */
  lemma {:induction false} OpeningOnlyNested(x: FormattedString, stack: seq<int>)
    requires forall i :: 0 <= i < |x| ==> x[i].Text? || (x[i].closing == None && IsColour(x[i].colour))
    ensures WellNested(x, stack)
    decreases |x|
  {
    if x != [] {
      assert forall i :: 0 <= i < |x[1..]| ==> x[1..][i] == x[i + 1];
      var st' := if x[0].Text? then stack else stack + [x[0].colour];
      OpeningOnlyNested(x[1..], st');
    }
  }

  /** Writing a formatted string out as markup and parsing it back with
      `parse_string` gives its text and colour changes again, followed by
      pops for the colours it left open. */
  method Reparse(x: FormattedString, main: int) returns (fs: FormattedString)
    requires WellNested(x, [main])
    ensures Explode(fs) == Explode(x) + Closers(Scan(Markup(x), [main]).stack)
    ensures Plain(fs) == Plain(x)
  {
    var st := ToColourString(x);
    var stack;
    fs, stack := ParseString(st, main);
    MarkupRoundTrip(x, [main]);
    MarkupRoundTripPlain(x, [main]);
  }
}

=== FILE: projections.dfy ===
/** Read-only views of a formatted string: plain text of an op range,
    comparison, line counting, markup export and HTML export. */
module Projections {
  import opened Colours
  import opened Formatted

  // ------------------------------------------------------ cap / tostring

  /** `cap`: a negative index counts back from `max` (when it can), and the
      result is clamped into `[0, max - 1]` (0 when `max` is not positive). */
  function Cap(i: int, max: int): (r: int)
    ensures max <= 0 ==> r == 0
    ensures max > 0 ==> 0 <= r < max
    ensures max > 0 && 0 <= i < max ==> r == i
    ensures max > 0 && -max <= i < 0 ==> r == i + max
    ensures max > 0 && (i >= max || i < -max) ==> r == (if i >= max then max - 1 else 0)
  {
    var i1 := if i < 0 && -i <= max then i + max else i;
    var i2 := if i1 >= max then max - 1 else i1;
    if i2 < 0 then 0 else i2
  }

  /** The loop of `tostring`: text of ops `i..e`, stopping at the end. */
  function ToStringFrom(fs: FormattedString, i: nat, e: int): (r: string)
    ensures i <= e + 1 && e < |fs| ==> r == Plain(fs[i..e + 1])
    ensures i > e ==> r == ""
    decreases |fs| - i
  {
    if i > e || i >= |fs| then ""
    else
      var r := OpText(fs[i]) + ToStringFrom(fs, i + 1, e);
      assert i + 1 <= e + 1 && e < |fs| ==> fs[i..e + 1][1..] == fs[i + 1..e + 1];
      r
  }

  /** `tostring(s, e)`: plain text of the ops from index `s` to `e`
      inclusive, both first passed through `cap`. */
  function ToString(fs: FormattedString, s: int, e: int): (r: string)
    ensures var cs, ce := Cap(s, |fs|), Cap(e, |fs|);
            r == if fs != [] && cs <= ce then Plain(fs[cs..ce + 1]) else ""
  {
    ToStringFrom(fs, Cap(s, |fs|), Cap(e, |fs|))
  }

  /** With its default arguments (0, -1), `tostring` is the plain text. */
  lemma ToStringDefault(fs: FormattedString)
    ensures ToString(fs, 0, -1) == Plain(fs)
  {
    if fs != [] {
      assert fs[0..|fs|] == fs;
    }
  }

  // ---------------------------------------------------------- comparison

  /** `std::string` ordering: lexicographic by character. */
  function StrLess(a: string, b: string): bool {
    if a == [] then b != []
    else if b == [] then false
    else if a[0] != b[0] then a[0] < b[0]
    else StrLess(a[1..], b[1..])
  }

  lemma {:induction false} StrLessIrreflexive(a: string)
    ensures !StrLess(a, a)
  {
    if a != [] {
      StrLessIrreflexive(a[1..]);
    }
  }

  lemma {:induction false} StrLessTransitive(a: string, b: string, c: string)
    requires StrLess(a, b) && StrLess(b, c)
    ensures StrLess(a, c)
  {
    if a != [] && b != [] && c != [] && a[0] == b[0] && b[0] == c[0] {
      StrLessTransitive(a[1..], b[1..], c[1..]);
    }
  }

  lemma {:induction false} StrLessTotal(a: string, b: string)
    ensures a == b || StrLess(a, b) || StrLess(b, a)
  {
    if a != [] && b != [] && a[0] == b[0] {
      StrLessTotal(a[1..], b[1..]);
      if a[1..] == b[1..] {
        assert a == [a[0]] + a[1..] && b == [b[0]] + b[1..];
      }
    }
  }

  /** `operator <`: compares the plain texts only. */
  function Less(x: FormattedString, y: FormattedString): bool {
    StrLess(Plain(x), Plain(y))
  }

  /** `<` is a strict order that ignores colour: it is irreflexive and
      transitive, and two strings it cannot order have the same plain text. */
  lemma LessIsColourBlindOrder(x: FormattedString, y: FormattedString, z: FormattedString)
    ensures !Less(x, x)
    ensures Less(x, y) && Less(y, z) ==> Less(x, z)
    ensures Less(x, y) || Less(y, x) || Plain(x) == Plain(y)
    ensures Plain(x) == Plain(y) ==> !Less(x, y) && !Less(y, x)
  {
    StrLessIrreflexive(Plain(x));
    StrLessIrreflexive(Plain(y));
    if Less(x, y) && Less(y, z) {
      StrLessTransitive(Plain(x), Plain(y), Plain(z));
    }
    StrLessTotal(Plain(x), Plain(y));
  }

  /** `operator ==`: structural equality of the op sequences. */
  function Equal(x: FormattedString, y: FormattedString): (r: bool)
    ensures r ==> Plain(x) == Plain(y) && ColourOps(x) == ColourOps(y)
  {
    x == y
  }

  /** The equality is weaker than "looks the same": splitting a text run in
      two gives an unequal string with the same plain text and colours. */
  lemma EqualIsStructural()
    ensures var x, y := [Text("ab")], [Text("a"), Text("b")];
            !Equal(x, y) && Plain(x) == Plain(y) && ColourOps(x) == ColourOps(y)
  {
    var x, y := [Text("ab")], [Text("a"), Text("b")];
    assert x[0] != y[0];
    assert Plain(y) == "a" + Plain([Text("b")]);
  }

  // --------------------------------------------------------- line counts

  /** Number of newline characters in `s`. */
  function CountNewlines(s: string): (r: nat)
    ensures r == multiset(s)['\n']
  {
    if s == [] then 0
    else
      assert s == [s[0]] + s[1..];
      (if s[0] == '\n' then 1 else 0) + CountNewlines(s[1..])
  }

  /** First index at or after `from` holding `c`, or -1 (`std::string::find`). */
  function FindChar(s: string, c: char, from: nat): (r: int)
    ensures r == -1 <==> forall k :: from <= k < |s| ==> s[k] != c
    ensures r != -1 ==> from <= r < |s| && s[r] == c && forall k :: from <= k < r ==> s[k] != c
    decreases |s| - from
  {
    if from >= |s| then -1
    else if s[from] == c then from
    else FindChar(s, c, from + 1)
  }

  lemma NoNewlineCount(t: string)
    requires forall k :: 0 <= k < |t| ==> t[k] != '\n'
    ensures multiset(t)['\n'] == 0
  {
    if t != [] {
      NoNewlineCount(t[1..]);
      assert t == [t[0]] + t[1..];
    }
  }

  lemma CountStep(s: string, where: nat, w: nat)
    requires where <= w < |s| && s[w] == '\n'
    requires forall k :: where <= k < w ==> s[k] != '\n'
    ensures multiset(s[..w + 1])['\n'] == multiset(s[..where])['\n'] + 1
  {
    var mid := s[where..w];
    NoNewlineCount(mid);
    assert s[..w + 1] == (s[..where] + mid) + [s[w]];
  }

  /** The loop of `count_linebreaks`: repeated `find("\n")` over `s`. */
  method CountFound(s: string) returns (count: nat)
    ensures count == multiset(s)['\n']
  {
    var where: nat := 0;
    count := 0;
    while true
      invariant where <= |s|
      invariant count == multiset(s[..where])['\n']
      decreases |s| - where
    {
      var w := FindChar(s, '\n', where);
      if w == -1 {
        NoNewlineCount(s[where..]);
        assert s[..where] + s[where..] == s;
        return;
      }
      CountStep(s, where, w);
      count := count + 1;
      where := w + 1;
    }
  }

  /** `count_linebreaks`: the number of newlines in the plain text. */
  method CountLinebreaks(fs: FormattedString) returns (count: nat)
    ensures count == multiset(Plain(fs))['\n']
  {
    count := CountFound(Plain(fs));
  }

  /** `string_height`: number of lines of the plain text, which is one more
      than its newline count, so even the empty string is one line high. */
  function StringHeight(fs: FormattedString): (r: nat)
    ensures r == multiset(Plain(fs))['\n'] + 1
  {
    CountNewlines(Plain(fs)) + 1
  }

  // ---------------------------------------------------- to_colour_string

  /** Markup escaping of literal text: every `<` is written twice. */
  function Escape(t: string): string {
    if t == [] then [] else (if t[0] == '<' then "<<" else [t[0]]) + Escape(t[1..])
  }

  lemma {:induction false} EscapeNoAngle(t: string)
    requires forall k :: 0 <= k < |t| ==> t[k] != '<'
    ensures Escape(t) == t
  {
    if t != [] {
      EscapeNoAngle(t[1..]);
    }
  }

  lemma {:induction false} EscapeAppend(a: string, b: string)
    ensures Escape(a + b) == Escape(a) + Escape(b)
  {
    if a == [] {
      assert a + b == b;
    } else {
      assert (a + b)[1..] == a[1..] + b;
      EscapeAppend(a[1..], b);
      Assoc(if a[0] == '<' then "<<" else [a[0]], Escape(a[1..]), Escape(b));
    }
  }

  /** Escaping at the first `<` at or after `start`. */
  lemma EscapeAt(st: string, start: nat, la: nat)
    requires start <= la < |st| && st[la] == '<'
    requires forall k :: start <= k < la ==> st[k] != '<'
    ensures Escape(st[start..]) == st[start..la] + "<<" + Escape(st[la + 1..])
  {
    assert st[start..] == st[start..la] + ([st[la]] + st[la + 1..]);
    EscapeAppend(st[start..la], [st[la]] + st[la + 1..]);
    EscapeNoAngle(st[start..la]);
    assert Escape([st[la]] + st[la + 1..]) == "<<" + Escape(st[la + 1..]);
  }

  lemma DoubleAnglesStep(st: string, start: nat, la: nat)
    requires start <= la < |st| && st[la] == '<'
    requires forall k :: start <= k < la ==> st[k] != '<'
    ensures var st' := st[..la] + "<" + st[la..];
            st'[..la + 2] + Escape(st'[la + 2..]) == st[..start] + Escape(st[start..])
  {
    var st' := st[..la] + "<" + st[la..];
    EscapeAt(st, start, la);
    assert st'[..la + 2] == st[..start] + (st[start..la] + "<<");
    assert st'[la + 2..] == st[la + 1..];
    Assoc(st[..start], st[start..la] + "<<", Escape(st[la + 1..]));
  }

  lemma DoubleAnglesDone(st: string, start: nat)
    requires start <= |st|
    requires forall k :: start <= k < |st| ==> st[k] != '<'
    ensures st[..start] + Escape(st[start..]) == st
  {
    EscapeNoAngle(st[start..]);
    assert st[..start] + st[start..] == st;
  }

  /** The in-place doubling loop of `to_colour_string`: from `start` on,
      find each `<`, insert another before it and skip past both. */
  method DoubleAngles(st0: string, start0: nat) returns (st: string)
    requires start0 <= |st0|
    ensures st == st0[..start0] + Escape(st0[start0..])
  {
    st := st0;
    var start: nat := start0;
    while true
      invariant start <= |st|
      invariant st[..start] + Escape(st[start..]) == st0[..start0] + Escape(st0[start0..])
      decreases |st| - start
    {
      var la := FindChar(st, '<', start);
      if la == -1 {
        DoubleAnglesDone(st, start);
        return;
      }
      DoubleAnglesStep(st, start, la);
      st := st[..la] + "<" + st[la..];
      start := la + 2;
    }
  }

  /** Markup for one op: escaped text, `<name>` for an opening colour op,
      `</name>` (named after the closed colour) for a closing one. */
  function OpMarkup(op: Op): string {
    match op
    case Text(t) => Escape(t)
    case Colour(c, None) => "<" + ColourToStr(c) + ">"
    case Colour(_, Some(d)) => "</" + ColourToStr(d) + ">"
  }

  /** Markup for a whole formatted string: the ops' markup in order. */
  function Markup(fs: FormattedString): string {
    if fs == [] then "" else OpMarkup(fs[0]) + Markup(fs[1..])
  }

  lemma {:induction false} MarkupAppend(a: FormattedString, b: FormattedString)
    ensures Markup(a + b) == Markup(a) + Markup(b)
  {
    if a == [] {
      assert a + b == b;
    } else {
      assert (a + b)[1..] == a[1..] + b;
      MarkupAppend(a[1..], b);
      Assoc(OpMarkup(a[0]), Markup(a[1..]), Markup(b));
    }
  }

  lemma MarkupSnoc(fs: FormattedString, i: nat)
    requires i < |fs|
    ensures Markup(fs[..i + 1]) == Markup(fs[..i]) + OpMarkup(fs[i])
  {
    assert fs[..i + 1] == fs[..i] + [fs[i]];
    MarkupAppend(fs[..i], [fs[i]]);
    assert Markup([fs[i]]) == OpMarkup(fs[i]) + Markup([]);
  }

  /** One op of `to_colour_string`: a text run is appended and its `<`
      doubled in place; a colour op is written as a tag. */
  method AppendOpMarkup(st0: string, op: Op) returns (st: string)
    ensures st == st0 + OpMarkup(op)
  {
    match op {
      case Text(t) =>
        var start := |st0|;
        var grown := st0 + t;
        assert grown[..start] == st0 && grown[start..] == t;
        st := DoubleAngles(grown, start);
      case Colour(c, cl) =>
        if cl.None? {
          st := st0 + ("<" + ColourToStr(c) + ">");
        } else {
          st := st0 + ("</" + ColourToStr(cl.value) + ">");
        }
    }
  }

  /** `to_colour_string`: the markup of each op in turn. */
  method ToColourString(fs: FormattedString) returns (st: string)
    ensures st == Markup(fs)
  {
    st := "";
    var i := 0;
    while i < |fs|
      invariant 0 <= i <= |fs|
      invariant st == Markup(fs[..i])
    {
      MarkupSnoc(fs, i);
      st := AppendOpMarkup(st, fs[i]);
      i := i + 1;
    }
    assert fs[..i] == fs;
  }

  // ----------------------------------------------------------- html_dump

  /** Does `pat` occur in `s` at index `i`? */
  predicate MatchAt(s: string, pat: string, i: nat) {
    i + |pat| <= |s| && s[i..i + |pat|] == pat
  }

  /** `std::string::find(pat, from)`: first match at or after `from`, or -1. */
  function Find(s: string, pat: string, from: nat): (r: int)
    ensures r == -1 <==> forall k: nat :: from <= k ==> !MatchAt(s, pat, k)
    ensures r != -1 ==> from <= r && MatchAt(s, pat, r) && forall k: nat :: from <= k < r ==> !MatchAt(s, pat, k)
    decreases |s| - from
  {
    if from + |pat| > |s| then -1
    else if MatchAt(s, pat, from) then from
    else Find(s, pat, from + 1)
  }

  /** Replace every occurrence of `pat`, scanning left to right and never
      looking again at inserted text. */
  function ReplaceAll(s: string, pat: string, rep: string): string
    requires |pat| > 0
    decreases |s|
  {
    if |s| < |pat| then s
    else if s[..|pat|] == pat then rep + ReplaceAll(s[|pat|..], pat, rep)
    else [s[0]] + ReplaceAll(s[1..], pat, rep)
  }

  lemma {:induction false} ReplaceAllNoMatch(s: string, pat: string, rep: string, from: nat, to: nat)
    requires |pat| > 0 && from <= to <= |s|
    requires forall k: nat :: from <= k < to ==> !MatchAt(s, pat, k)
    ensures ReplaceAll(s[from..], pat, rep) == s[from..to] + ReplaceAll(s[to..], pat, rep)
    decreases |s| - from
  {
    if from < to {
      assert !MatchAt(s, pat, from);
      var t := s[from..];
      if |t| >= |pat| {
        assert t[..|pat|] == s[from..from + |pat|];
      }
      assert t[1..] == s[from + 1..];
      ReplaceAllNoMatch(s, pat, rep, from + 1, to);
      assert s[from..to] == [s[from]] + s[from + 1..to];
      Assoc([s[from]], s[from + 1..to], ReplaceAll(s[to..], pat, rep));
    }
  }

  lemma ReplaceAllNone(s: string, pat: string, rep: string, from: nat)
    requires |pat| > 0 && from <= |s|
    requires forall k: nat :: from <= k ==> !MatchAt(s, pat, k)
    ensures ReplaceAll(s[from..], pat, rep) == s[from..]
  {
    ReplaceAllNoMatch(s, pat, rep, from, |s|);
  }

  lemma ReplaceAtMatch(s: string, pat: string, rep: string, p: nat)
    requires |pat| > 0 && MatchAt(s, pat, p)
    ensures ReplaceAll(s[p..], pat, rep) == rep + ReplaceAll(s[p + |pat|..], pat, rep)
  {
    var tail := s[p..];
    assert tail[..|pat|] == pat;
    assert tail[|pat|..] == s[p + |pat|..];
  }

  lemma ReplaceStep(s: string, pat: string, rep: string, pos: nat, p: nat)
    requires |pat| > 0 && pos <= p && MatchAt(s, pat, p)
    requires forall k: nat :: pos <= k < p ==> !MatchAt(s, pat, k)
    ensures var s' := s[..p] + rep + s[p + |pat|..];
            s'[..p + |rep|] + ReplaceAll(s'[p + |rep|..], pat, rep) == s[..pos] + ReplaceAll(s[pos..], pat, rep)
  {
    var s' := s[..p] + rep + s[p + |pat|..];
    var rest := ReplaceAll(s[p + |pat|..], pat, rep);
    calc {
      s'[..p + |rep|] + ReplaceAll(s'[p + |rep|..], pat, rep);
      == { assert s'[..p + |rep|] == s[..pos] + (s[pos..p] + rep);
           assert s'[p + |rep|..] == s[p + |pat|..]; }
      (s[..pos] + (s[pos..p] + rep)) + rest;
      == { Assoc(s[..pos], s[pos..p] + rep, rest); }
      s[..pos] + ((s[pos..p] + rep) + rest);
      == { Assoc(s[pos..p], rep, rest); }
      s[..pos] + (s[pos..p] + (rep + rest));
      == { ReplaceAllNoMatch(s, pat, rep, pos, p);
           ReplaceAtMatch(s, pat, rep, p); }
      s[..pos] + ReplaceAll(s[pos..], pat, rep);
    }
  }

  /** `_replace_all_in_string`: find from `pos`, replace, and continue just
      past the inserted text. */
  method ReplaceAllInString(s0: string, pat: string, rep: string) returns (s: string)
    requires |pat| > 0
    ensures s == ReplaceAll(s0, pat, rep)
  {
    s := s0;
    var pos: nat := 0;
    assert s0[0..] == s0;
    while true
      invariant pos <= |s|
      invariant s[..pos] + ReplaceAll(s[pos..], pat, rep) == ReplaceAll(s0, pat, rep)
      decreases |s| - pos
    {
      var p := Find(s, pat, pos);
      if p == -1 {
        ReplaceAllNone(s, pat, rep, pos);
        assert s[..pos] + s[pos..] == s;
        return;
      }
      ReplaceStep(s, pat, rep, pos, p);
      s := s[..p] + rep + s[p + |pat|..];
      pos := p + |rep|;
    }
  }

  lemma {:induction false} ReplaceCharAppend(a: string, b: string, c: char, rep: string)
    ensures ReplaceAll(a + b, [c], rep) == ReplaceAll(a, [c], rep) + ReplaceAll(b, [c], rep)
  {
    if a == [] {
      assert a + b == b;
    } else {
      var ab := a + b;
      assert ab[1..] == a[1..] + b;
      assert ab[..1] == [a[0]];
      ReplaceCharAppend(a[1..], b, c, rep);
      var head := if a[0] == c then rep else [a[0]];
      Assoc(head, ReplaceAll(a[1..], [c], rep), ReplaceAll(b, [c], rep));
    }
  }

  lemma {:induction false} ReplaceCharAbsent(s: string, c: char, rep: string)
    requires c !in s
    ensures ReplaceAll(s, [c], rep) == s
  {
    if s != [] {
      assert s[..1] != [c] by { assert s[..1][0] == s[0]; }
      ReplaceCharAbsent(s[1..], c, rep);
    }
  }

  /** The five passes of `html_dump` over one text run, in source order. */
  function HtmlText(t: string): string {
    var t1 := ReplaceAll(t, "&", "&amp;");
    var t2 := ReplaceAll(t1, " ", "&nbsp;");
    var t3 := ReplaceAll(t2, "<", "&lt;");
    var t4 := ReplaceAll(t3, ">", "&gt;");
    ReplaceAll(t4, "\n", "<br>")
  }

  /** HTML for one op. Colour ops open a font tag that is never closed. */
  function HtmlOp(op: Op): string {
    match op
    case Text(t) => HtmlText(t)
    case Colour(c, _) => "<font color=" + ColourToStr(c) + ">"
  }

  function Html(fs: FormattedString): string {
    if fs == [] then "" else HtmlOp(fs[0]) + Html(fs[1..])
  }

  /** `html_dump`: the loop over ops, running the replacement passes on each
      text run. */
  method HtmlDump(fs: FormattedString) returns (s: string)
    ensures s == Html(fs)
  {
    s := "";
    var i := 0;
    while i < |fs|
      invariant 0 <= i <= |fs|
      invariant s + Html(fs[i..]) == Html(fs)
    {
      assert fs[i..][1..] == fs[i + 1..];
      match fs[i] {
        case Text(t) =>
          var tmp := ReplaceAllInString(t, "&", "&amp;");
          tmp := ReplaceAllInString(tmp, " ", "&nbsp;");
          tmp := ReplaceAllInString(tmp, "<", "&lt;");
          tmp := ReplaceAllInString(tmp, ">", "&gt;");
          tmp := ReplaceAllInString(tmp, "\n", "<br>");
          Assoc(s, tmp, Html(fs[i + 1..]));
          s := s + tmp;
        case Colour(c, _) =>
          Assoc(s, "<font color=" + ColourToStr(c) + ">", Html(fs[i + 1..]));
          s := s + ("<font color=" + ColourToStr(c) + ">");
      }
      i := i + 1;
    }
  }

  /** What one character of text becomes in HTML. */
  function HtmlChar(x: char): string {
    if x == '&' then "&amp;"
    else if x == ' ' then "&nbsp;"
    else if x == '<' then "&lt;"
    else if x == '>' then "&gt;"
    else if x == '\n' then "<br>"
    else [x]
  }

  /** Characters translated one by one. */
  function HtmlEscape(t: string): string {
    if t == [] then "" else HtmlChar(t[0]) + HtmlEscape(t[1..])
  }

  lemma HtmlTextAppend(a: string, b: string)
    ensures HtmlText(a + b) == HtmlText(a) + HtmlText(b)
  {
    ReplaceCharAppend(a, b, '&', "&amp;");
    var a1, b1 := ReplaceAll(a, "&", "&amp;"), ReplaceAll(b, "&", "&amp;");
    ReplaceCharAppend(a1, b1, ' ', "&nbsp;");
    var a2, b2 := ReplaceAll(a1, " ", "&nbsp;"), ReplaceAll(b1, " ", "&nbsp;");
    ReplaceCharAppend(a2, b2, '<', "&lt;");
    var a3, b3 := ReplaceAll(a2, "<", "&lt;"), ReplaceAll(b2, "<", "&lt;");
    ReplaceCharAppend(a3, b3, '>', "&gt;");
    var a4, b4 := ReplaceAll(a3, ">", "&gt;"), ReplaceAll(b3, ">", "&gt;");
    ReplaceCharAppend(a4, b4, '\n', "<br>");
  }

  lemma ReplaceCharSingle(x: char, c: char, rep: string)
    ensures ReplaceAll([x], [c], rep) == if x == c then rep else [x]
  {
    var s := [x];
    assert s[..1] == s;
    assert s[1..] == [];
  }

  lemma HtmlTextAmp()
    ensures HtmlText("&") == "&amp;"
  {
    ReplaceCharSingle('&', '&', "&amp;");
    ReplaceCharAbsent("&amp;", ' ', "&nbsp;");
    ReplaceCharAbsent("&amp;", '<', "&lt;");
    ReplaceCharAbsent("&amp;", '>', "&gt;");
    ReplaceCharAbsent("&amp;", '\n', "<br>");
  }

  lemma HtmlTextSpace()
    ensures HtmlText(" ") == "&nbsp;"
  {
    ReplaceCharSingle(' ', '&', "&amp;");
    ReplaceCharSingle(' ', ' ', "&nbsp;");
    ReplaceCharAbsent("&nbsp;", '<', "&lt;");
    ReplaceCharAbsent("&nbsp;", '>', "&gt;");
    ReplaceCharAbsent("&nbsp;", '\n', "<br>");
  }

  lemma HtmlTextLt()
    ensures HtmlText("<") == "&lt;"
  {
    ReplaceCharSingle('<', '&', "&amp;");
    ReplaceCharSingle('<', ' ', "&nbsp;");
    ReplaceCharSingle('<', '<', "&lt;");
    ReplaceCharAbsent("&lt;", '>', "&gt;");
    ReplaceCharAbsent("&lt;", '\n', "<br>");
  }

  lemma HtmlTextGt()
    ensures HtmlText(">") == "&gt;"
  {
    ReplaceCharSingle('>', '&', "&amp;");
    ReplaceCharSingle('>', ' ', "&nbsp;");
    ReplaceCharSingle('>', '<', "&lt;");
    ReplaceCharSingle('>', '>', "&gt;");
    ReplaceCharAbsent("&gt;", '\n', "<br>");
  }

  lemma HtmlTextNewline()
    ensures HtmlText("\n") == "<br>"
  {
    ReplaceCharSingle('\n', '&', "&amp;");
    ReplaceCharSingle('\n', ' ', "&nbsp;");
    ReplaceCharSingle('\n', '<', "&lt;");
    ReplaceCharSingle('\n', '>', "&gt;");
    ReplaceCharSingle('\n', '\n', "<br>");
  }

  lemma HtmlTextPlainChar(x: char)
    requires x != '&' && x != ' ' && x != '<' && x != '>' && x != '\n'
    ensures HtmlText([x]) == [x]
  {
    ReplaceCharSingle(x, '&', "&amp;");
    ReplaceCharSingle(x, ' ', "&nbsp;");
    ReplaceCharSingle(x, '<', "&lt;");
    ReplaceCharSingle(x, '>', "&gt;");
    ReplaceCharSingle(x, '\n', "<br>");
  }

  /** One character of text goes through the five passes as `HtmlChar`
      says. */
  lemma HtmlTextChar(x: char)
    ensures HtmlText([x]) == HtmlChar(x)
  {
    if x == '&' {
      HtmlTextAmp();
    } else if x == ' ' {
      HtmlTextSpace();
    } else if x == '<' {
      HtmlTextLt();
    } else if x == '>' {
      HtmlTextGt();
    } else if x == '\n' {
      HtmlTextNewline();
    } else {
      HtmlTextPlainChar(x);
    }
  }

  /** The five passes never interfere: the escaped text is the character-by-
      character translation, so text inserted by one pass is left alone by
      the later ones. */
  lemma {:induction false} HtmlTextPerChar(t: string)
    ensures HtmlText(t) == HtmlEscape(t)
  {
    if t == [] {
      assert ReplaceAll([], "&", "&amp;") == [];
    } else {
      assert t == [t[0]] + t[1..];
      HtmlTextAppend([t[0]], t[1..]);
      HtmlTextChar(t[0]);
      HtmlTextPerChar(t[1..]);
    }
  }
}

=== FILE: reflow.dfy ===
/** `linebreak_formatted_string`: fit a formatted string into a box of a
    given width and height by turning spaces into line breaks, and cut it
    short with ".." when it does not fit. The text is worked on as a byte
    buffer, read through C-string searches that stop at the first NUL byte;
    every byte is one glyph of width one. */
module Reflow {
  import opened Colours
  import opened Formatted
  import opened Slicing
  import opened Projections

  /** "Not found" of the searches, as in the source. */
  const INT_MAX := 0x7fff_ffff

  /** Length of the C string starting at `line`: up to the first NUL. */
  function CLen(line: string): (n: nat)
    ensures n <= |line| && (n < |line| ==> line[n] == '\0')
    ensures forall j :: 0 <= j < n ==> line[j] != '\0'
  {
    if line == [] || line[0] == '\0' then 0 else CLen(line[1..]) + 1
  }

  /** `_find_newline` (from position `i`): index of the first newline of the
      C string, or INT_MAX. */
  function FindNewline(line: string, i: nat): (r: int)
    requires |line| < INT_MAX && i <= CLen(line)
    ensures r == INT_MAX <==> forall j :: i <= j < CLen(line) ==> line[j] != '\n'
    ensures r != INT_MAX ==> i <= r < CLen(line) && line[r] == '\n' &&
                             forall j :: i <= j < r ==> line[j] != '\n'
    decreases |line| - i
  {
    if i >= |line| || line[i] == '\0' then INT_MAX
    else if line[i] == '\n' then i
    else FindNewline(line, i + 1)
  }

  /** `_find_index_before_width` (from glyph `i`, `i` glyphs wide so far):
      the index of the glyph that takes the width past `w`, or INT_MAX when
      the C string, or its first line, ends first. */
  function IndexBeforeWidth(line: string, w: int, i: nat): (r: int)
    requires |line| < INT_MAX && i <= Max0(w) && i <= CLen(line)
    ensures r == if Max0(w) < CLen(line) && (forall j :: i <= j <= Max0(w) ==> line[j] != '\n')
                 then Max0(w) else INT_MAX
    decreases |line| - i
  {
    if i >= |line| || line[i] == '\0' then INT_MAX
    else if line[i] == '\n' then INT_MAX
    else if i + 1 > w then i
    else IndexBeforeWidth(line, w, i + 1)
  }

  /** `b` is `b0` with some spaces turned into newlines. */
  ghost predicate Reflowed(b0: string, b: string) {
    |b| == |b0| &&
    forall k :: 0 <= k < |b0| ==> b[k] == b0[k] || (b0[k] == ' ' && b[k] == '\n')
  }

  /** Number of newlines in `s`, counted from the back. */
  function NewlineCount(s: string): nat {
    if s == [] then 0
    else NewlineCount(s[..|s| - 1]) + (if s[|s| - 1] == '\n' then 1 else 0)
  }

  lemma {:induction false} NewlineCountMultiset(s: string)
    ensures NewlineCount(s) == multiset(s)['\n']
    decreases |s|
  {
    if s != [] {
      NewlineCountMultiset(s[..|s| - 1]);
      assert s == s[..|s| - 1] + [s[|s| - 1]];
    }
  }

  /** Bytes without a newline add nothing to the count. */
  lemma {:induction false} NewlineCountStretch(base: string, a: nat, b: nat)
    requires a <= b <= |base|
    requires forall j :: a <= j < b ==> base[j] != '\n'
    ensures NewlineCount(base[..b]) == NewlineCount(base[..a])
    decreases b - a
  {
    if a < b {
      assert base[..b][..b - 1] == base[..b - 1];
      NewlineCountStretch(base, a, b - 1);
    }
  }

  /** `s` holds no NUL byte, so its C string is all of it. */
  predicate NulFree(s: string) {
    forall k :: 0 <= k < |s| ==> s[k] != '\0'
  }

  /** The column that index `i` of `s` is at: the number of bytes since the
      last newline before it. */
  function Column(s: string, i: nat): (c: nat)
    requires i <= |s|
    ensures c <= i
  {
    if i == 0 || s[i - 1] == '\n' then 0 else Column(s, i - 1) + 1
  }

  /** No line of `s` is longer than `w` bytes. */
  predicate LinesAtMost(s: string, w: int) {
    forall i :: 0 <= i <= |s| ==> Column(s, i) <= w
  }

  /** No line that starts before `off` is longer than `w` bytes. */
  predicate LinesBefore(s: string, off: nat, w: int)
    requires off <= |s|
  {
    forall i :: 0 <= i <= off ==> Column(s, i) <= w
  }

  /** `off` is where a line of `s` starts. */
  predicate AtLineStart(s: string, off: nat) {
    off <= |s| && (off == 0 || s[off - 1] == '\n')
  }

  /** Columns count up from a line start across bytes that are not
      newlines. */
  lemma {:induction false} ColumnRun(s: string, a: nat, i: nat)
    requires AtLineStart(s, a) && a <= i <= |s|
    requires forall j :: a <= j < i ==> s[j] != '\n'
    ensures Column(s, i) == i - a
    decreases i
  {
    if i > a {
      ColumnRun(s, a, i - 1);
    }
  }

  /** A column depends only on the bytes before it. */
  lemma {:induction false} ColumnPrefix(s: string, t: string, i: nat)
    requires i <= |s| && i <= |t| && s[..i] == t[..i]
    ensures Column(s, i) == Column(t, i)
    decreases i
  {
    if i > 0 {
      assert s[i - 1] == s[..i][i - 1] == t[..i][i - 1] == t[i - 1];
      assert s[..i - 1] == s[..i][..i - 1];
      assert t[..i - 1] == t[..i][..i - 1];
      ColumnPrefix(s, t, i - 1);
    }
  }

  /** A line that runs `w + 1` bytes past its start is `w + 1` wide. */
  lemma WidthCutColumn(s: string, off: nat, w: nat)
    requires AtLineStart(s, off)
    ensures (off + w < |s| && forall j :: off <= j <= off + w ==> s[j] != '\n') ==>
              Column(s, off + w + 1) == w + 1
  {
    if off + w < |s| && forall j :: off <= j <= off + w ==> s[j] != '\n' {
      ColumnRun(s, off, off + w + 1);
    }
  }

  /** Ending a line of at most `w` bytes with a newline keeps every line
      before the new line start within `w`. */
  lemma BreakColumns(base: string, off: nat, e: nat, w: int)
    requires AtLineStart(base, off) && LinesBefore(base, off, w)
    requires off + e < |base| && e <= w
    requires forall j :: off <= j < off + e ==> base[j] != '\n'
    ensures var base' := base[off + e := '\n'];
            AtLineStart(base', off + e + 1) && LinesBefore(base', off + e + 1, w)
  {
    var base' := base[off + e := '\n'];
    forall i | 0 <= i <= off + e + 1
      ensures Column(base', i) <= w
    {
      if i <= off {
        assert base'[..i] == base[..i];
        ColumnPrefix(base', base, i);
      } else if i <= off + e {
        ColumnRun(base', off, i);
      }
    }
  }

  /** The cut result `base[..off + e] + ".."`: the lines before `off` are
      kept and the last line is `e + 2` bytes wide. */
  lemma CutColumns(base: string, off: nat, e: nat, w: int)
    requires AtLineStart(base, off) && LinesBefore(base, off, w)
    requires off + e <= |base| && e + 2 <= Max(w, 2)
    requires forall j :: off <= j < off + e ==> base[j] != '\n'
    ensures LinesAtMost(base[..off + e] + "..", Max(w, 2))
  {
    var p := base[..off + e] + "..";
    assert AtLineStart(p, off);
    forall i | 0 <= i <= |p|
      ensures Column(p, i) <= Max(w, 2)
    {
      if i <= off {
        assert p[..i] == base[..i];
        ColumnPrefix(p, base, i);
      } else {
        forall j | off <= j < i
          ensures p[j] != '\n'
        {
          if j < off + e {
            assert p[j] == base[j];
          }
        }
        ColumnRun(p, off, i);
      }
    }
  }

  /** A last line of at most `w` bytes ending the text. */
  lemma LastLineColumns(base: string, off: nat, w: int)
    requires AtLineStart(base, off) && LinesBefore(base, off, w) && |base| - off <= w
    requires forall j :: off <= j < |base| ==> base[j] != '\n'
    ensures LinesAtMost(base, w)
  {
    forall i | off < i <= |base|
      ensures Column(base, i) <= w
    {
      ColumnRun(base, off, i);
    }
  }

  /** The newlines of a prefix are among those of the whole. */
  lemma NewlineCountPrefix(s: string, n: nat)
    requires n <= |s|
    ensures NewlineCount(s[..n]) <= multiset(s)['\n']
  {
    NewlineCountMultiset(s[..n]);
    assert s == s[..n] + s[n..];
    assert multiset(s) == multiset(s[..n]) + multiset(s[n..]);
  }

  /** The reflow loop's invariant: `ret` mirrors the buffer `base`, which is
      the input with some spaces broken, and the `numLines` lines before
      `off` are complete and fewer than allowed. */
  ghost predicate ReflowInv(str: FormattedString, maxLines: int,
                            ret: FormattedString, base: string, off: nat, numLines: int)
  {
    |Plain(str)| < INT_MAX && off <= |base| &&
    Reflowed(Plain(str), base) && Plain(ret) == base && SameShape(str, ret) &&
    0 <= numLines < maxLines && NewlineCount(base[..off]) == numLines
  }

  /** The loop's invariant together with what the width and fit results
      need: `off` starts a line, no line before it is wider than `w`, and
      text that already fits (`fits`) is left as it was. */
  ghost predicate PassInv(str: FormattedString, maxLines: int, ret: FormattedString, base: string,
                          off: nat, numLines: int, w: int, fits: bool)
  {
    ReflowInv(str, maxLines, ret, base, off, numLines) &&
    AtLineStart(base, off) && LinesBefore(base, off, w) &&
    (fits ==> ret == str && base == Plain(str))
  }

  lemma ReflowedRefl(b: string)
    ensures Reflowed(b, b)
  {
  }

  lemma SameShapeRefl(fs: FormattedString)
    ensures SameShape(fs, fs)
  {
  }

  lemma SameShapeTrans(a: FormattedString, b: FormattedString, c: FormattedString)
    requires SameShape(a, b) && SameShape(b, c)
    ensures SameShape(a, c)
  {
  }

  lemma InvStart(str: FormattedString, maxLines: int)
    requires maxLines >= 1 && |Plain(str)| < INT_MAX
    ensures ReflowInv(str, maxLines, AppendFormatted([], str), Plain(str), 0, 0)
  {
    var ret := AppendFormatted([], str);
    assert ret == str;
    ReflowedRefl(Plain(str));
    SameShapeRefl(str);
    assert Plain(str)[..0] == [];
  }

  /** The line that ends with the newline at `off + e` and holds no other
      newline adds one to the count. */
  lemma CountLine(base: string, off: nat, e: nat)
    requires off + e < |base| && base[off + e] == '\n'
    requires forall j :: off <= j < off + e ==> base[j] != '\n'
    ensures NewlineCount(base[..off + e + 1]) == NewlineCount(base[..off]) + 1
  {
    NewlineCountStretch(base, off, off + e);
    assert base[..off + e + 1][..off + e] == base[..off + e];
  }

  /** Breaking the line at a space keeps the invariant. */
  lemma InvBreakAtSpace(str: FormattedString, maxLines: int,
                        ret: FormattedString, base: string, off: nat, numLines: int, e: nat)
    requires ReflowInv(str, maxLines, ret, base, off, numLines - 1) && numLines < maxLines
    requires off + e < |base| && base[off + e] == ' '
    requires forall j :: off <= j < off + e ==> base[j] != '\n'
    ensures SetByte(ret, off + e, '\n').Some?
    ensures ReflowInv(str, maxLines, SetByte(ret, off + e, '\n').value,
                      base[off + e := '\n'], off + e + 1, numLines)
  {
    var base' := base[off + e := '\n'];
    var ret' := SetByte(ret, off + e, '\n').value;
    assert SameShape(str, ret') by {
      SameShapeTrans(str, ret, ret');
    }
    assert Plain(ret') == base';
    assert Reflowed(Plain(str), base');
    assert NewlineCount(base'[..off + e + 1]) == numLines by {
      assert base'[..off] == base[..off];
      CountLine(base', off, e);
    }
  }

  /** Stepping past a newline already in the text keeps the invariant. */
  lemma InvPastNewline(str: FormattedString, maxLines: int,
                       ret: FormattedString, base: string, off: nat, numLines: int, e: nat)
    requires ReflowInv(str, maxLines, ret, base, off, numLines - 1) && numLines < maxLines
    requires off + e < |base| && base[off + e] == '\n'
    requires forall j :: off <= j < off + e ==> base[j] != '\n'
    ensures ReflowInv(str, maxLines, ret, base, off + e + 1, numLines)
  {
    CountLine(base, off, e);
    assert NewlineCount(base[..off + e + 1]) == numLines;
  }

  lemma ReflowedPrefix(b0: string, b: string, n: nat)
    requires Reflowed(b0, b) && n <= |b0|
    ensures Reflowed(b0[..n], b[..n])
  {
  }

  /** The newlines of the cut result are those of the kept bytes. */
  lemma CutCount(base: string, off: nat, numLines: int, n: nat, r: string)
    requires off <= n <= |base| && NewlineCount(base[..off]) == numLines
    requires forall j :: off <= j < n ==> base[j] != '\n'
    requires r == base[..n] + ".."
    ensures multiset(r)['\n'] == numLines
  {
    NewlineCountStretch(base, off, n);
    NewlineCountMultiset(base[..n]);
    assert multiset(r) == multiset(base[..n]) + multiset("..");
    assert multiset("..")['\n'] == 0;
  }

  /** The cut result: the first `off + e` bytes, then "..". */
  lemma Truncated(str: FormattedString, maxLines: int,
                  ret: FormattedString, base: string, off: nat, numLines: int, e: nat)
    requires ReflowInv(str, maxLines, ret, base, off, numLines)
    requires off + e <= |base|
    requires forall j :: off <= j < off + e ==> base[j] != '\n'
    ensures var r := AppendString(ChopBytes(ret, off + e), "..");
            Plain(r) == base[..off + e] + ".." &&
            multiset(Plain(r))['\n'] == numLines &&
            Reflowed(Plain(str)[..off + e], Plain(r)[..off + e])
  {
    var n := off + e;
    var chopped := ChopBytes(ret, n);
    var r := AppendString(chopped, "..");
    ChopBytesPlain(ret, n);
    assert Plain(chopped) == base[..n];
    assert Plain(r) == base[..n] + "..";
    CutCount(base, off, numLines, n, Plain(r));
    assert Plain(r)[..n] == base[..n];
    ReflowedPrefix(Plain(str), base, n);
  }

  /** When the C string holds no newline, the last line is complete too,
      and it is no wider than the width the search allowed. */
  lemma Finished(str: FormattedString, maxLines: int,
                 ret: FormattedString, base: string, off: nat, numLines: int, maxWidth: int)
    requires ReflowInv(str, maxLines, ret, base, off, numLines)
    requires NulFree(Plain(str))
    requires forall j :: 0 <= j < CLen(base[off..]) ==> base[off..][j] != '\n'
    requires AtLineStart(base, off) && LinesBefore(base, off, Max0(maxWidth)) && CLen(base[off..]) <= Max0(maxWidth)
    ensures multiset(Plain(ret))['\n'] == numLines
    ensures LinesAtMost(Plain(ret), Max(maxWidth, 2))
  {
    var line := base[off..];
    forall j | 0 <= j < |line|
      ensures line[j] != '\0'
    {
      assert line[j] == base[off + j];
    }
    assert CLen(line) == |line|;
    forall j | off <= j < |base|
      ensures base[j] != '\n'
    {
      assert base[j] == line[j - off];
    }
    NewlineCountStretch(base, off, |base|);
    assert base[..|base|] == base;
    NewlineCountMultiset(base);
    LastLineColumns(base, off, Max0(maxWidth));
  }

  /** `prev_glyph` from byte `e` of the line, stopping at its start. */
  function PrevGlyph(e: int): (r: int)
    ensures r == Max0(e - 1)
  {
    if e > 0 then e - 1 else 0
  }

  /** The two searches of one pass (`_find_newline` and
      `_find_index_before_width` on the line starting at `off`). When both
      fail the rest of the C string holds no newline; otherwise `m`, the
      smaller of the two, lies inside the text with no newline before it. */
  method LineSearch(base: string, off: nat, w: int) returns (nl: int, lineEnd: int)
    requires off <= |base| < INT_MAX
    ensures lineEnd == INT_MAX && nl == INT_MAX ==>
              forall j :: 0 <= j < CLen(base[off..]) ==> base[off..][j] != '\n'
    ensures lineEnd == INT_MAX && nl == INT_MAX ==> CLen(base[off..]) <= Max0(w)
    ensures !(lineEnd == INT_MAX && nl == INT_MAX) ==>
              var m := Min(lineEnd, nl);
              0 <= m <= Max0(w) && off + m < |base| && (forall j :: off <= j < off + m ==> base[j] != '\n') &&
              nl != lineEnd &&
              (nl < lineEnd ==> base[off + nl] == '\n') &&
              (nl > lineEnd ==> lineEnd == Max0(w))
    ensures lineEnd != INT_MAX ==>
              lineEnd == Max0(w) && off + lineEnd < |base| &&
              forall j :: off <= j <= off + lineEnd ==> base[j] != '\n'
    ensures nl == FindNewline(base[off..], 0) && lineEnd == IndexBeforeWidth(base[off..], w, 0)
  {
    var line := base[off..];
    nl := FindNewline(line, 0);
    lineEnd := IndexBeforeWidth(line, w, 0);
    if !(lineEnd == INT_MAX && nl == INT_MAX) {
      var m := Min(lineEnd, nl);
      forall j | off <= j < off + m
        ensures base[j] != '\n'
      {
        assert base[j] == line[j - off];
      }
    }
    if lineEnd != INT_MAX {
      forall j | off <= j <= off + lineEnd
        ensures base[j] != '\n'
      {
        assert base[j] == line[j - off];
      }
    }
  }

  /** The last space of the line at `off` among bytes `1..k` of it, as an
      offset from `off`, or -1 when there is none. */
  function LastSpace(base: string, off: nat, k: int): (r: int)
    requires 0 <= k && off + k < |base|
    ensures -1 <= r <= k
    ensures r != -1 ==> 1 <= r && base[off + r] == ' ' && forall j :: off + r < j <= off + k ==> base[j] != ' '
    ensures r == -1 ==> forall j :: off + 1 <= j <= off + k ==> base[j] != ' '
    decreases k
  {
    if k <= 0 then -1 else if base[off + k] == ' ' then k else LastSpace(base, off, k - 1)
  }

  /** Any offset with the properties of `LastSpace` is `LastSpace`. */
  lemma LastSpaceUnique(base: string, off: nat, k: int, r: int)
    requires 0 <= k && off + k < |base| && -1 <= r <= k
    requires r != -1 ==> 1 <= r && base[off + r] == ' ' && forall j :: off + r < j <= off + k ==> base[j] != ' '
    requires r == -1 ==> forall j :: off + 1 <= j <= off + k ==> base[j] != ' '
    ensures r == LastSpace(base, off, k)
  {
    var l := LastSpace(base, off, k);
    if l != -1 {
      assert base[off + l] == ' ';
    }
    if r != -1 {
      assert base[off + r] == ' ';
    }
  }

  /** The break point of the line at `off`, as the search in the source
      finds it: the newline when it comes before the width cut, else the
      last space at or before the cut (-1 when there is none). */
  function BreakAt(base: string, off: nat, nl: int, lineEnd: int): (r: int)
    requires nl >= lineEnd ==> 0 <= lineEnd && off + lineEnd < |base|
  {
    if nl < lineEnd then nl else LastSpace(base, off, lineEnd)
  }

  /** Where the line breaks: at its first newline when that comes before
      the width cut, else at the last space at or before the cut, searching
      back to (but not including) the line's first byte; -1 when there is
      none. The break point is never past the cut or the newline, so the
      source's branch that puts the ".." at the space instead (when it lies
      more than two bytes past them) is never taken. */
  method BreakPoint(base: string, off: nat, nl: int, lineEnd: int) returns (spaceIdx: int)
    requires !(lineEnd == INT_MAX && nl == INT_MAX)
    requires 0 <= Min(lineEnd, nl) && off + Min(lineEnd, nl) < |base|
    requires nl != lineEnd && (nl < lineEnd ==> base[off + nl] == '\n')
    ensures -1 <= spaceIdx <= Min(lineEnd, nl)
    ensures spaceIdx != -1 && spaceIdx == nl ==> base[off + spaceIdx] == '\n'
    ensures spaceIdx != -1 && spaceIdx != nl ==> base[off + spaceIdx] == ' '
    ensures nl < lineEnd ==> spaceIdx == nl
    ensures nl >= lineEnd && spaceIdx != -1 ==>
              1 <= spaceIdx && base[off + spaceIdx] == ' ' &&
              forall j :: off + spaceIdx < j <= off + lineEnd ==> base[j] != ' '
    ensures nl >= lineEnd && spaceIdx == -1 ==> forall j :: off + 1 <= j <= off + lineEnd ==> base[j] != ' '
    ensures spaceIdx == BreakAt(base, off, nl, lineEnd)
  {
    if nl < lineEnd {
      spaceIdx := nl;
    } else {
      spaceIdx := -1;
      var search := lineEnd;
      while search > 0
        invariant 0 <= search <= lineEnd
        invariant forall j :: off + search < j <= off + lineEnd ==> base[j] != ' '
      {
        if base[off + search] == ' ' {
          spaceIdx := search;
          break;
        }
        search := search - 1;
      }
      LastSpaceUnique(base, off, lineEnd, spaceIdx);
    }
  }

  /** The last line allowed, or a line with no space to break at: cut the
      text short at the line's end (or first newline), backed up two
      glyphs, and append "..". */
  method CutWithEllipsis(str: FormattedString, maxLines: int,
                         ret: FormattedString, base: string, off: nat, numLines: int,
                         nl: int, lineEnd: int, spaceIdx: int, maxWidth: int)
    returns (r: FormattedString, cut: nat)
    requires ReflowInv(str, maxLines, ret, base, off, numLines - 1)
    requires 0 <= Min(lineEnd, nl) && off + Min(lineEnd, nl) < |base|
    requires forall j :: off <= j < off + Min(lineEnd, nl) ==> base[j] != '\n'
    requires spaceIdx <= Min(lineEnd, nl)
    requires AtLineStart(base, off) && LinesBefore(base, off, Max0(maxWidth)) && Min(lineEnd, nl) <= Max0(maxWidth)
    ensures cut == off + Max0(Min(lineEnd, nl) - 2)
    ensures cut <= |Plain(str)| && |Plain(r)| == cut + 2 && Plain(r)[cut..] == ".."
    ensures Plain(r) == base[..cut] + ".."
    ensures Reflowed(Plain(str)[..cut], Plain(r)[..cut])
    ensures multiset(Plain(r))['\n'] == numLines - 1 && StringHeight(r) <= maxLines
    ensures LinesAtMost(Plain(r), Max(maxWidth, 2))
    ensures forall p :: 0 <= p < cut ==> ColourAt(r, p, LIGHTGREY) == ColourAt(str, p, LIGHTGREY)
  {
    var ellipses := EllipsisAt(Min(lineEnd, nl), spaceIdx);
    CutResult(str, maxLines, ret, base, off, numLines, ellipses, maxWidth);
    r := ChopBytes(ret, off + ellipses);
    r := AppendString(r, "..");
    cut := off + ellipses;
  }

  /** Where the ".." goes on a line that ends at `lineEnd` (the width cut or
      the newline, whichever is first): at the break point when that lies
      more than two bytes past `lineEnd`, which it never does, else two
      glyphs back from `lineEnd`, stopping at the line's start. */
  method EllipsisAt(lineEnd: int, spaceIdx: int) returns (ellipses: int)
    requires 0 <= lineEnd && spaceIdx <= lineEnd
    ensures ellipses == Max0(lineEnd - 2)
  {
    if spaceIdx != -1 && spaceIdx - lineEnd > 2 {
      ellipses := spaceIdx;
    } else {
      ellipses := lineEnd;
      var i := 0;
      while i < |".."|
        invariant 0 <= i <= 2 && ellipses == Max0(lineEnd - i)
      {
        ellipses := PrevGlyph(ellipses);
        i := i + 1;
      }
    }
  }

  /** Everything about the cut result `ret.chop_bytes(off + e) + ".."`. */
  lemma CutResult(str: FormattedString, maxLines: int,
                  ret: FormattedString, base: string, off: nat, numLines: int, e: nat, maxWidth: int)
    requires ReflowInv(str, maxLines, ret, base, off, numLines - 1)
    requires off + e <= |base| && forall j :: off <= j < off + e ==> base[j] != '\n'
    requires AtLineStart(base, off) && LinesBefore(base, off, Max0(maxWidth)) && e + 2 <= Max(maxWidth, 2)
    ensures var r := AppendString(ChopBytes(ret, off + e), "..");
            off + e <= |Plain(str)| && |Plain(r)| == off + e + 2 && Plain(r)[off + e..] == ".." &&
            Plain(r) == base[..off + e] + ".." &&
            Reflowed(Plain(str)[..off + e], Plain(r)[..off + e]) &&
            multiset(Plain(r))['\n'] == numLines - 1 && StringHeight(r) <= maxLines &&
            LinesAtMost(Plain(r), Max(maxWidth, 2))
    ensures var r := AppendString(ChopBytes(ret, off + e), "..");
            forall p :: 0 <= p < off + e ==> ColourAt(r, p, LIGHTGREY) == ColourAt(str, p, LIGHTGREY)
  {
    Truncated(str, maxLines, ret, base, off, numLines - 1, e);
    CutColumns(base, off, e, Max0(maxWidth));
    CutColours(str, ret, off + e);
  }

  /** `ret.chop_bytes(cut) + ".."` keeps the colour of every byte before the
      "..", as it stood in `str`, of which `ret` is a reshaped copy. */
  lemma CutColours(str: FormattedString, ret: FormattedString, cut: nat)
    requires SameShape(str, ret) && cut <= |Plain(ret)|
    ensures var r := AppendString(ChopBytes(ret, cut), "..");
            forall p :: 0 <= p < cut ==> ColourAt(r, p, LIGHTGREY) == ColourAt(str, p, LIGHTGREY)
  {
    var c := ChopBytes(ret, cut);
    var r := AppendString(c, "..");
    assert c == SubstrBytes(ret, 0, cut);
    ChopBytesPlain(ret, cut);
    assert |Plain(c)| == cut;
    SubstrBytesColours(ret, 0, cut);
    ByteColoursAppend(c, [Text("..")], LIGHTGREY);
    SameShapeColours(str, ret, LIGHTGREY);
    forall p | 0 <= p < cut
      ensures ColourAt(r, p, LIGHTGREY) == ColourAt(str, p, LIGHTGREY)
    {
      ByteColoursAt(r, LIGHTGREY, p);
      ByteColoursAt(c, LIGHTGREY, p);
      ByteColoursAt(ret, LIGHTGREY, p);
      ByteColoursAt(str, LIGHTGREY, p);
    }
  }

  /** A line that ends at a space or a newline before the last allowed
      line: the space becomes a newline (in the buffer and in the
      formatted string alike), and the next pass starts after it. */
  method BreakLine(str: FormattedString, maxLines: int,
                   ret: FormattedString, base: string, off: nat, numLines: int,
                   nl: int, spaceIdx: nat, w: int, ghost fits: bool)
    returns (ret': FormattedString, base': string, off': nat)
    requires PassInv(str, maxLines, ret, base, off, numLines - 1, w, fits) && numLines < maxLines
    requires off + spaceIdx < |base| && forall j :: off <= j < off + spaceIdx ==> base[j] != '\n'
    requires spaceIdx == nl ==> base[off + spaceIdx] == '\n'
    requires spaceIdx != nl ==> base[off + spaceIdx] == ' '
    requires spaceIdx <= w && (fits ==> spaceIdx == nl)
    ensures PassInv(str, maxLines, ret', base', off', numLines, w, fits)
    ensures |base'| == |base| && off < off'
    ensures base' == base[off + spaceIdx := '\n'] && off' == off + spaceIdx + 1
    ensures spaceIdx == nl ==> ret' == ret
  {
    if spaceIdx != nl {
      PassAtSpace(str, maxLines, ret, base, off, numLines, spaceIdx, w, fits);
      base' := base[off + spaceIdx := '\n'];
      ret' := SetByte(ret, off + spaceIdx, '\n').value;
    } else {
      PassAtNewline(str, maxLines, ret, base, off, numLines, spaceIdx, w, fits);
      ret', base' := ret, base;
    }
    off' := off + spaceIdx + 1;
  }

  lemma PassAtSpace(str: FormattedString, maxLines: int,
                    ret: FormattedString, base: string, off: nat, numLines: int, e: nat, w: int, fits: bool)
    requires PassInv(str, maxLines, ret, base, off, numLines - 1, w, fits) && numLines < maxLines
    requires off + e < |base| && base[off + e] == ' ' && !fits && e <= w
    requires forall j :: off <= j < off + e ==> base[j] != '\n'
    ensures SetByte(ret, off + e, '\n').Some?
    ensures PassInv(str, maxLines, SetByte(ret, off + e, '\n').value, base[off + e := '\n'], off + e + 1,
                    numLines, w, fits)
  {
    BreakColumns(base, off, e, w);
    InvBreakAtSpace(str, maxLines, ret, base, off, numLines, e);
  }

  lemma PassAtNewline(str: FormattedString, maxLines: int,
                      ret: FormattedString, base: string, off: nat, numLines: int, e: nat, w: int, fits: bool)
    requires PassInv(str, maxLines, ret, base, off, numLines - 1, w, fits) && numLines < maxLines
    requires off + e < |base| && base[off + e] == '\n' && e <= w
    requires forall j :: off <= j < off + e ==> base[j] != '\n'
    ensures base[off + e := '\n'] == base
    ensures PassInv(str, maxLines, ret, base, off + e + 1, numLines, w, fits)
  {
    BreakColumns(base, off, e, w);
    assert base[off + e := '\n'] == base;
    InvPastNewline(str, maxLines, ret, base, off, numLines, e);
  }

  /** The text already fits: no line is wider than `maxWidth` and there
      are no more than `maxLines` lines. */
  ghost predicate Fits(str: FormattedString, maxWidth: int, maxLines: int) {
    LinesAtMost(Plain(str), maxWidth) && StringHeight(str) <= maxLines
  }

  /** On text that fits, a pass finds no width cut, and the newline it
      stops at is not on the last allowed line. */
  lemma FitsPass(base: string, off: nat, numLines: int, maxWidth: int, maxLines: int, nl: int, lineEnd: int)
    requires LinesAtMost(base, maxWidth) && multiset(base)['\n'] + 1 <= maxLines && |base| < INT_MAX
    requires AtLineStart(base, off) && NewlineCount(base[..off]) == numLines
    requires lineEnd != INT_MAX ==>
               lineEnd == Max0(maxWidth) && off + lineEnd < |base| &&
               forall j :: off <= j <= off + lineEnd ==> base[j] != '\n'
    requires !(lineEnd == INT_MAX && nl == INT_MAX) && nl != lineEnd
    requires 0 <= Min(lineEnd, nl) && off + Min(lineEnd, nl) < |base|
    requires forall j :: off <= j < off + Min(lineEnd, nl) ==> base[j] != '\n'
    requires nl < lineEnd ==> base[off + nl] == '\n'
    ensures nl < lineEnd && numLines + 1 < maxLines
  {
    assert Column(base, 0) <= maxWidth;
    WidthCutColumn(base, off, Max0(maxWidth));
    assert nl < lineEnd;
    CountLine(base, off, nl);
    NewlineCountPrefix(base, off + nl + 1);
  }

  /** What the two searches of a pass tell about the line at `off`: when
      they do not both fail, the smaller result lies inside the text, and
      the break point search stays inside it too. */
  lemma SearchBounds(base: string, off: nat, maxWidth: int)
    requires off <= |base| < INT_MAX
    ensures var line := base[off..];
            var nl := FindNewline(line, 0);
            var lineEnd := IndexBeforeWidth(line, maxWidth, 0);
            !(lineEnd == INT_MAX && nl == INT_MAX) ==>
              0 <= Min(lineEnd, nl) && off + Min(lineEnd, nl) < |base| &&
              (nl >= lineEnd ==> off + lineEnd < |base|)
  {
  }

  /** What one pass of the reflow does. */
  datatype Step = Done | CutAt(cut: nat) | BreakAfter(sp: nat)

  /** One pass on the line that starts at `off`, after `numLines` finished
      lines: it searches the line for its newline and its width cut, and
      when both fail the buffer is done. Otherwise the line breaks at
      `BreakAt`: on the last allowed line, or when there is no break point,
      the buffer is cut two bytes before the line's end; else the line is
      broken there. */
  function PassStep(base: string, off: nat, numLines: int, maxWidth: int, maxLines: int): (st: Step)
    requires off <= |base| < INT_MAX
    ensures st.CutAt? ==> off <= st.cut <= |base|
    ensures st.BreakAfter? ==> off + st.sp < |base|
  {
    var line := base[off..];
    var nl := FindNewline(line, 0);
    var lineEnd := IndexBeforeWidth(line, maxWidth, 0);
    if lineEnd == INT_MAX && nl == INT_MAX then Done
    else
      SearchBounds(base, off, maxWidth);
      var sp := BreakAt(base, off, nl, lineEnd);
      if numLines + 1 >= maxLines || sp == -1 then CutAt(off + Max0(Min(lineEnd, nl) - 2))
      else BreakAfter(sp)
  }

  /** The line's first newline (within its C string) is at `k`. */
  ghost predicate FirstNewlineAt(line: string, k: nat) {
    k < CLen(line) && line[k] == '\n' && forall j :: 0 <= j < k ==> line[j] != '\n'
  }

  /** The line runs past width `w`: its C string is longer than `w` bytes
      and holds no newline among bytes `0..w`. */
  ghost predicate Overflows(line: string, w: nat) {
    w < CLen(line) && forall j :: 0 <= j <= w ==> line[j] != '\n'
  }

  /** `k` is the last space among bytes `1..w` of the line. */
  ghost predicate LastSpaceUpTo(line: string, w: nat, k: nat)
    requires w < |line|
  {
    1 <= k <= w && line[k] == ' ' && forall j :: k < j <= w ==> line[j] != ' '
  }

  /** No byte among `1..w` of the line is a space. */
  ghost predicate NoSpaceUpTo(line: string, w: nat)
    requires w < |line|
  {
    forall j :: 1 <= j <= w ==> line[j] != ' '
  }

  /** What a pass does, in terms of the bytes of its line: it is the last
      pass exactly when the C string ends with no newline and within the
      width; it breaks the line at its first newline when that comes within
      the width, and otherwise, on a line that runs past the width, at the
      last space at or before the width; it cuts the text short exactly on
      the last allowed line or when the line runs past the width with no
      space to break at, two bytes before the line's end. */
  lemma PassStepMeaning(base: string, off: nat, numLines: int, maxWidth: int, maxLines: int)
    requires off <= |base| < INT_MAX
    ensures var st := PassStep(base, off, numLines, maxWidth, maxLines);
            var line := base[off..];
            var w := Max0(maxWidth);
            (st.Done? <==> !Overflows(line, w) && forall j :: 0 <= j < CLen(line) ==> line[j] != '\n') &&
            (st.BreakAfter? ==>
               numLines + 1 < maxLines &&
               ((st.sp <= w && FirstNewlineAt(line, st.sp)) || (Overflows(line, w) && LastSpaceUpTo(line, w, st.sp)))) &&
            (st.CutAt? <==> !st.Done? && (numLines + 1 >= maxLines || (Overflows(line, w) && NoSpaceUpTo(line, w)))) &&
            (st.CutAt? && Overflows(line, w) ==> st.cut == off + Max0(w - 2)) &&
            (st.CutAt? && !Overflows(line, w) ==> st.cut == off + Max0(FindNewline(line, 0) - 2))
  {
    var line := base[off..];
    var w := Max0(maxWidth);
    var nl := FindNewline(line, 0);
    var lineEnd := IndexBeforeWidth(line, maxWidth, 0);
    assert lineEnd != INT_MAX <==> Overflows(line, w);
    if !(lineEnd == INT_MAX && nl == INT_MAX) {
      SearchBounds(base, off, maxWidth);
      var sp := BreakAt(base, off, nl, lineEnd);
      if nl < lineEnd {
        assert nl <= w && FirstNewlineAt(line, nl);
      } else {
        assert Overflows(line, w) && lineEnd == w;
        forall j | 1 <= j <= w
          ensures line[j] == base[off + j]
        {
        }
        if sp != -1 {
          assert LastSpaceUpTo(line, w, sp);
        } else {
          assert NoSpaceUpTo(line, w);
        }
      }
    }
  }

  /** The reflow of the byte buffer `base`, pass by pass from the line that
      starts at `off`: the final buffer and where it was cut (-1 when it was
      not). */
  function Reflowing(base: string, off: nat, numLines: int, maxWidth: int, maxLines: int): (r: (string, int))
    requires off <= |base| < INT_MAX
    decreases |base| - off, 2
  {
    ReflowMid(base, off, numLines, maxWidth, maxLines)
  }

  /** `Reflowing` reaches the pass through this one step more, so that the
      solver, which unfolds a definition at most twice on its own, only
      reaches the searches of a pass where a proof asks for them. */
  function ReflowMid(base: string, off: nat, numLines: int, maxWidth: int, maxLines: int): (r: (string, int))
    requires off <= |base| < INT_MAX
    decreases |base| - off, 1
  {
    ReflowPass(base, off, numLines, maxWidth, maxLines)
  }

  /** The reflow from the line at `off` by its first pass. A cut keeps the
      bytes before it and appends ".."; a break turns the byte at the break
      point into a newline and goes on after it. */
  function ReflowPass(base: string, off: nat, numLines: int, maxWidth: int, maxLines: int): (r: (string, int))
    requires off <= |base| < INT_MAX
    decreases |base| - off, 0
  {
    match PassStep(base, off, numLines, maxWidth, maxLines)
    case Done => (base, -1)
    case CutAt(cut) => (base[..cut] + "..", cut)
    case BreakAfter(sp) => Reflowing(base[off + sp := '\n'], off + sp + 1, numLines + 1, maxWidth, maxLines)
  }

  /** The three outcomes of a pass, given the two search results and the
      break point the method finds. */
  lemma ReflowingDone(base: string, off: nat, numLines: int, maxWidth: int, maxLines: int)
    requires off <= |base| < INT_MAX
    requires FindNewline(base[off..], 0) == INT_MAX && IndexBeforeWidth(base[off..], maxWidth, 0) == INT_MAX
    ensures Reflowing(base, off, numLines, maxWidth, maxLines) == (base, -1)
  {
    assert PassStep(base, off, numLines, maxWidth, maxLines) == Done;
    assert Reflowing(base, off, numLines, maxWidth, maxLines) == ReflowMid(base, off, numLines, maxWidth, maxLines);
    assert ReflowMid(base, off, numLines, maxWidth, maxLines) == ReflowPass(base, off, numLines, maxWidth, maxLines);
  }

  lemma ReflowingCut(base: string, off: nat, numLines: int, maxWidth: int, maxLines: int,
                     nl: int, lineEnd: int, sp: int)
    requires off <= |base| < INT_MAX
    requires nl == FindNewline(base[off..], 0) && lineEnd == IndexBeforeWidth(base[off..], maxWidth, 0)
    requires !(lineEnd == INT_MAX && nl == INT_MAX)
    requires sp == BreakAt(base, off, nl, lineEnd) && (numLines + 1 >= maxLines || sp == -1)
    ensures var cut := off + Max0(Min(lineEnd, nl) - 2);
            cut <= |base| && Reflowing(base, off, numLines, maxWidth, maxLines) == (base[..cut] + "..", cut)
  {
    var cut := off + Max0(Min(lineEnd, nl) - 2);
    assert PassStep(base, off, numLines, maxWidth, maxLines) == CutAt(cut);
    assert Reflowing(base, off, numLines, maxWidth, maxLines) == ReflowMid(base, off, numLines, maxWidth, maxLines);
    assert ReflowMid(base, off, numLines, maxWidth, maxLines) == ReflowPass(base, off, numLines, maxWidth, maxLines);
  }

  lemma ReflowingBreak(base: string, off: nat, numLines: int, maxWidth: int, maxLines: int,
                       nl: int, lineEnd: int, sp: int)
    requires off <= |base| < INT_MAX
    requires nl == FindNewline(base[off..], 0) && lineEnd == IndexBeforeWidth(base[off..], maxWidth, 0)
    requires !(lineEnd == INT_MAX && nl == INT_MAX)
    requires sp == BreakAt(base, off, nl, lineEnd) && numLines + 1 < maxLines && sp != -1
    ensures 0 <= sp && off + sp < |base|
    ensures Reflowing(base, off, numLines, maxWidth, maxLines) ==
            Reflowing(base[off + sp := '\n'], off + sp + 1, numLines + 1, maxWidth, maxLines)
  {
    assert PassStep(base, off, numLines, maxWidth, maxLines) == BreakAfter(sp);
    ReflowingBreakStep(base, off, numLines, maxWidth, maxLines, sp);
  }

  /** After the break at `sp`, the reflow of the rest of the buffer is
      still the reference. */
  lemma ReflowingAfterBreak(base: string, off: nat, numLines: int, maxWidth: int, maxLines: int,
                            nl: int, lineEnd: int, sp: int, base': string, off': nat, reference: (string, int))
    requires off <= |base| < INT_MAX
    requires nl == FindNewline(base[off..], 0) && lineEnd == IndexBeforeWidth(base[off..], maxWidth, 0)
    requires !(lineEnd == INT_MAX && nl == INT_MAX)
    requires sp == BreakAt(base, off, nl, lineEnd) && numLines + 1 < maxLines && sp != -1
    requires Reflowing(base, off, numLines, maxWidth, maxLines) == reference
    requires 0 <= sp && off + sp < |base| && base' == base[off + sp := '\n'] && off' == off + sp + 1
    ensures Reflowing(base', off', numLines + 1, maxWidth, maxLines) == reference
  {
    ReflowingBreak(base, off, numLines, maxWidth, maxLines, nl, lineEnd, sp);
  }

  /** A C string without a NUL byte is all of the buffer. */
  lemma CLenNulFree(s: string)
    requires NulFree(s)
    ensures CLen(s) == |s|
  {
  }

  /** A worked case: "aaaa bbbb cccc" in a box nine bytes wide and two
      lines high wraps at its second space and keeps all of its text. */
  lemma ReflowingWrapsExample()
    ensures Reflowing("aaaa bbbb cccc", 0, 0, 9, 2) == ("aaaa bbbb\ncccc", -1)
  {
    var b: string := "aaaa bbbb cccc";
    ExampleFirstPass(b);
    ReflowingBreakStep(b, 0, 0, 9, 2, 9);
    var b2 := b[9 := '\n'];
    ExampleBreak(b, b2);
    ExampleLastPass(b2);
  }

  lemma ExampleBreak(b: string, b2: string)
    requires b == "aaaa bbbb cccc" && b2 == b[9 := '\n']
    ensures b2 == "aaaa bbbb\ncccc"
  {
    var e: string := "aaaa bbbb\ncccc";
    assert |b2| == |e|;
    forall j | 0 <= j < |e|
      ensures b2[j] == e[j]
    {
    }
  }

  lemma ExampleFirstPass(b: string)
    requires b == "aaaa bbbb cccc"
    ensures PassStep(b, 0, 0, 9, 2) == BreakAfter(9)
  {
    PassStepMeaning(b, 0, 0, 9, 2);
    assert b[0..] == b;
    ExampleFirstLine(b);
    var st := PassStep(b, 0, 0, 9, 2);
    assert st.BreakAfter?;
  }

  lemma ExampleFirstLine(b: string)
    requires b == "aaaa bbbb cccc"
    ensures CLen(b) == |b| && Overflows(b, 9)
    ensures LastSpaceUpTo(b, 9, 9) && !NoSpaceUpTo(b, 9)
  {
    assert NulFree(b);
    CLenNulFree(b);
    assert b[4] == ' ';
  }

  lemma ExampleLastPass(b: string)
    requires b == "aaaa bbbb\ncccc"
    ensures Reflowing(b, 10, 1, 9, 2) == (b, -1)
  {
    var line := b[10..];
    assert line == "cccc";
    assert NulFree(line);
    CLenNulFree(line);
    assert FindNewline(line, 0) == INT_MAX;
    assert IndexBeforeWidth(line, 9, 0) == INT_MAX;
    ReflowingDone(b, 10, 1, 9, 2);
  }

  /** One unfolding of `Reflowing` at a pass that breaks the line at `sp`. */
  lemma ReflowingBreakStep(base: string, off: nat, numLines: int, maxWidth: int, maxLines: int, sp: nat)
    requires off <= |base| < INT_MAX && PassStep(base, off, numLines, maxWidth, maxLines) == BreakAfter(sp)
    ensures off + sp < |base|
    ensures Reflowing(base, off, numLines, maxWidth, maxLines) ==
            Reflowing(base[off + sp := '\n'], off + sp + 1, numLines + 1, maxWidth, maxLines)
  {
    var b2 := base[off + sp := '\n'];
    assert Reflowing(base, off, numLines, maxWidth, maxLines) == ReflowMid(base, off, numLines, maxWidth, maxLines);
    assert ReflowMid(base, off, numLines, maxWidth, maxLines) == ReflowPass(base, off, numLines, maxWidth, maxLines);
    assert ReflowPass(base, off, numLines, maxWidth, maxLines) == Reflowing(b2, off + sp + 1, numLines + 1, maxWidth, maxLines);
  }

  /** What the two searches and the break point tell about the line at
      `off` when the searches do not both fail. */
  lemma SearchFacts(base: string, off: nat, w: int, nl: int, lineEnd: int, spaceIdx: int)
    requires off <= |base| < INT_MAX
    requires nl == FindNewline(base[off..], 0) && lineEnd == IndexBeforeWidth(base[off..], w, 0)
    requires !(lineEnd == INT_MAX && nl == INT_MAX) && spaceIdx == BreakAt(base, off, nl, lineEnd)
    ensures var m := Min(lineEnd, nl);
            0 <= m <= Max0(w) && off + m < |base| && (forall j :: off <= j < off + m ==> base[j] != '\n') &&
            nl != lineEnd && (nl < lineEnd ==> base[off + nl] == '\n')
    ensures lineEnd != INT_MAX ==>
              lineEnd == Max0(w) && off + lineEnd < |base| &&
              forall j :: off <= j <= off + lineEnd ==> base[j] != '\n'
    ensures -1 <= spaceIdx <= Min(lineEnd, nl) && spaceIdx <= Max0(w)
    ensures spaceIdx != -1 && spaceIdx == nl ==> base[off + spaceIdx] == '\n'
    ensures spaceIdx != -1 && spaceIdx != nl ==> base[off + spaceIdx] == ' '
    ensures nl < lineEnd ==> spaceIdx == nl
  {
    var line := base[off..];
    var m := Min(lineEnd, nl);
    forall j | off <= j < off + m
      ensures base[j] != '\n'
    {
      assert base[j] == line[j - off];
    }
    if lineEnd != INT_MAX {
      forall j | off <= j <= off + lineEnd
        ensures base[j] != '\n'
      {
        assert base[j] == line[j - off];
      }
    }
  }

  /** The last allowed line, or a line with no break point: the text is cut
      short with "..", and the result is the reference's. */
  method CutPass(str: FormattedString, maxWidth: int, maxLines: int,
                 ret: FormattedString, base: string, off: nat, numLines: int,
                 nl: int, lineEnd: int, spaceIdx: int, ghost fits: bool, ghost reference: (string, int))
    returns (r: FormattedString, cut: nat)
    requires PassInv(str, maxLines, ret, base, off, numLines, Max0(maxWidth), fits) && fits == Fits(str, maxWidth, maxLines)
    requires |base| < INT_MAX
    requires nl == FindNewline(base[off..], 0) && lineEnd == IndexBeforeWidth(base[off..], maxWidth, 0)
    requires !(lineEnd == INT_MAX && nl == INT_MAX) && spaceIdx == BreakAt(base, off, nl, lineEnd)
    requires numLines + 1 >= maxLines || spaceIdx == -1
    requires Reflowing(base, off, numLines, maxWidth, maxLines) == reference
    ensures 0 <= cut <= |Plain(str)| && |Plain(r)| == cut + 2 && Plain(r)[cut..] == ".."
    ensures Reflowed(Plain(str)[..cut], Plain(r)[..cut])
    ensures StringHeight(r) <= maxLines && LinesAtMost(Plain(r), Max(maxWidth, 2))
    ensures !Fits(str, maxWidth, maxLines)
    ensures forall p :: 0 <= p < cut ==> ColourAt(r, p, LIGHTGREY) == ColourAt(str, p, LIGHTGREY)
    ensures (Plain(r), cut as int) == reference
  {
    SearchFacts(base, off, maxWidth, nl, lineEnd, spaceIdx);
    if fits {
      FitsPass(base, off, numLines, maxWidth, maxLines, nl, lineEnd);
      assert false;
    }
    ReflowingCut(base, off, numLines, maxWidth, maxLines, nl, lineEnd, spaceIdx);
    r, cut := CutWithEllipsis(str, maxLines, ret, base, off, numLines + 1, nl, lineEnd, spaceIdx, maxWidth);
  }

  /** Any other line is broken at its break point, and the reflow of the
      rest is still the reference. */
  method BreakPass(str: FormattedString, maxWidth: int, maxLines: int,
                   ret: FormattedString, base: string, off: nat, numLines: int,
                   nl: int, lineEnd: int, spaceIdx: int, ghost fits: bool, ghost reference: (string, int))
    returns (ret': FormattedString, base': string, off': nat)
    requires PassInv(str, maxLines, ret, base, off, numLines, Max0(maxWidth), fits) && fits == Fits(str, maxWidth, maxLines)
    requires |base| < INT_MAX
    requires nl == FindNewline(base[off..], 0) && lineEnd == IndexBeforeWidth(base[off..], maxWidth, 0)
    requires !(lineEnd == INT_MAX && nl == INT_MAX) && spaceIdx == BreakAt(base, off, nl, lineEnd)
    requires numLines + 1 < maxLines && spaceIdx != -1
    requires Reflowing(base, off, numLines, maxWidth, maxLines) == reference
    ensures PassInv(str, maxLines, ret', base', off', numLines + 1, Max0(maxWidth), fits)
    ensures |base'| == |base| && off < off'
    ensures Reflowing(base', off', numLines + 1, maxWidth, maxLines) == reference
  {
    SearchFacts(base, off, maxWidth, nl, lineEnd, spaceIdx);
    if fits {
      FitsPass(base, off, numLines, maxWidth, maxLines, nl, lineEnd);
      assert spaceIdx == nl;
    }
    ret', base', off' := BreakLine(str, maxLines, ret, base, off, numLines + 1, nl, spaceIdx, Max0(maxWidth), fits);
    ReflowingAfterBreak(base, off, numLines, maxWidth, maxLines, nl, lineEnd, spaceIdx, base', off', reference);
  }

  /** `linebreak_formatted_string`. The second result, which the source
      does not return, tells the two outcomes apart: -1 when the whole text
      fits, otherwise the number of bytes kept before the "..". */
  method Linebreak(str: FormattedString, maxWidth: int, maxLines: int) returns (r: FormattedString, cut: int)
    requires |Plain(str)| < INT_MAX
    ensures maxLines < 1 ==> r == [] && cut == -1
    ensures maxLines >= 1 && cut == -1 ==> Reflowed(Plain(str), Plain(r)) && SameShape(str, r)
    ensures maxLines >= 1 && cut != -1 ==>
              0 <= cut <= |Plain(str)| && |Plain(r)| == cut + 2 && Plain(r)[cut..] == ".." &&
              Reflowed(Plain(str)[..cut], Plain(r)[..cut])
    ensures maxLines >= 1 && (cut != -1 || NulFree(Plain(str))) ==> StringHeight(r) <= maxLines
    ensures cut != -1 || NulFree(Plain(str)) ==> LinesAtMost(Plain(r), Max(maxWidth, 2))
    ensures Fits(str, maxWidth, maxLines) ==> cut == -1 && r == str
    ensures cut != -1 ==> forall p :: 0 <= p < cut ==> ColourAt(r, p, LIGHTGREY) == ColourAt(str, p, LIGHTGREY)
    ensures maxLines >= 1 ==> (Plain(r), cut) == Reflowing(Plain(str), 0, 0, maxWidth, maxLines)
  {
    if maxLines < 1 {
      return [], -1;
    }
    var ret := AppendFormatted([], str);
    var base := ToString(str, 0, -1);
    ToStringDefault(str);
    var numLines := 0;
    var off: nat := 0;
    var w := Max0(maxWidth);
    ghost var fits := Fits(str, maxWidth, maxLines);
    ghost var reference := Reflowing(Plain(str), 0, 0, maxWidth, maxLines);
    InvStart(str, maxLines);
    while true
      invariant PassInv(str, maxLines, ret, base, off, numLines, w, fits)
      invariant |base| < INT_MAX && Reflowing(base, off, numLines, maxWidth, maxLines) == reference
      decreases |base| - off
    {
      var nl, lineEnd := LineSearch(base, off, maxWidth);
      if lineEnd == INT_MAX && nl == INT_MAX {
        ReflowingDone(base, off, numLines, maxWidth, maxLines);
        break;
      }
      var spaceIdx := BreakPoint(base, off, nl, lineEnd);
      if numLines + 1 >= maxLines || spaceIdx == -1 {
        r, cut := CutPass(str, maxWidth, maxLines, ret, base, off, numLines, nl, lineEnd, spaceIdx, fits, reference);
        return;
      }
      ret, base, off := BreakPass(str, maxWidth, maxLines, ret, base, off, numLines, nl, lineEnd, spaceIdx, fits, reference);
      numLines := numLines + 1;
    }
    if NulFree(Plain(str)) {
      Finished(str, maxLines, ret, base, off, numLines, maxWidth);
    }
    return ret, -1;
  }
}

=== FILE: slicing.dfy ===
/** Cutting a formatted string: `chop` by width, `substr_bytes` and
    `chop_bytes` by byte range, `del_char`, and `add_glyph`. */
module Slicing {
  import opened Colours
  import opened Formatted

  function Max0(x: int): nat {
    if x < 0 then 0 else x
  }

  function Min(a: int, b: int): int {
    if a < b then a else b
  }

  function Max(a: int, b: int): int {
    if a < b then b else a
  }

  // ------------------------------------------------------------------ chop

  /** The result keeps a prefix of the ops unchanged, except that its last op
      may be a text run cut short; when ops were dropped, it ends in a text
      run. */
  predicate ChopShape(r: FormattedString, fs: FormattedString) {
    |r| <= |fs| &&
    (forall i :: 0 <= i < |r| - 1 ==> r[i] == fs[i]) &&
    (|r| > 0 ==> r[|r| - 1] == fs[|r| - 1] ||
                 (fs[|r| - 1].Text? && r[|r| - 1].Text? &&
                  r[|r| - 1].text <= fs[|r| - 1].text)) &&
    (|r| < |fs| ==> |r| > 0 && r[|r| - 1].Text?)
  }

  /** `chop(length)`: copy ops in order, counting the width of text runs;
      the text run at which the running width reaches `length` is cut to fit
      and nothing after it is kept. */
  function Chop(fs: FormattedString, length: int): FormattedString
    decreases |fs|
  {
    if fs == [] then []
    else match fs[0]
      case Text(t) =>
        var kept := if |t| > length then t[..Max0(length)] else t;
        if length - |t| <= 0 then [Text(kept)]
        else [Text(kept)] + Chop(fs[1..], length - |t|)
      case Colour(_, _) => [fs[0]] + Chop(fs[1..], length)
  }

  lemma {:induction false} ChopKeepsShape(fs: FormattedString, length: int)
    ensures ChopShape(Chop(fs, length), fs)
    decreases |fs|
  {
    if fs != [] {
      var rest := fs[1..];
      match fs[0]
      case Text(t) =>
        if length - |t| > 0 {
          ChopKeepsShape(rest, length - |t|);
          ChopShapeCons(fs, Chop(rest, length - |t|));
        } else {
          var kept := if |t| > length then t[..Max0(length)] else t;
          assert Chop(fs, length) == [Text(kept)];
          assert kept <= t;
        }
      case Colour(_, _) =>
        ChopKeepsShape(rest, length);
        ChopShapeCons(fs, Chop(rest, length));
    }
  }

  /** Keeping the first op whole in front of a chopped rest. */
  lemma ChopShapeCons(fs: FormattedString, cr: FormattedString)
    requires fs != [] && ChopShape(cr, fs[1..])
    ensures ChopShape([fs[0]] + cr, fs)
  {
    var r := [fs[0]] + cr;
    forall i | 1 <= i < |r|
      ensures r[i] == cr[i - 1] && fs[i] == fs[1..][i - 1]
    {
    }
  }

  /** A prefix of `t + x` that reaches past `t`. */
  lemma PrefixPast(t: string, x: string, n: int)
    requires |t| < n
    ensures (t + x)[..Min(n, |t + x|)] == t + x[..Min(n - |t|, |x|)]
  {
  }

  /** The plain text of `chop(length)` is the first `length` bytes of the
      plain text (every glyph being one column wide). */
  lemma {:induction false} ChopPlain(fs: FormattedString, length: int)
    ensures Plain(Chop(fs, length)) == Plain(fs)[..Min(Max0(length), |Plain(fs)|)]
    decreases |fs|
  {
    if fs != [] {
      var op, rest := fs[0], fs[1..];
      var r := Chop(fs, length);
      assert fs == [op] + rest;
      PlainCons(op, rest);
      match op
      case Text(t) =>
        if length - |t| > 0 {
          var cr := Chop(rest, length - |t|);
          assert r == [Text(t)] + cr;
          PlainCons(Text(t), cr);
          ChopPlain(rest, length - |t|);
          PrefixPast(t, Plain(rest), length);
        } else {
          var kept := if |t| > length then t[..Max0(length)] else t;
          assert r == [Text(kept)] + [];
          PlainCons(Text(kept), []);
          assert Plain(fs)[..Min(Max0(length), |Plain(fs)|)] == kept;
        }
      case Colour(_, _) =>
        var cr := Chop(rest, length);
        assert r == [op] + cr;
        PlainCons(op, cr);
        ChopPlain(rest, length);
    }
  }

  /** `chop` stops at the first text run that reaches `length`: when it
      drops ops, the text it kept already reached `length`, and no text run
      before its last op did. */
  lemma {:induction false} ChopStopsAtLength(fs: FormattedString, length: int)
    ensures |Chop(fs, length)| <= |fs|
    ensures |Chop(fs, length)| < |fs| ==> |Plain(fs[..|Chop(fs, length)|])| >= length
    ensures forall i :: 0 <= i < |Chop(fs, length)| - 1 && fs[i].Text? ==> |Plain(fs[..i + 1])| < length
    decreases |fs|
  {
    if fs != [] {
      var head, rest := fs[0], fs[1..];
      if head.Text? && length - |head.text| <= 0 {
        ChopStopsHere(fs, length);
      } else {
        var len' := if head.Text? then length - |head.text| else length;
        ChopStopsAtLength(rest, len');
        ChopStopsLater(fs, length, len');
        ChopGoesOn(fs, length, len');
      }
    }
  }

  /** A text run `chop` keeps whole before its last op was still short of
      `length`. */
  lemma ChopGoesOn(fs: FormattedString, length: int, len': int)
    requires fs != [] && !(fs[0].Text? && length - |fs[0].text| <= 0)
    requires len' == if fs[0].Text? then length - |fs[0].text| else length
    requires |Chop(fs[1..], len')| <= |fs[1..]|
    requires forall i :: 0 <= i < |Chop(fs[1..], len')| - 1 && fs[1..][i].Text? ==>
               |Plain(fs[1..][..i + 1])| < len'
    ensures |Chop(fs, length)| <= |fs|
    ensures forall i :: 0 <= i < |Chop(fs, length)| - 1 && fs[i].Text? ==> |Plain(fs[..i + 1])| < length
  {
    var head, rest := fs[0], fs[1..];
    var rr := Chop(rest, len');
    ChopGoesPast(fs, length, len');
    assert |OpText(head)| + len' == length;
    forall i | 0 <= i < |rr| && fs[i].Text?
      ensures |Plain(fs[..i + 1])| < length
    {
      ChopGoesOnAt(fs, len', i);
    }
  }

  lemma ChopGoesOnAt(fs: FormattedString, len': int, i: nat)
    requires i < |fs| && fs[i].Text? && (i == 0 ==> |fs[0].text| < |OpText(fs[0])| + len')
    requires i > 0 ==> |Plain(fs[1..][..i])| < len'
    ensures |Plain(fs[..i + 1])| < |OpText(fs[0])| + len'
  {
    assert fs[..i + 1] == [fs[0]] + fs[1..][..i];
    PlainCons(fs[0], fs[1..][..i]);
    if i == 0 {
      assert fs[1..][..0] == [];
    }
  }

  lemma ChopStopsHere(fs: FormattedString, length: int)
    requires fs != [] && fs[0].Text? && length - |fs[0].text| <= 0
    ensures |Chop(fs, length)| == 1 && |Plain(fs[..1])| >= length
  {
    assert fs[..1] == [fs[0]] + [];
    PlainCons(fs[0], []);
  }

  /** A first op that does not reach `length` is kept whole. */
  lemma ChopGoesPast(fs: FormattedString, length: int, len': int)
    requires fs != [] && !(fs[0].Text? && length - |fs[0].text| <= 0)
    requires len' == if fs[0].Text? then length - |fs[0].text| else length
    ensures Chop(fs, length) == [fs[0]] + Chop(fs[1..], len')
  {
    if fs[0].Text? {
      assert !(|fs[0].text| > length);
    }
  }

  lemma ChopStopsLater(fs: FormattedString, length: int, len': int)
    requires fs != [] && !(fs[0].Text? && length - |fs[0].text| <= 0)
    requires len' == if fs[0].Text? then length - |fs[0].text| else length
    requires var rr := Chop(fs[1..], len');
             |rr| < |fs[1..]| ==> |Plain(fs[1..][..|rr|])| >= len'
    ensures |Chop(fs, length)| < |fs| ==> |Plain(fs[..|Chop(fs, length)|])| >= length
  {
    var head, rest := fs[0], fs[1..];
    var rr := Chop(rest, len');
    ChopGoesPast(fs, length, len');
    if |rr| < |rest| {
      assert fs[..|rr| + 1] == [head] + rest[..|rr|];
      PlainCons(head, rest[..|rr|]);
    }
  }

  /** Chopping at a non-negative width never leaves more than that width. */
  lemma ChopWidth(fs: FormattedString, length: int)
    requires length >= 0
    ensures |Plain(Chop(fs, length))| <= length
  {
    ChopPlain(fs, length);
  }

  // ----------------------------------------------------- substr_bytes

  /** `std::string::substr(pos, count)` where `count` arrives as a signed int:
      a negative count turns into a huge unsigned one and takes the rest. */
  function Substr(t: string, pos: nat, count: int): (r: string)
    requires pos <= |t|
    ensures count >= 0 ==> |r| == Min(count, |t| - pos)
    ensures count < 0 ==> |r| == |t| - pos
    ensures r == t[pos..pos + |r|]
  {
    if count < 0 || pos + count > |t| then t[pos..] else t[pos..pos + count]
  }

  /** The loop of `substr_bytes`: `pos` bytes are still to skip, `length`
      bytes still to take, `initial` is the colour op to open the result with
      and `acc` the result built so far. */
  function SubstrLoop(fs: FormattedString, pos: nat, length: int, initial: Op, acc: FormattedString): FormattedString
    decreases |fs|
  {
    if fs == [] then acc
    else match fs[0]
      case Text(t) =>
        if pos >= |t| then SubstrLoop(fs[1..], pos - |t|, length, initial, acc)
        else
          var acc1 := if acc == [] then [initial] else acc;
          var piece := Substr(t, pos, length);
          var acc2 := acc1 + [Text(piece)];
          if length - |piece| <= 0 then acc2
          else SubstrLoop(fs[1..], 0, length - |piece|, initial, acc2)
      case Colour(_, _) =>
        if pos == 0 then SubstrLoop(fs[1..], pos, length, initial, acc + [fs[0]])
        else SubstrLoop(fs[1..], pos, length, fs[0], acc)
  }

  /** The loop only ever appends to what it has built. */
  lemma {:induction false} SubstrLoopExtends(fs: FormattedString, pos: nat, length: int, initial: Op, acc: FormattedString)
    ensures var r := SubstrLoop(fs, pos, length, initial, acc);
            |r| >= |acc| && r[..|acc|] == acc
    decreases |fs|
  {
    if fs != [] {
      match fs[0]
      case Text(t) =>
        if pos >= |t| {
          SubstrLoopExtends(fs[1..], pos - |t|, length, initial, acc);
        } else {
          var acc1 := if acc == [] then [initial] else acc;
          var piece := Substr(t, pos, length);
          var acc2 := acc1 + [Text(piece)];
          if length - |piece| > 0 {
            SubstrLoopExtends(fs[1..], 0, length - |piece|, initial, acc2);
            var r := SubstrLoop(fs[1..], 0, length - |piece|, initial, acc2);
            assert r[..|acc|] == r[..|acc2|][..|acc|];
          }
        }
      case Colour(_, _) =>
        if pos == 0 {
          SubstrLoopExtends(fs[1..], pos, length, initial, acc + [fs[0]]);
          var r := SubstrLoop(fs[1..], pos, length, initial, acc + [fs[0]]);
          assert r[..|acc|] == r[..|acc| + 1][..|acc|];
        } else {
          SubstrLoopExtends(fs[1..], pos, length, fs[0], acc);
        }
    }
  }

  /** `substr_bytes(pos, length)`. A negative `pos` makes the source throw
      out_of_range from `std::string::substr`, so it is excluded. */
  function SubstrBytes(fs: FormattedString, pos: nat, length: int): FormattedString {
    SubstrLoop(fs, pos, length, Colour(LIGHTGREY, None), [])
  }

  /** `chop_bytes(length)`: the first `length` bytes. */
  function ChopBytes(fs: FormattedString, length: int): FormattedString {
    SubstrBytes(fs, 0, length)
  }

  /** Bytes `[pos, pos + len)` of `s`, clipped to its end. */
  function Slice<T>(s: seq<T>, pos: nat, len: nat): seq<T> {
    if pos >= |s| then [] else s[pos..Min(pos + len, |s|)]
  }

  predicate AllColours(fs: FormattedString) {
    forall i :: 0 <= i < |fs| ==> fs[i].Colour?
  }

  lemma SliceSkip<T>(t: seq<T>, rest: seq<T>, pos: nat, len: nat)
    requires pos >= |t|
    ensures Slice(t + rest, pos, len) == Slice(rest, pos - |t|, len)
  {
    if pos < |t + rest| {
      assert (t + rest)[pos..Min(pos + len, |t + rest|)] == rest[pos - |t|..Min(pos - |t| + len, |rest|)];
    }
  }

  lemma SliceTake(t: string, rest: string, pos: nat, len: nat)
    requires pos < |t|
    ensures var piece := Substr(t, pos, len);
            Slice(t + rest, pos, len) == piece + (if len - |piece| <= 0 then "" else Slice(rest, 0, len - |piece|))
  {
    var piece := Substr(t, pos, len);
    if len - |piece| > 0 {
      assert piece == t[pos..];
      assert (t + rest)[pos..Min(pos + len, |t + rest|)] == t[pos..] + rest[0..Min(len - |piece|, |rest|)];
    } else {
      assert (t + rest)[pos..Min(pos + len, |t + rest|)] == t[pos..pos + len];
    }
  }

  lemma TakeAcc(acc: FormattedString, initial: Op, piece: string)
    requires initial.Colour?
    ensures Plain((if acc == [] then [initial] else acc) + [Text(piece)]) == Plain(acc) + piece
  {
    var acc1 := if acc == [] then [initial] else acc;
    if acc == [] {
      PlainCons(initial, []);
    }
    PlainAppend(acc1, [Text(piece)]);
    PlainCons(Text(piece), []);
  }

  lemma TakeSlice(fs: FormattedString, pos: nat, length: nat)
    requires fs != [] && fs[0].Text? && pos < |fs[0].text|
    ensures var piece := Substr(fs[0].text, pos, length);
            Slice(Plain(fs), pos, length) ==
              piece + (if length - |piece| <= 0 then "" else Slice(Plain(fs[1..]), 0, length - |piece|))
  {
    assert fs == [fs[0]] + fs[1..];
    PlainCons(fs[0], fs[1..]);
    SliceTake(fs[0].text, Plain(fs[1..]), pos, length);
  }

  /** The step of `SubstrLoopPlain` where the first op yields text. */
  lemma {:induction false} SubstrLoopPlainTake(fs: FormattedString, pos: nat, length: nat, initial: Op, acc: FormattedString)
    requires initial.Colour? && fs != [] && fs[0].Text? && pos < |fs[0].text|
    ensures Plain(SubstrLoop(fs, pos, length, initial, acc)) == Plain(acc) + Slice(Plain(fs), pos, length)
    decreases |fs|, 0
  {
    var t := fs[0].text;
    var rest := fs[1..];
    var acc1 := if acc == [] then [initial] else acc;
    var piece := Substr(t, pos, length);
    var acc2 := acc1 + [Text(piece)];
    var tail := if length - |piece| <= 0 then "" else Slice(Plain(rest), 0, length - |piece|);
    var r := SubstrLoop(fs, pos, length, initial, acc);
    if length - |piece| > 0 {
      assert r == SubstrLoop(rest, 0, length - |piece|, initial, acc2);
      SubstrLoopPlain(rest, 0, length - |piece|, initial, acc2);
    } else {
      assert r == acc2;
    }
    TakeAcc(acc, initial, piece);
    TakeSlice(fs, pos, length);
    Assoc(Plain(acc), piece, tail);
  }

  lemma {:induction false} SubstrLoopPlain(fs: FormattedString, pos: nat, length: nat, initial: Op, acc: FormattedString)
    requires initial.Colour?
    ensures Plain(SubstrLoop(fs, pos, length, initial, acc)) == Plain(acc) + Slice(Plain(fs), pos, length)
    decreases |fs|, 1
  {
    if fs != [] {
      var rest := fs[1..];
      var r := SubstrLoop(fs, pos, length, initial, acc);
      match fs[0]
      case Text(t) =>
        if pos >= |t| {
          assert r == SubstrLoop(rest, pos - |t|, length, initial, acc);
          SubstrLoopPlain(rest, pos - |t|, length, initial, acc);
          assert Plain(fs) == t + Plain(rest);
          SliceSkip(t, Plain(rest), pos, length);
        } else {
          SubstrLoopPlainTake(fs, pos, length, initial, acc);
        }
      case Colour(_, _) =>
        assert Plain(fs) == Plain(rest);
        if pos == 0 {
          assert r == SubstrLoop(rest, pos, length, initial, acc + [fs[0]]);
          SubstrLoopPlain(rest, pos, length, initial, acc + [fs[0]]);
          PlainAppend(acc, [fs[0]]);
          assert Plain([fs[0]]) == "";
          assert Plain(acc + [fs[0]]) == Plain(acc);
        } else {
          assert r == SubstrLoop(rest, pos, length, fs[0], acc);
          SubstrLoopPlain(rest, pos, length, fs[0], acc);
        }
    }
  }

  /** Plain text of `substr_bytes(pos, len)`: exactly bytes
      `[pos, min(pos + len, n))` of the plain text. */
  lemma SubstrBytesPlain(fs: FormattedString, pos: nat, length: nat)
    ensures Plain(SubstrBytes(fs, pos, length)) == Slice(Plain(fs), pos, length)
  {
    SubstrLoopPlain(fs, pos, length, Colour(LIGHTGREY, None), []);
  }

  /** Plain text of `chop_bytes(len)`: the first `len` bytes. */
  lemma ChopBytesPlain(fs: FormattedString, length: nat)
    ensures Plain(ChopBytes(fs, length)) == Plain(fs)[..Min(length, |Plain(fs)|)]
  {
    SubstrBytesPlain(fs, 0, length);
  }

  lemma {:induction false} PlainOfColours(cs: FormattedString)
    requires AllColours(cs)
    ensures Plain(cs) == ""
    decreases |cs|
  {
    if cs != [] {
      PlainOfColours(cs[1..]);
    }
  }

  /** Text after a non-empty run of colour ops is drawn in the last one's colour. */
  lemma ColourPrefix(cs: FormattedString, x: FormattedString, piece: string)
    requires AllColours(cs) && cs != [] && piece != ""
    ensures ColourAt(cs + [Text(piece)] + x, 0, LIGHTGREY) == cs[|cs| - 1].colour
  {
    PlainOfColours(cs);
    assert cs + [Text(piece)] + x == cs + ([Text(piece)] + x);
    ColourAtAppend(cs, [Text(piece)] + x, 0, LIGHTGREY);
  }

  /** The step of `SubstrLoopColour` where the first op yields text. */
  lemma SubstrLoopColourTake(fs: FormattedString, pos: nat, length: int, initial: Op, acc: FormattedString)
    requires initial.Colour? && AllColours(acc) && (acc != [] ==> pos == 0)
    requires fs != [] && fs[0].Text? && pos < |fs[0].text| && length > 0
    ensures var r := SubstrLoop(fs, pos, length, initial, acc);
            r != [] && r[0].Colour? &&
            ColourAt(r, 0, LIGHTGREY) == (if acc == [] then initial.colour else acc[|acc| - 1].colour)
  {
    var t := fs[0].text;
    var acc1 := if acc == [] then [initial] else acc;
    var piece := Substr(t, pos, length);
    var acc2 := acc1 + [Text(piece)];
    var r := SubstrLoop(fs, pos, length, initial, acc);
    if length - |piece| > 0 {
      assert r == SubstrLoop(fs[1..], 0, length - |piece|, initial, acc2);
      SubstrLoopExtends(fs[1..], 0, length - |piece|, initial, acc2);
    } else {
      assert r == acc2;
    }
    assert r[..|acc2|] == acc2;
    assert r == acc1 + [Text(piece)] + r[|acc2|..];
    ColourPrefix(acc1, r[|acc2|..], piece);
  }

  lemma {:induction false} SubstrLoopColour(fs: FormattedString, pos: nat, length: int, initial: Op, acc: FormattedString)
    requires initial.Colour? && AllColours(acc) && (acc != [] ==> pos == 0)
    requires pos < |Plain(fs)| && length > 0
    ensures var r := SubstrLoop(fs, pos, length, initial, acc);
            r != [] && r[0].Colour? &&
            ColourAt(r, 0, LIGHTGREY) == ColourAt(fs, pos, if acc == [] then initial.colour else acc[|acc| - 1].colour)
    decreases |fs|
  {
    var cur := if acc == [] then initial.colour else acc[|acc| - 1].colour;
    var rest := fs[1..];
    assert Plain(fs) == OpText(fs[0]) + Plain(rest);
    match fs[0]
    case Text(t) =>
      if pos >= |t| {
        SubstrLoopColour(rest, pos - |t|, length, initial, acc);
      } else {
        SubstrLoopColourTake(fs, pos, length, initial, acc);
      }
    case Colour(c, _) =>
      if pos == 0 {
        SubstrLoopColour(rest, pos, length, initial, acc + [fs[0]]);
      } else {
        SubstrLoopColour(rest, pos, length, fs[0], acc);
      }
  }

  lemma SliceAt<T>(s: seq<T>, pos: nat, len: nat, p: nat)
    requires p < |Slice(s, pos, len)|
    ensures pos + p < |s| && Slice(s, pos, len)[p] == s[pos + p]
  {
  }

  /** Taking `k` elements from `x` at `pos`, and `j` more only once `x` is
      used up. */
  lemma SliceAcross<T>(x: seq<T>, y: seq<T>, pos: nat, k: nat, j: nat)
    requires pos + k <= |x| && (j > 0 ==> pos + k == |x|)
    ensures Slice(x + y, pos, k + j) == x[pos..pos + k] + Slice(y, 0, j)
  {
    if pos < |x + y| {
      assert (x + y)[pos..Min(pos + k + j, |x + y|)] == x[pos..pos + k] + y[0..Min(j, |y|)];
    }
  }

  /** The colour in effect where the `substr_bytes` loop stands. */
  function LoopColour(initial: Op, acc: FormattedString): int
    requires initial.Colour?
  {
    if acc == [] then initial.colour else LastColourOr(acc, LIGHTGREY)
  }

  /** Opening the result (when needed) and taking a piece colours the piece
      in the colour the loop stands in, and leaves that colour in effect. */
  lemma TakeColours(acc: FormattedString, initial: Op, piece: string)
    requires initial.Colour?
    ensures var acc2 := (if acc == [] then [initial] else acc) + [Text(piece)];
            ByteColours(acc2, LIGHTGREY) == ByteColours(acc, LIGHTGREY) + Repeat(LoopColour(initial, acc), |piece|) &&
            LoopColour(initial, acc2) == LoopColour(initial, acc)
  {
    var acc1 := if acc == [] then [initial] else acc;
    var cur := LastColourOr(acc1, LIGHTGREY);
    ByteColoursAppend(acc1, [Text(piece)], LIGHTGREY);
    assert ByteColours([Text(piece)], cur) == Repeat(cur, |piece|) + ByteColours([], cur);
    LastColourOrAppend(acc1, [Text(piece)], LIGHTGREY);
    if acc == [] {
      assert ByteColours([initial], LIGHTGREY) == ByteColours([], initial.colour);
    }
  }

  /** The colours of the bytes `r` adds to `acc` are those of `src` from
      `pos` on. */
  ghost predicate ColoursFollow(r: FormattedString, acc: FormattedString, src: seq<int>, pos: nat) {
    |Plain(r)| >= |Plain(acc)| &&
    ByteColours(r, LIGHTGREY) == ByteColours(acc, LIGHTGREY) + Slice(src, pos, |Plain(r)| - |Plain(acc)|)
  }

  /** The step of `SubstrLoopColours` where the first op yields text. */
  lemma {:induction false} SubstrLoopColoursTake(fs: FormattedString, pos: nat, length: int, initial: Op, acc: FormattedString)
    requires initial.Colour? && (acc != [] ==> pos == 0)
    requires fs != [] && fs[0].Text? && pos < |fs[0].text|
    ensures ColoursFollow(SubstrLoop(fs, pos, length, initial, acc), acc, ByteColours(fs, LoopColour(initial, acc)), pos)
    decreases |fs|, 0
  {
    var t := fs[0].text;
    var rest := fs[1..];
    var cur := LoopColour(initial, acc);
    var acc1 := if acc == [] then [initial] else acc;
    var piece := Substr(t, pos, length);
    var acc2 := acc1 + [Text(piece)];
    var r := SubstrLoop(fs, pos, length, initial, acc);
    TakeColours(acc, initial, piece);
    TakeAcc(acc, initial, piece);
    assert |Plain(acc2)| == |Plain(acc)| + |piece|;
    RepeatSlice(cur, |t|, pos, |piece|);
    assert ByteColours(acc2, LIGHTGREY) == ByteColours(acc, LIGHTGREY) + Repeat(cur, |t|)[pos..pos + |piece|];
    assert ByteColours(fs, cur) == Repeat(cur, |t|) + ByteColours(rest, cur);
    if length - |piece| > 0 {
      assert r == SubstrLoop(rest, 0, length - |piece|, initial, acc2);
      SubstrLoopColours(rest, 0, length - |piece|, initial, acc2);
      assert LoopColour(initial, acc2) == cur;
      assert ColoursFollow(r, acc2, ByteColours(rest, cur), 0);
      assert pos + |piece| == |t|;
      FollowAfterPiece(r, acc, acc2, Repeat(cur, |t|), pos, |piece|, ByteColours(rest, cur));
    } else {
      assert r == acc2;
      assert ColoursFollow(r, acc2, ByteColours(rest, cur), 0);
      FollowAfterPiece(r, acc, acc2, Repeat(cur, |t|), pos, |piece|, ByteColours(rest, cur));
    }
  }

  /** Bytes `[pos, pos + k)` taken from the run `x`, then more only once the
      run is used up. */
  lemma FollowAfterPiece(r: FormattedString, acc: FormattedString, acc2: FormattedString, x: seq<int>, pos: nat, k: nat, y: seq<int>)
    requires pos + k <= |x|
    requires |Plain(acc2)| == |Plain(acc)| + k
    requires ByteColours(acc2, LIGHTGREY) == ByteColours(acc, LIGHTGREY) + x[pos..pos + k]
    requires ColoursFollow(r, acc2, y, 0)
    requires pos + k == |x| || |Plain(r)| == |Plain(acc2)|
    ensures ColoursFollow(r, acc, x + y, pos)
  {
    SliceFollow(ByteColours(r, LIGHTGREY), ByteColours(acc2, LIGHTGREY), ByteColours(acc, LIGHTGREY),
                |Plain(r)|, |Plain(acc2)|, |Plain(acc)|, x, pos, k, y);
  }

  /** `FollowAfterPiece` on the sequences alone: `br`, `b2`, `b` stand for
      the byte colours and `nr`, `n2`, `n` for the plain lengths. */
  lemma SliceFollow(br: seq<int>, b2: seq<int>, b: seq<int>, nr: int, n2: int, n: int, x: seq<int>, pos: nat, k: nat, y: seq<int>)
    requires pos + k <= |x| && n2 == n + k && b2 == b + x[pos..pos + k]
    requires nr >= n2 && br == b2 + Slice(y, 0, nr - n2)
    requires pos + k == |x| || nr == n2
    ensures nr >= n && br == b + Slice(x + y, pos, nr - n)
  {
    var head := x[pos..pos + k];
    var tail := Slice(y, 0, nr - n2);
    SliceAcross(x, y, pos, k, nr - n2);
    assert b + head + tail == b + (head + tail);
  }

  lemma RepeatSlice(c: int, m: nat, pos: nat, k: nat)
    requires pos + k <= m
    ensures Repeat(c, m)[pos..pos + k] == Repeat(c, k)
  {
  }

  /** The loop of `substr_bytes` colours each byte it takes as the byte was
      coloured in the input: the colours of the bytes it adds to `acc` are a
      run of the input's colours starting at byte `pos`. */
  lemma {:induction false} SubstrLoopColours(fs: FormattedString, pos: nat, length: int, initial: Op, acc: FormattedString)
    requires initial.Colour? && (acc != [] ==> pos == 0)
    ensures ColoursFollow(SubstrLoop(fs, pos, length, initial, acc), acc, ByteColours(fs, LoopColour(initial, acc)), pos)
    decreases |fs|, 1
  {
    if fs == [] {
      assert SubstrLoop(fs, pos, length, initial, acc) == acc;
      assert ByteColours(acc, LIGHTGREY) + [] == ByteColours(acc, LIGHTGREY);
    } else {
      var rest := fs[1..];
      var cur := LoopColour(initial, acc);
      var r := SubstrLoop(fs, pos, length, initial, acc);
      match fs[0]
      case Text(t) =>
        if pos >= |t| {
          assert r == SubstrLoop(rest, pos - |t|, length, initial, acc);
          SubstrLoopColours(rest, pos - |t|, length, initial, acc);
          var n := |Plain(r)| - |Plain(acc)|;
          assert ByteColours(fs, cur) == Repeat(cur, |t|) + ByteColours(rest, cur);
          SliceSkip(Repeat(cur, |t|), ByteColours(rest, cur), pos, n);
          assert Slice(ByteColours(fs, cur), pos, n) == Slice(ByteColours(rest, cur), pos - |t|, n);
          assert ByteColours(r, LIGHTGREY) == ByteColours(acc, LIGHTGREY) + Slice(ByteColours(rest, cur), pos - |t|, n);
          assert ByteColours(r, LIGHTGREY) == ByteColours(acc, LIGHTGREY) + Slice(ByteColours(fs, cur), pos, n);
        } else {
          SubstrLoopColoursTake(fs, pos, length, initial, acc);
          assert ColoursFollow(r, acc, ByteColours(fs, cur), pos);
        }
      case Colour(c, _) =>
        if pos == 0 {
          assert r == SubstrLoop(rest, 0, length, initial, acc + [fs[0]]);
          SubstrLoopColoursOp(rest, length, initial, acc, fs[0]);
          assert ByteColours(fs, cur) == ByteColours(rest, c);
          assert ColoursFollow(r, acc, ByteColours(rest, c), 0);
        } else {
          assert r == SubstrLoop(rest, pos, length, fs[0], acc);
          SubstrLoopColours(rest, pos, length, fs[0], acc);
          assert ByteColours(fs, cur) == ByteColours(rest, c);
          assert ColoursFollow(r, acc, ByteColours(rest, c), pos);
        }
    }
  }

  /** The step of `SubstrLoopColours` where a colour op is kept. */
  lemma {:induction false} SubstrLoopColoursOp(rest: FormattedString, length: int, initial: Op, acc: FormattedString, op: Op)
    requires initial.Colour? && op.Colour?
    ensures ColoursFollow(SubstrLoop(rest, 0, length, initial, acc + [op]), acc, ByteColours(rest, op.colour), 0)
    decreases |rest| + 1, 0
  {
    var r := SubstrLoop(rest, 0, length, initial, acc + [op]);
    SubstrLoopColours(rest, 0, length, initial, acc + [op]);
    assert LoopColour(initial, acc + [op]) == op.colour;
    assert ColoursFollow(r, acc + [op], ByteColours(rest, op.colour), 0);
    PlainAppend(acc, [op]);
    assert Plain([op]) == "";
    assert |Plain(acc + [op])| == |Plain(acc)|;
    ByteColoursAppend(acc, [op], LIGHTGREY);
    assert ByteColours([op], LastColourOr(acc, LIGHTGREY)) == [];
    assert ByteColours(acc + [op], LIGHTGREY) == ByteColours(acc, LIGHTGREY);
  }

  /** `substr_bytes` keeps the colours: byte `p` of the result is in the
      colour that byte `pos + p` of the input was in. */
  lemma SubstrBytesColours(fs: FormattedString, pos: nat, length: int)
    ensures var r := SubstrBytes(fs, pos, length);
            forall p :: 0 <= p < |Plain(r)| ==>
              pos + p < |Plain(fs)| && ColourAt(r, p, LIGHTGREY) == ColourAt(fs, pos + p, LIGHTGREY)
  {
    var r := SubstrBytes(fs, pos, length);
    var x := ByteColours(fs, LIGHTGREY);
    SubstrLoopColours(fs, pos, length, Colour(LIGHTGREY, None), []);
    assert ColoursFollow(r, [], x, pos);
    assert ByteColours([], LIGHTGREY) == [] && |Plain([])| == 0;
    assert ByteColours(r, LIGHTGREY) == Slice(x, pos, |Plain(r)|);
    forall p | 0 <= p < |Plain(r)|
      ensures pos + p < |Plain(fs)| && ColourAt(r, p, LIGHTGREY) == ColourAt(fs, pos + p, LIGHTGREY)
    {
      ByteColoursAt(r, LIGHTGREY, p);
      SliceAt(x, pos, |Plain(r)|, p);
      ByteColoursAt(fs, LIGHTGREY, pos + p);
    }
  }

  /** A non-empty `substr_bytes` starts with a colour op, and its text starts
      in the colour that was in effect at byte `pos` of the input (LIGHTGREY
      when no colour op stands before it). */
  lemma SubstrBytesColour(fs: FormattedString, pos: nat, length: int)
    requires pos < |Plain(fs)| && length > 0
    ensures var r := SubstrBytes(fs, pos, length);
            r != [] && r[0].Colour? && ColourAt(r, 0, LIGHTGREY) == ColourAt(fs, pos, LIGHTGREY)
  {
    SubstrLoopColour(fs, pos, length, Colour(LIGHTGREY, None), []);
  }

  // ------------------------------------------------------------- del_char

  /** `del_char`: remove the first glyph of the first non-empty text run;
      a run holding just that glyph is removed altogether. */
  function DelChar(fs: FormattedString): (r: FormattedString)
    ensures |fs| - 1 <= |r| <= |fs|
    ensures ColourOps(r) == ColourOps(fs)
    decreases |fs|
  {
    if fs == [] then []
    else if fs[0].Text? && |fs[0].text| > 0 then
      if |fs[0].text| == 1 then fs[1..] else [Text(fs[0].text[1..])] + fs[1..]
    else [fs[0]] + DelChar(fs[1..])
  }

  /** `del_char` drops exactly the first byte of the plain text, and changes
      nothing when there is no text. */
  lemma {:induction false} DelCharPlain(fs: FormattedString)
    ensures Plain(DelChar(fs)) == if Plain(fs) == "" then "" else Plain(fs)[1..]
    ensures Plain(fs) == "" ==> DelChar(fs) == fs
    decreases |fs|
  {
    if fs != [] {
      var rest := fs[1..];
      assert fs == [fs[0]] + rest;
      PlainCons(fs[0], rest);
      if fs[0].Text? && |fs[0].text| > 0 {
        var t := fs[0].text;
        if |t| > 1 {
          PlainCons(Text(t[1..]), rest);
        }
      } else {
        DelCharPlain(rest);
        PlainCons(fs[0], DelChar(rest));
        assert DelChar(fs) == [fs[0]] + DelChar(rest);
      }
    }
  }

  // ------------------------------------------------------------ add_glyph

  /** The ops `add_glyph` appends when `last` is the colour in effect. */
  function GlyphOps(glyph: string, col: int, last: int): FormattedString {
    if last != col then [Colour(col, None), Text(glyph), Colour(last, Some(col))] else [Text(glyph)]
  }

  lemma GlyphOpsFacts(glyph: string, col: int, last: int)
    ensures Plain(GlyphOps(glyph, col, last)) == glyph
    ensures LastColourOr(GlyphOps(glyph, col, last), last) == last
    ensures glyph != "" ==> ColourAt(GlyphOps(glyph, col, last), 0, last) == col
  {
    var ops := GlyphOps(glyph, col, last);
    if last != col {
      assert ops == [Colour(col, None)] + ([Text(glyph)] + [Colour(last, Some(col))]);
      PlainCons(Text(glyph), [Colour(last, Some(col))]);
      PlainCons(Colour(last, Some(col)), []);
      PlainCons(Colour(col, None), [Text(glyph)] + [Colour(last, Some(col))]);
      assert ops[1..] == [Text(glyph), Colour(last, Some(col))];
    } else {
      PlainCons(Text(glyph), []);
      assert ops[..0] == [];
    }
  }

  /** `add_glyph`: write the glyph's text in the glyph's colour, then switch
      back to the colour that was in effect (marking the switch as closing
      the glyph's colour). */
  function AddGlyph(fs: FormattedString, glyph: string, col: int): FormattedString {
    fs + GlyphOps(glyph, col, FindLastColour(fs))
  }

  /** `add_glyph` appends the glyph's text to the plain text. */
  lemma AddGlyphPlain(fs: FormattedString, glyph: string, col: int)
    ensures Plain(AddGlyph(fs, glyph, col)) == Plain(fs) + glyph
  {
    var tail := GlyphOps(glyph, col, FindLastColour(fs));
    GlyphOpsFacts(glyph, col, FindLastColour(fs));
    PlainAppend(fs, tail);
  }

  /** After `add_glyph`, later text is drawn in the colour in effect before. */
  lemma AddGlyphRestores(fs: FormattedString, glyph: string, col: int)
    ensures FindLastColour(AddGlyph(fs, glyph, col)) == FindLastColour(fs)
  {
    var last := FindLastColour(fs);
    var tail := GlyphOps(glyph, col, last);
    GlyphOpsFacts(glyph, col, last);
    LastColourOrAppend(fs, tail, LIGHTGREY);
  }

  /** The glyph itself is drawn in its colour `col`. */
  lemma AddGlyphColour(fs: FormattedString, glyph: string, col: int)
    requires glyph != ""
    ensures ColourAt(AddGlyph(fs, glyph, col), |Plain(fs)|, LIGHTGREY) == col
  {
    var last := FindLastColour(fs);
    var tail := GlyphOps(glyph, col, last);
    GlyphOpsFacts(glyph, col, last);
    ColourAtAppend(fs, tail, 0, LIGHTGREY);
  }
}
